=== FILE: README.md ===
# qicq in Dafny

qicq is a header-only C++ library in the style of q and k. Its data are
atoms, `vec`s (ordered homogeneous vectors) and `dict`s (a key vec and a
value vec side by side, looked up by first match). Over these it offers:

- adverbs (`each`, `eachLeft`, `eachRight`, `eachBoth`, `eachMany`,
  `eachPrior`, `over`, `scan`, `converge`) that lift scalar functions to
  vecs and dicts;
- operators that broadcast atomically, and merge two dicts key by key;
- a function library (`take`, `drop`, `cut`, `where`, `group`, `asc`,
  `iasc`, `rank` and many more).

This project models that core as pure Dafny functions over immutable
values:

- a `vec<T>` is a `seq<T>`;
- a `dict<K,V>` is the datatype `Dict(keys, vals)` with the invariant
  `Valid()` that both have the same length;
- C++ integer division and remainder, which truncate toward zero, are
  written out as `TruncDiv` and `TruncMod`;
- `std::stable_sort` is a stable insertion sort;
- every place where the source asserts a precondition, would read out
  of bounds, or would take a remainder by zero (`rotate`, `take` and the
  reshapes on an empty vec) becomes a `requires`, or an `Option` result where the
  behaviour on that input is the point.
- the contracts of `distinct`, `iasc` and `idesc` are shown to admit
  exactly one result each, so they say everything the functions do.

The modules follow the header's sections:

| module | file | what it holds |
|---|---|---|
| `Values` | values.dfy | `Option`, `Dict`, first-match lookup, `til`, `at`, flattening |
| `Adverbs` | adverbs.dfy | the adverbs, including the seeded forms and the dict forms |
| `Atomic` | atomic.dfy | truncating `/` and `%`, atomic broadcast, the dict-dict merges |
| `Reduce` | reduce.dfy | `sum`, `min`, `max`, `all`, `any` |
| `Indexing` | indexing.dfy | `where`, `deltas`, `differ` |
| `Sets` | sets.dfy | `distinct`, `union`, `in`, `except`, `inter`, `find`, `group` |
| `Shape` | shape.dfy | `take` (with reshape), `drop`, `sublist`, `rotate`, `reverse`, `join`, `raze`, `cut` |
| `Sorting` | sorting.dfy | `asc`, `desc`, `iasc`, `idesc`, `rank` and their dict forms |
| `Matching` | matching.dfy | `match`, structural equality |
| `Examples` | examples.dfy | cases from the library's test suite, stated about the model |

Each operation is paired with a property that ties it to something
independent of its body. Some of these are reference definitions:

- `Keep` for `except` and `inter`;
- `Positions` for `group`;
- `Trues` for `where` of flags;
- `Latest` for `join` on dicts;
- a "missing side is below every integer" order for the relational
  merges.

Others are inverses or invariants:

- `rotate` by `-n` undoes `rotate` by `n`;
- `reverse` is an involution;
- `scan` of `+` and `deltas` are mutual inverses;
- `rank` inverts `iasc`;
- `take` and `drop` split a vec;
- the pieces of `cut` and the rows of a reshape flatten back to the vec.

## Model

| member | source | states |
|---|---|---|
| `Values.Find` | qicq.h:1258-1262 | `find` of an atom in a vec: the index of the first occurrence, and the length exactly when the atom is absent |
| `Values.FindIsFirstOccurrence` | qicq.h:1258-1262 | `find` returns `k` exactly when `k` is the first occurrence of the atom, or the length when it is absent |
| `Values.Get` | qicq.h:212-215 | the const dict lookup yields the value at the first position holding the key |
| `Values.Set` | qicq.h:204-211 | `d(k) = v` overwrites the first entry for `k` or appends `k`; afterwards `k` looks up to `v`, every other key keeps its value, and every stored value but the one at the first match for `k` stays in place, including those under repeated keys |
| `Values.Index` | qicq.h:204-211 | a read through the non-const lookup returns the present value unchanged, or appends `k` with the default value after the old values, which stay in place |
| `Values.Lookup` | qicq.h:189-191 | the lookup succeeds exactly when `has` holds |
| `Values.Has` | qicq.h:189-191 | no contract of its own: `has` is membership among the keys, and `Values.Lookup` succeeds exactly when it holds |
| `Values.Til` | qicq.h:994-1002 | `til(n)` is `0, 1, ..., n-1` |
| `Values.At` | qicq.h:1037-1039 | `at` with an index vec picks `x[idx[i]]` for every `i`, in the order of the indices |
| `Values.AtConcat` | qicq.h:1037-1039 | `at` distributes over concatenation of the index vec |
| `Values.AtKeys` | qicq.h:1041-1043 | `at` of a dict with a key vec is the lookup of each key |
| `Values.AtAllKeys` | qicq.h:1041-1043 | asking a dict without repeated keys for all its keys gives back its values |
| `Adverbs.Each` | qicq.h:536-541 | `each` on a vec: same length, `f` applied at every position |
| `Adverbs.EachDict` | qicq.h:542-545 | `each` on a dict keeps the keys and maps the values |
| `Adverbs.EachCompose` | qicq.h:536-541 | mapping twice is mapping the composition once |
| `Adverbs.EachLeft` | qicq.h:562-565 | `eachLeft` holds the right argument fixed across the left vec |
| `Adverbs.EachLeftDict` | qicq.h:566-569 | `eachLeft` with a dict on the left keeps its keys |
| `Adverbs.EachRight` | qicq.h:589-592 | `eachRight` holds the left argument fixed across the right vec |
| `Adverbs.EachRightDict` | qicq.h:593-596 | `eachRight` with a dict on the right keeps its keys |
| `Adverbs.EachBoth` | qicq.h:654-661 | `eachBoth` on two vecs of asserted equal length pairs them position by position |
| `Adverbs.EachBothDictVec` | qicq.h:650-653 | a dict against a vec pairs the dict's values with the vec and returns a plain vec |
| `Adverbs.EachBothVecDict` | qicq.h:662-665 | a vec against a dict pairs the vec with the dict's values and returns a plain vec |
| `Adverbs.EachBothConstant` | qicq.h:614-643 | `eachBoth` against a constant side is `eachLeft` or `eachRight` |
| `Adverbs.EachMany` | qicq.h:689-694 | `eachMany` calls `f` once per position of the first vec, on that position of every vec |
| `Adverbs.EachManyTwo` | qicq.h:689-694 | with two vecs of equal length, `eachMany` is `eachBoth` |
| `Adverbs.EachPrior` | qicq.h:713-722 | `eachPrior` keeps the first element and gives `f(x[i], x[i-1])` after it |
| `Adverbs.EachPriorSeeded` | qicq.h:738-747 | the seeded form pairs the first element with the seed |
| `Adverbs.EachPriorDict` | qicq.h:723-726 | `eachPrior` on a dict keeps its keys |
| `Adverbs.EachPriorSeededIsShiftedZip` | qicq.h:738-747 | the seeded `eachPrior` is `eachBoth` against the vec shifted right with the seed in front |
| `Adverbs.EachPriorIsSeededOnTail` | qicq.h:713-722 | the unseeded form is the head followed by the seeded form of the tail, seeded with the head |
| `Adverbs.OverSeededCons` | qicq.h:793-797 | the seeded `over` (`std::accumulate`) folds the first element into the seed and carries on with the rest |
| `Adverbs.Over` | qicq.h:780-785 | the unseeded `over` returns a single element as it is and otherwise folds from `f(x[0], x[1])` |
| `Adverbs.OverDict` | qicq.h:786-789 | `over` on a dict folds the dict's values: the seeded fold of the later values from the first |
| `Adverbs.OverSeeded` | qicq.h:793-797 | no contract of its own: the seeded fold; `Adverbs.OverSeededCons` states the `std::accumulate` loop form and `Adverbs.OverSeededIsLastOfScan` relates it to `scan` |
| `Adverbs.OverSnoc` | qicq.h:780-785 | folding a longer vec applies `f` last to the final element |
| `Adverbs.ScanSeeded` | qicq.h:843-852 | the seeded `scan` starts with `f(seed, x[0])` and applies `f` to the previous result and the next element |
| `Adverbs.Scan` | qicq.h:822-827 | `scan` (`std::partial_sum`) keeps the first element and applies `f` to the previous result and the next element |
| `Adverbs.ScanDict` | qicq.h:828-831 | `scan` on a dict keeps its keys |
| `Adverbs.ScanSeededIsPrefixFolds` | qicq.h:843-852 | every entry of the seeded `scan` is the seeded `over` of the prefix ending there |
| `Adverbs.OverSeededIsLastOfScan` | qicq.h:793-797 | the seeded `over` is the seed on an empty vec and otherwise the last entry of the seeded `scan` |
| `Adverbs.OverIsLastOfScan` | qicq.h:780-785 | the unseeded `over` is the last entry of the unseeded `scan` |
| `Adverbs.ScanPrefix` | qicq.h:822-827 | the `scan` of a prefix is the prefix of the `scan` |
| `Adverbs.Converge` | qicq.h:1699-1704 | a `converge` result is a fixed point of `f` or the original argument |
| `Adverbs.ConvergeFixedPoint` | qicq.h:1699-1704 | an argument `f` already fixes is returned after one step |
| `Adverbs.ConvergeMoreFuel` | qicq.h:1699-1704 | once `converge` has an answer, more steps do not change it |
| `Atomic.TruncDiv` | qicq.h:968 | C++ `/` on integers: the magnitude of the quotient is the floor of the magnitudes' quotient, with the sign of the operands' product |
| `Atomic.Arith` | qicq.h:965-969 | no contract of its own: the five arithmetic operators, with `/` and `%` as `Atomic.TruncDiv` and `Atomic.TruncMod` |
| `Atomic.Identity` | qicq.h:965-968 | the fill for a missing side (0 for `+` and `-`, 1 for `*` and `/`) is a right identity of the operator, and a left identity of `+` and `*` |
| `Atomic.Rel` | qicq.h:970-975 | no contract of its own: the six comparisons |
| `Atomic.NoLhs` | qicq.h:970-975 | `no_lhs` is what the comparison gives whenever the left value is below the right one |
| `Atomic.NoRhs` | qicq.h:970-975 | `no_rhs` is what the comparison gives whenever the left value is above the right one |
| `Atomic.TruncMod` | qicq.h:969 | C++ `%` on integers: smaller than the divisor in magnitude, zero or with the sign of the dividend |
| `Atomic.TruncDivMod` | qicq.h:968-969 | quotient times divisor plus remainder is the dividend |
| `Atomic.TruncAgreesOnNonNegative` | qicq.h:968-969 | on non-negative operands truncation is Euclidean division |
| `Atomic.TruncOddInDividend` | qicq.h:968-969 | negating the dividend negates quotient and remainder |
| `Atomic.VecAtom` | qicq.h:886-891 | vec op atom applies the operator between each element and the atom |
| `Atomic.AtomVec` | qicq.h:892-896 | atom op vec applies the operator between the atom and each element |
| `Atomic.VecVec` | qicq.h:897-904 | vec op vec, of asserted equal sizes, combines position by position |
| `Atomic.DictAtom` | qicq.h:905-909 | dict op atom keeps the keys and combines each value with the atom |
| `Atomic.AtomDict` | qicq.h:910-914 | atom op dict keeps the keys and combines the atom with each value |
| `Atomic.DictVec` | qicq.h:915-919 | dict op vec keeps the dict's keys and combines its values with the vec |
| `Atomic.VecDict` | qicq.h:920-924 | vec op dict keeps the dict's keys and combines the vec with its values |
| `Atomic.AtomBroadcastIsReplicate` | qicq.h:886-904 | broadcasting an atom is the lock-step form against that many copies of it |
| `Atomic.BroadcastIsAdverb` | qicq.h:886-904 | for a total operator the broadcasts are `eachBoth`, `eachLeft` and `eachRight` |
| `Atomic.MergeLeft` | qicq.h:932-938 | after the first loop over `x`'s keys, the result's keys are the distinct keys seen so far, each holding its combination |
| `Atomic.MergeRight` | qicq.h:939-942 | after the second loop over `y`'s keys, the keys are the distinct keys of `x` then `y`, each holding its combination |
| `Atomic.KeyMerge` | qicq.h:927-944 | the generic dict-dict merge: keys of `x` first, then new keys of `y`, each once, each with the combination of the two sides' lookups |
| `Atomic.ArithMerge` | qicq.h:965-968 | `+ - * /` on two dicts: every key of either side once, with both values combined, or the identity (0 or 1) for the missing side |
| `Atomic.RelMerge` | qicq.h:946-963 | a relational operator on two dicts: every key once, with the comparison, or the operator's default for a missing side |
| `Atomic.RelValueIsMissingAsLeast` | qicq.h:970-975 | the per-operator defaults are the comparisons that take a missing side to be below every integer |
| `Atomic.RelMergeIsMissingAsLeast` | qicq.h:970-975 | so every value of the relational merge is that comparison |
| `Atomic.MergeKeys` | qicq.h:927-944 | a key is in a merge exactly when it is a key of either side |
| `Atomic.ArithMergeGet` | qicq.h:927-944 | looking a key up in the merge gives the combined value |
| `Atomic.MergeCommutes` | qicq.h:965-967 | `+` and `*` merges agree on keys and values whichever side is on the left |
| `Atomic.MergeWithEmpty` | qicq.h:965 | `+` with the empty dict leaves a dict without repeated keys unchanged |
| `Atomic.MergeSameKeys` | qicq.h:965-968 | two dicts with the same keys merge position by position, like dict op vec |
| `Atomic.DistinctAbsorbs` | qicq.h:939-942 | keys already present do not change the key order |
| `Reduce.SumConcat` | qicq.h:1809-1813 | `sum` (`over` of `+` from 0) distributes over concatenation |
| `Reduce.Sum` | qicq.h:1809-1813 | no contract of its own: `over` of `+` from 0; `Reduce.SumConcat` and `Indexing.ScanSumOfDeltas` state its properties |
| `Reduce.MinOf` | qicq.h:1546-1547 | the binary `min` is one of its arguments and is no larger than either |
| `Reduce.MaxOf` | qicq.h:1486-1487 | the binary `max` is one of its arguments and is no smaller than either |
| `Reduce.Min` | qicq.h:1549-1553 | `min` of a non-empty vec is an element no element is below |
| `Reduce.Max` | qicq.h:1489-1493 | `max` of a non-empty vec is an element no element is above |
| `Reduce.MinIsOverMin` | qicq.h:1545-1552 | `min` of a vec is `over` of the binary `min` |
| `Reduce.MaxIsOverMax` | qicq.h:1485-1492 | `max` of a vec is `over` of the binary `max` |
| `Reduce.FoldAnd` | qicq.h:1595-1596 | the fold of logical and from `true` holds exactly when every flag does |
| `Reduce.FoldOr` | qicq.h:1616-1617 | the fold of logical or from `false` holds exactly when some flag does |
| `Reduce.All` | qicq.h:1593-1597 | `all` holds exactly when no element is zero |
| `Reduce.Any` | qicq.h:1614-1618 | `any` holds exactly when some element is not zero |
| `Indexing.Where` | qicq.h:1951-1962 | `where` on non-negative counts: `sum` entries, non-decreasing, index `i` exactly `c[i]` times |
| `Indexing.WhereOfFlags` | qicq.h:1951-1962 | on counts of 0 and 1, `where` lists the positions of the ones |
| `Indexing.WhereBools` | qicq.h:1951-1962 | `where` of booleans lists exactly the `true` positions, increasing |
| `Indexing.WhereBoolsSnoc` | qicq.h:1951-1962 | one more flag extends `where` by its position exactly when it is `true` |
| `Indexing.WhereDict` | qicq.h:1964-1967 | `where` of a dict yields `sum` keys, each a key of the dict |
| `Indexing.Deltas` | qicq.h:1148-1150 | `deltas` keeps the first element and gives each later one minus its predecessor |
| `Indexing.DeltasDict` | qicq.h:1151-1154 | `deltas` of a dict keeps its keys |
| `Indexing.ScanSumOfDeltas` | qicq.h:1148-1150 | the running sum undoes `deltas` |
| `Indexing.DeltasOfScanSum` | qicq.h:1148-1150 | `deltas` undoes the running sum |
| `Indexing.Differ` | qicq.h:1726-1731 | `differ` marks the first position and every element unequal to its predecessor |
| `Indexing.DifferAsWritten` | qicq.h:1728-1731 | the source's `differ` agrees with `Differ` on every non-empty vec, and on the empty one writes out of bounds (undefined behaviour) |
| `Indexing.DifferAsWrittenOutOfBoundsOnEmpty` | qicq.h:1729-1730 | on the empty vec the write to the first entry has no entry to write |
| `Indexing.DifferIsNonZeroDeltas` | qicq.h:1726-1731 | `differ` marks the first position and the positions where `deltas` is not zero |
| `Sets.Distinct` | qicq.h:1161-1169 | `distinct` has no duplicates and holds exactly the elements of the vec |
| `Sets.DistinctInFirstOccurrenceOrder` | qicq.h:1161-1169 | `distinct` lists the elements in the order of their first occurrence |
| `Sets.DistinctSnoc` | qicq.h:1164-1166 | one more element extends `distinct` by it exactly when it is new |
| `Sets.DistinctOfNoDup` | qicq.h:1161-1169 | a vec without duplicates is its own `distinct` |
| `Sets.DistinctIdempotent` | qicq.h:1161-1169 | `distinct` is idempotent |
| `Sets.ListsDistinctUnique` | qicq.h:1161-1169 | two duplicate-free listings of the elements of a vec in first-occurrence order are equal |
| `Sets.DistinctCharacterized` | qicq.h:1161-1169 | a vec lists the elements of `x` once each in first-occurrence order exactly when it is `distinct(x)` |
| `Sets.ListsDistinctByNeighbours` | qicq.h:1161-1169 | first-occurrence order holds as soon as it holds between neighbours, and then there are no duplicates |
| `Sets.DistinctPrefix` | qicq.h:1161-1169 | appending to the vec only appends to `distinct` |
| `Sets.Union` | qicq.h:1931-1935 | `union` has no duplicates, holds the elements of both sides, starts with `distinct` of the left, and lists every element once in the order of its first occurrence in `x` then `y` (which `Sets.DistinctCharacterized` shows fixes the result) |
| `Sets.InAtom` | qicq.h:1397-1400 | `in` of an atom holds exactly when some element equals it |
| `Sets.InVec` | qicq.h:1405-1408 | `in` of a vec flags each element by membership |
| `Sets.InDict` | qicq.h:1413-1416 | `in` of a dict against a dict keeps the left keys and flags each value by membership in the right values |
| `Sets.Select` | qicq.h:1975-1978 | `x` at `where` of flags keeps only elements of `x`, and every flagged one |
| `Sets.SelectFlagsIsKeep` | qicq.h:1975-1978 | selecting by membership flags is the order-preserving filter `Keep` |
| `Sets.Except` | qicq.h:1975-1979 | `except` is the order-preserving filter of the elements not in `y`, repeats kept |
| `Sets.Inter` | qicq.h:1984-1988 | `inter` is the order-preserving filter of the elements in `y`, repeats kept |
| `Sets.InterExceptSplit` | qicq.h:1975-1988 | every element goes to exactly one of `inter` and `except` |
| `Sets.NotInFlags` | qicq.h:1975-1978 | the negated `in` flags are the "not in" flags |
| `Sets.FindEach` | qicq.h:1263-1266 | `find` of each value: the first position holding it, or the length when absent |
| `Sets.AtFindEach` | qicq.h:1263-1266 | `at` of what `find` returned gives back every value present |
| `Sets.FindInDict` | qicq.h:1267-1270 | `find` of a dict's values keeps its keys and gives each value's first position |
| `Sets.FindKey` | qicq.h:1272-1277 | `find` in a dict: the key of the first entry with that value, or the default key |
| `Sets.FindKeyInvertsGet` | qicq.h:1272-1277 | without repeated keys or values, `find` inverts the lookup |
| `Sets.Positions` | qicq.h:1307-1315 | reference definition: the increasing positions at which the vec holds a value |
| `Sets.BucketsArePositions` | qicq.h:1311-1314 | after `n` steps of `group`'s loop each key's list holds its positions among the first `n` elements |
| `Sets.Group` | qicq.h:1307-1315 | `group` has the keys `distinct(x)`, each listing its positions in `x` in increasing order |
| `Sets.GroupPartition` | qicq.h:1307-1315 | the lists of `group` partition the positions: each lies in the list of its own element only |
| `Sets.GroupDict` | qicq.h:1317-1321 | `group` of a dict groups the values and lists the keys at their positions |
| `Shape.TakeAtom` | qicq.h:1829-1831 | `take` of an atom is `abs(n)` copies of it |
| `Shape.FromBack` | qicq.h:1890-1895 | the last `m` elements, cycling backwards from the end when `m` exceeds the length |
| `Shape.Take` | qicq.h:1833-1839 | `take` has `abs(n)` elements: a prefix, a suffix, or the vec cycled from the front or the back |
| `Shape.TakeFromBackEndsWithLast` | qicq.h:1890-1895 | a negative `take` ends with the last element whatever the count |
| `Shape.Drop` | qicq.h:1235-1241 | `drop` is empty when the count's magnitude reaches the length; otherwise it drops from the front or the back |
| `Shape.DropDict` | qicq.h:1242-1245 | `drop` on a dict drops whole entries |
| `Shape.TakeDropSplit` | qicq.h:1235-1241 | `take` and `drop` of the same count split the vec in two |
| `Shape.Sublist` | qicq.h:1906-1911 | `sublist` is the prefix or suffix of at most `abs(n)` elements; it never cycles |
| `Shape.Signum` | qicq.h:1794-1796 | `signum` is 1, -1 or 0 exactly as `n` is positive, negative or zero |
| `Shape.SublistIsTakeInRange` | qicq.h:1906-1911 | within the length, `sublist` is `take` |
| `Shape.SublistRange` | qicq.h:1916-1924 | `sublist` with a pair is the slice starting at `b` of at most `n` elements |
| `Shape.SublistDict` | qicq.h:1912-1915 | `sublist` on a dict slices keys and values alike |
| `Shape.SublistRangeDict` | qicq.h:1925-1928 | `sublist` with a pair on a dict slices keys and values alike |
| `Shape.RotateAt` | qicq.h:1786-1791 | after `rotate`, position `j` holds the element `n` places ahead, cyclically |
| `Shape.Rotate` | qicq.h:1784-1791 | `rotate` keeps the length; `Shape.RotateAt` states where each element goes |
| `Shape.RotateInverse` | qicq.h:1786-1791 | rotating back by the same count restores the vec |
| `Shape.Reverse` | qicq.h:1766-1771 | `reverse` puts element `|x|-1-j` at position `j` |
| `Shape.ReverseInvolution` | qicq.h:1766-1771 | reversing twice restores the vec |
| `Shape.ReverseDict` | qicq.h:1772-1776 | `reverse` on a dict reverses keys and values together |
| `Shape.JoinAtoms` | qicq.h:1420-1427 | `join` of two atoms is the pair |
| `Shape.JoinAtomVec` | qicq.h:1428-1434 | `join` of an atom and a vec puts the atom in front |
| `Shape.JoinVecAtom` | qicq.h:1435-1441 | `join` of a vec and an atom puts the atom last |
| `Shape.JoinVecs` | qicq.h:1442-1448 | `join` of two vecs is the left then the right |
| `Shape.RazeIsFlatten` | qicq.h:1754-1758 | `raze`, the `over` of `join`, concatenates the vecs in order |
| `Shape.Raze` | qicq.h:1754-1758 | no contract of its own: `over` of `join`; `Shape.RazeIsFlatten` states that it concatenates |
| `Shape.Latest` | qicq.h:1449-1454 | reference definition: the value of the last entry of `y` for a key |
| `Shape.JoinDict` | qicq.h:1449-1454 | `join` of two dicts keeps `x`'s keys in front, then the keys of `y` that `x` lacks, each once, in the order of their first occurrence in `y`; every entry of `y` is upserted in turn, so an entry of `x` whose key occurs earlier in `x` keeps its value |
| `Shape.JoinKeysStep` | qicq.h:1452 | one upsert of `join` appends its key exactly when the key is new, as `distinct` of `y`'s keys grows |
| `Shape.JoinDictKey` | qicq.h:1449-1454 | a key of the joined dict is a key of either side; its value is `y`'s last for it, else `x`'s |
| `Shape.Cut` | qicq.h:1123-1144 | `cut` has one piece per cut point, running to the next point or to the end |
| `Shape.CutFlatten` | qicq.h:1135-1142 | the pieces of `cut` together are the vec from the first cut point on |
| `Shape.MatrixFromVector` | qicq.h:1897-1901 | `m` rows of `n` elements |
| `Shape.MatrixRow` | qicq.h:1897-1901 | without cycling, row `i` is the slice from `i*n` to `(i+1)*n` |
| `Shape.MatrixIsOvertake` | qicq.h:1897-1901 | element `c` of row `i` is element `i*n+c` of the overtake of `m*n` elements |
| `Shape.MatrixFlatten` | qicq.h:1897-1901 | without cycling, the rows together are the first `m*n` elements |
| `Shape.FixedColsFlexRowsShape` | qicq.h:1858-1868 | the `(0, n)` reshape keeps the vec, has `ceiling(|x|/n)` rows of `n` but the last, and the last holds at most `n` |
| `Shape.TakeShape` | qicq.h:1845-1855 | no contract of its own: the dispatch on the shape; `Shape.TakeShapeRows` states the result |
| `Shape.FixedColsFlexRows` | qicq.h:1858-1868 | no contract of its own; `Shape.FixedColsFlexRowsShape` states the shape |
| `Shape.FixedRowsFlexCols` | qicq.h:1870-1888 | no contract of its own; `Shape.FixedRowsFlexColsShape` states the shape |
| `Shape.FixedRowsFlexColsShape` | qicq.h:1870-1888 | the `(m, 0)` reshape keeps the vec in `m` rows, the first `|x| mod m` one longer; a short vec becomes singleton rows |
| `Shape.TakeShapeRows` | qicq.h:1845-1855 | a reshape with a non-positive count keeps every element in order; with two positive counts it has `rows` rows of `cols` |
| `Shape.FlattenSingletons` | qicq.h:1874-1875 | the singleton rows of a short vec together are the vec |
| `Sorting.Asc` | qicq.h:1349-1350 | `asc` is a non-decreasing permutation of the vec |
| `Sorting.Desc` | qicq.h:1380-1384 | `desc` is a non-increasing permutation of the vec |
| `Sorting.Iasc` | qicq.h:1329-1334 | `iasc` is a permutation of the positions that sorts the vec ascending, ties in position order |
| `Sorting.Idesc` | qicq.h:1363-1368 | `idesc` is a permutation of the positions that sorts the vec descending, ties in position order |
| `Sorting.StableSortUnique` | qicq.h:1329-1334 | two permutations that both sort the vec stably are equal |
| `Sorting.IascIsTheStableSort` | qicq.h:1329-1368 | a permutation sorts the vec stably ascending exactly when it is `iasc`, and descending exactly when it is `idesc` |
| `Sorting.ChainSortsStably` | qicq.h:1329-1334 | a permutation whose neighbours are in key order, ties by position, sorts the vec stably |
| `Sorting.SortIndices` | qicq.h:1329-1334 | the stable index sort of a prefix is a sorting, stable permutation of its positions |
| `Sorting.SortIndicesAt` | qicq.h:1329-1334 | the elements at the sorted positions are the sorted elements |
| `Sorting.SortValuesContents` | qicq.h:1349-1350 | the value sort is a permutation of the values it sorts |
| `Sorting.AscIsAtIasc` | qicq.h:1328-1355 | `asc` is `x` at `iasc`, and `desc` is `x` at `idesc` |
| `Sorting.AscIdempotent` | qicq.h:1348-1389 | sorting a sorted vec changes nothing |
| `Sorting.MinIsFirstOfAsc` | qicq.h:1545-1552 | `min` is the first element of `asc` |
| `Sorting.MaxIsLastOfAsc` | qicq.h:1485-1492 | `max` is the last element of `asc` |
| `Sorting.Rank` | qicq.h:1743-1747 | `rank` is a permutation of the positions |
| `Sorting.RankInvertsIasc` | qicq.h:1743-1747 | `rank` and `iasc` are mutually inverse permutations |
| `Sorting.SortingPermutationInverts` | qicq.h:1743-1747 | sorting a permutation's positions by its entries yields its inverse |
| `Sorting.SortDict` | qicq.h:1351-1354 | `asc` and `desc` of a dict reorder its entries by a stable sorting permutation of the values: the values come out sorted, equal values keep their keys in position order, and each key stays paired with its value |
| `Sorting.SortDictIsTheStableSort` | qicq.h:1351-1354 | every stable sorting permutation of the values picks out exactly the sorted dict, so the sorted dict is unique |
| `Sorting.SortKeys` | qicq.h:1335-1338 | `iasc` and `idesc` of a dict are the keys at a stable sorting permutation of the values, the keys of the sorted dict |
| `Sorting.SortIndicesSortsStably` | qicq.h:1329-1334 | the index sort lists every position once, by value and then by position |
| `Sorting.SortValues` | qicq.h:108 | `std::stable_sort` of the first `n` values gives `n` values in order; `Sorting.SortValuesContents` states that they are the same values |
| `Matching.MatchIsEquality` | qicq.h:1631-1644 | `match` holds exactly when the two values are equal |
| `Matching.Match` | qicq.h:1631-1644 | no contract of its own: structural matching; `Matching.MatchIsEquality` states that it is equality |
| `Matching.MatchReflexiveSymmetric` | qicq.h:1631-1644 | `match` is reflexive and symmetric |
| `Examples.TakeAtomCase` | qicq_test.cpp:413-414 | `3 take 47` is three 47s |
| `Examples.TakePrefixCase` | qicq_test.cpp:415-416 | a positive `take` is a prefix |
| `Examples.TakeSuffixCase` | qicq_test.cpp:417-418 | a negative `take` is a suffix |
| `Examples.TakeOverCase` | qicq_test.cpp:419-420 | an overtake cycles from the front |
| `Examples.TakeOverBackCase` | qicq_test.cpp:421-422 | a negative overtake cycles from the back |
| `Examples.Reshape22` | qicq_test.cpp:423-424 | the `(2, 2)` reshape of `til 10` |
| `Examples.Reshape20` | qicq_test.cpp:427-428 | the `(2, 0)` reshape of `til 8` |
| `Examples.Reshape30` | qicq_test.cpp:429 | the `(3, 0)` reshape of `til 8` |
| `Examples.Reshape30Of` | qicq_test.cpp:429 | any length-8 vec holding `0..7` reshapes under `(3, 0)` into rows `0 1 2`, `3 4 5`, `6 7`: three full rows, then the two leftover elements |
| `Examples.Reshape07` | qicq_test.cpp:433-434 | the `(0, 7)` reshape of `til 10` |
| `Examples.Cut1` | qicq_test.cpp:95-96 | `cut` at `0 4 8` |
| `Examples.Cut2` | qicq_test.cpp:97-98 | `cut` with a repeated point has an empty piece |
| `Examples.Drop1` | qicq_test.cpp:149-150 | `1 drop` drops the first element |
| `Examples.Drop2` | qicq_test.cpp:151-152 | `-1 drop` drops the last element |
| `Examples.Rot1` | qicq_test.cpp:367-368 | `3 rot` rotates left |
| `Examples.Rot2` | qicq_test.cpp:369-370 | `-3 rot` rotates right |
| `Examples.Rot3` | qicq_test.cpp:371-372 | `12 rot` over-rotates left |
| `Examples.Rot4` | qicq_test.cpp:373 | `-12 rot` over-rotates right |
| `Examples.Sub1` | qicq_test.cpp:396 | `3 sublist` is a prefix |
| `Examples.Sub2` | qicq_test.cpp:397 | `-3 sublist` is a suffix |
| `Examples.Sub3` | qicq_test.cpp:398 | `15 sublist` does not overtake |
| `Examples.Sub4` | qicq_test.cpp:399 | `-12 sublist` does not overtake |
| `Examples.Sub5` | qicq_test.cpp:401-402 | `sublist` with the pair `1 3` |
| `Examples.Scan1` | qicq_test.cpp:380-381 | `plus scan til 5` |
| `Examples.Scan2` | qicq_test.cpp:382-383 | `2 plus scan til 5` |
| `Examples.IascCase` | qicq_test.cpp:214-215 | `iasc` of the sorting test's vec |
| `Examples.IdescCase` | qicq_test.cpp:221-222 | `idesc` of the sorting test's vec |
| `Examples.AscCase` | qicq_test.cpp:52-53 | `asc` of the sorting test's vec, which is also the vec at its `iasc` |
| `Examples.DescCase` | qicq_test.cpp:103-104 | `desc` of the sorting test's vec, which is also the vec at its `idesc` |
| `Examples.RankCase` | qicq_test.cpp:342-343 | `rank` of the sorting test's vec |
| `Examples.DistinctCase` | qicq_test.cpp:144-145 | `distinct` keeps first occurrences in order |
| `Examples.DistinctTestListing` | qicq_test.cpp:144-145 | the test's expected `distinct` meets the promise of `distinct` |
| `Examples.FindCase` | qicq_test.cpp:173-176 | `find` of a present atom and of an absent one |
| `Examples.SetFirstMatchOnly` | qicq.h:204-211 | with the key `0` stored twice, `d(0) = 5` rewrites only the first value: values `1 2` become `5 2` |
| `Examples.FindEachCase` | qicq_test.cpp:177-178 | `find` of a vec of atoms |
| `Examples.InCase` | qicq_test.cpp:226-228 | `in` of an atom against `til 5` |
| `Examples.JoinCase` | qicq_test.cpp:245-246 | `join` of two vecs is `1 + til 6` |
| `Examples.PlusAt` | qicq.h:965 | `+` on dicts: a shared key gets the sum, a key of the right side only keeps its value |
| `Examples.MergeShared` | qicq_test.cpp:120-123 | in the test's merge the shared key `b` gets `2 + 1` |
| `Examples.MergeOneSided` | qicq_test.cpp:120-123 | in the test's merge the right-only key `d` keeps `7` |
| `Examples.MergeCase` | qicq_test.cpp:120-123 | the whole merge of `abc`→`1 2 3` and `bcd`→`1 2 7` under `+`: keys `a b c d` with values `1 3 5 7` |
| `Examples.MergeTestKeys` | qicq_test.cpp:120-123 | the merged keys are `distinct` of `abcbcd`, which is `abcd` |

## Left out

- Integer width: `int64_t` and `size_t` are unbounded integers here. Overflow, and the signed/unsigned mixing in `n <= x.size()`, are not modelled; the model is exact for counts and values that fit.
- Floating point: `avg` and `med` return doubles and are not modelled. The `ceil`/`floor` of a double quotient in the reshapes is integer division, which agrees for every length that fits a double exactly.
- Static typing: the source dispatches on C++ types at compile time. `Matching.Value` makes the shape explicit. Values of the same shape with different C++ element types (`vec<int>` against `vec<long>`) do not match in the source; that distinction is not modelled.
- `eachMany` (qicq.h:689-694) indexes with `x[j]`, which `vec` does not declare (its `operator[]` is commented out at 81-82), so it cannot be instantiated. `Adverbs.EachMany` models the evident intent, over argument vecs of one element type.
- `eachBoth` on two dicts (qicq.h:667-675) uses `operator[]` on dicts, which does not exist, so it cannot be instantiated.
- `take` on a dict (qicq.h:1840-1843) calls a unary `take` that does not exist, so it cannot be instantiated. The same holds for `except` on a dict (qicq.h:1980-1981).
- Side-effect-only adverb forms (a function returning `void`, for example qicq.h:512-514 and 646-649) return nothing and are not modelled. Tuple forms (hana) and the `/` and `/=` chaining sugar are not modelled either.
- `converge` goes through `boost::any` when the result type is not known in advance (qicq.h:1649-1675). That route computes the same sequence as the typed one and is not modelled separately.
- Adverbs.Converge: takes a step bound `fuel` and returns `None` when the bound runs out. The source loops until it finds a repeat, so for functions that never settle it does not terminate; the bound leaves those runs unmodelled.
- Matrix forms of `sum`, `all` and `any` (qicq.h:1814-1818, 1598-1601, 1619-1622) are not modelled.
- The broadcast forms of `min` and `max` (qicq.h:1503-1524 and 1563-1584) are the adverbs `eachLeft`, `eachRight` and `eachBoth` of the binary form, which are modelled in `Adverbs`.
- The dict forms of `sum`, `min`, `max`, `all`, `any` and `over` reduce `x.val()`; they are the vec forms applied to a dict's values and have no separate member. So do `in` with a dict on the right (qicq.h:1401-1404, 1409-1412) and `where` of a dict at the level of values.
- `find` with a dict on the left and a vec or dict on the right (qicq.h:1278-1285) is `eachRight` of the modelled `Sets.FindKey`, and has no separate member.
- `at` with a dict of indices (qicq.h:1044-1051) keeps the index dict's keys around `Values.At`, and has no separate member.
- `signum` (qicq.h:1794-1796) is `Shape.Signum` on an atom; its vec and dict forms are `each` of it.
- `amend`, `bool`, `compare` on vecs, `dot`, `enlist`, `first`, `last`, `key`, `value` and `xbar` are outside the modelled core. `sym` (qicq_sym.h), the adapter headers and the `hunit` test harness are not part of this model.
- I/O: the stream output operators are not modelled.
- Adverbs.EachMany: its contract states only the result length. Each entry is `f` of the column, which is the function's definition; `Adverbs.EachManyTwo` ties it to `eachBoth`.
- Shape.Rotate: its own contract states only the length. The element-wise meaning is `Shape.RotateAt`, kept apart so that uses on concrete vecs stay cheap.
- Adverbs.EachPrior: `f` has type `(T, T) -> T`. The source's unseeded `eachPrior` (qicq.h:713-722) converts `x[0]` to `f`'s result type, which may differ from the element type; that conversion is not modelled. `Indexing.DifferAsWritten` writes out the one such use in the core, where the first entry is `x[0]` converted to `bool`.
- Shape.FixedColsFlexRows, Shape.FixedRowsFlexCols and Shape.TakeShape carry no contract of their own. Their shapes are the lemmas `Shape.FixedColsFlexRowsShape`, `Shape.FixedRowsFlexColsShape` and `Shape.TakeShapeRows`.
- Sorting.Rank: its contract states only that it is a permutation of the positions. The relation to `iasc` is `Sorting.RankInvertsIasc`.
- Indexing.WhereDict: its contract states the length and that every entry is a key. The exact selection is `Values.At` of the keys at `Indexing.Where` of the values, which is its definition.

## Findings

| source | as written | input that shows it | evidently intended | confidence | as-written member | corrected member |
|---|---|---|---|---|---|---|
| qicq.h:1726-1731 | `differ` builds `!eachPrior(match)(x)` and then writes `r(0) = true` unconditionally | the empty vec: `r` is empty, so `r(0)` writes out of bounds of its storage (undefined behaviour) | `differ` of the empty vec is the empty vec | not executed | `Indexing.DifferAsWritten`, `Indexing.DifferAsWrittenOutOfBoundsOnEmpty` | `Indexing.Differ` |

=== FILE: adverbs.dfy ===
/** The adverbs: combinators that turn a scalar function into a function
    over vecs and dicts. A dict form keeps the dict's keys and applies the
    vec form to its values. Side-effect-only forms (a function returning
    nothing) and tuple forms are not part of this model. */
module Adverbs {
  import opened Values

  /** `each` on a vec: `f` applied to every element, in order. */
  function Each<T, U>(f: T -> U, x: seq<T>): (r: seq<U>)
    ensures |r| == |x|
    ensures forall i :: 0 <= i < |x| ==> r[i] == f(x[i])
    decreases |x|
  {
    if |x| == 0 then [] else [f(x[0])] + Each(f, x[1..])
  }

  /** Mapping one more element appends its image. */
  lemma EachSnoc<T, U>(f: T -> U, x: seq<T>, e: T)
    ensures Each(f, x + [e]) == Each(f, x) + [f(e)]
  {
    var a := Each(f, x + [e]);
    var b := Each(f, x) + [f(e)];
    assert forall i :: 0 <= i < |x| ==> (x + [e])[i] == x[i];
    assert forall i :: 0 <= i < |a| ==> a[i] == b[i];
  }

  /** `each` on a dict: the keys are kept, the values are mapped. */
  function EachDict<K, V, U>(f: V -> U, d: Dict<K, V>): (r: Dict<K, U>)
    requires d.Valid()
    ensures r.Valid() && r.keys == d.keys
    ensures forall i :: 0 <= i < |d.vals| ==> r.vals[i] == f(d.vals[i])
  {
    Dict(d.keys, Each(f, d.vals))
  }

  /** Mapping twice is mapping the composition once. */
  lemma {:induction false} EachCompose<T, U, W>(f: T -> U, g: U -> W, x: seq<T>)
    ensures Each(g, Each(f, x)) == Each(y => g(f(y)), x)
  {
    var a := Each(g, Each(f, x));
    var b := Each(y => g(f(y)), x);
    assert |a| == |b|;
    forall i | 0 <= i < |x|
      ensures a[i] == b[i]
    {
      assert Each(f, x)[i] == f(x[i]);
    }
  }

  /** `eachLeft` with a vec on the left: the right argument is held fixed. */
  function EachLeft<L, R, U>(f: (L, R) -> U, x: seq<L>, y: R): (r: seq<U>)
    ensures |r| == |x|
    ensures forall i :: 0 <= i < |x| ==> r[i] == f(x[i], y)
  {
    Each(a => f(a, y), x)
  }

  /** `eachLeft` with a dict on the left: its keys are kept. */
  function EachLeftDict<K, L, R, U>(f: (L, R) -> U, d: Dict<K, L>, y: R): (r: Dict<K, U>)
    requires d.Valid()
    ensures r.Valid() && r.keys == d.keys
    ensures forall i :: 0 <= i < |d.vals| ==> r.vals[i] == f(d.vals[i], y)
  {
    EachDict(a => f(a, y), d)
  }

  /** `eachRight` with a vec on the right: the left argument is held fixed. */
  function EachRight<L, R, U>(f: (L, R) -> U, x: L, y: seq<R>): (r: seq<U>)
    ensures |r| == |y|
    ensures forall i :: 0 <= i < |y| ==> r[i] == f(x, y[i])
  {
    Each(b => f(x, b), y)
  }

  /** `eachRight` with a dict on the right: its keys are kept. */
  function EachRightDict<K, L, R, U>(f: (L, R) -> U, x: L, d: Dict<K, R>): (r: Dict<K, U>)
    requires d.Valid()
    ensures r.Valid() && r.keys == d.keys
    ensures forall i :: 0 <= i < |d.vals| ==> r.vals[i] == f(x, d.vals[i])
  {
    EachDict(b => f(x, b), d)
  }

  /** `eachBoth` on two vecs: lock-step; the source asserts equal lengths. */
  function EachBoth<L, R, U>(f: (L, R) -> U, x: seq<L>, y: seq<R>): (r: seq<U>)
    requires |x| == |y|
    ensures |r| == |x|
    ensures forall i :: 0 <= i < |x| ==> r[i] == f(x[i], y[i])
    decreases |x|
  {
    if |x| == 0 then [] else [f(x[0], y[0])] + EachBoth(f, x[1..], y[1..])
  }

  /** `eachBoth` with a dict on the left and a vec on the right: the dict's
      values are paired with the vec, and the result is a plain vec. */
  function EachBothDictVec<K, L, R, U>(f: (L, R) -> U, d: Dict<K, L>, y: seq<R>): (r: seq<U>)
    requires d.Valid() && |d.vals| == |y|
    ensures |r| == |y|
    ensures forall i :: 0 <= i < |y| ==> r[i] == f(d.vals[i], y[i])
  {
    EachBoth(f, d.vals, y)
  }

  /** `eachBoth` with a vec on the left and a dict on the right. */
  function EachBothVecDict<K, L, R, U>(f: (L, R) -> U, x: seq<L>, d: Dict<K, R>): (r: seq<U>)
    requires d.Valid() && |x| == |d.vals|
    ensures |r| == |x|
    ensures forall i :: 0 <= i < |x| ==> r[i] == f(x[i], d.vals[i])
  {
    EachBoth(f, x, d.vals)
  }

  /** `eachBoth` is `eachLeft` when the right argument is the same at every
      position, and `eachRight` when the left one is. */
  lemma EachBothConstant<L, R, U>(f: (L, R) -> U, x: seq<L>, y: seq<R>, a: L, b: R)
    requires |x| == |y|
    ensures (forall i :: 0 <= i < |y| ==> y[i] == b) ==> EachBoth(f, x, y) == EachLeft(f, x, b)
    ensures (forall i :: 0 <= i < |x| ==> x[i] == a) ==> EachBoth(f, x, y) == EachRight(f, a, y)
  {
  }

  /** Column `j` of a list of argument sequences. */
  function Column<T>(xs: seq<seq<T>>, j: nat): (c: seq<T>)
    requires forall k :: 0 <= k < |xs| ==> j < |xs[k]|
    ensures |c| == |xs|
    ensures forall k :: 0 <= k < |xs| ==> c[k] == xs[k][j]
  {
    seq(|xs|, k requires 0 <= k < |xs| => xs[k][j])
  }

  /** `eachMany`: an n-ary zip. The first sequence sets the length; every
      other sequence is read at the same positions, so it must be at least
      as long. */
  function EachMany<T, U>(f: seq<T> -> U, xs: seq<seq<T>>): (r: seq<U>)
    requires |xs| > 0
    requires forall k :: 0 <= k < |xs| ==> |xs[0]| <= |xs[k]|
    ensures |r| == |xs[0]|
  {
    seq(|xs[0]|, j requires 0 <= j < |xs[0]| => f(Column(xs, j)))
  }

  /** With two sequences of equal length, `eachMany` is `eachBoth`. */
  lemma EachManyTwo<T, U>(f: seq<T> -> U, x: seq<T>, y: seq<T>)
    requires |x| == |y|
    ensures EachMany(f, [x, y]) == EachBoth((a, b) => f([a, b]), x, y)
  {
    var r := EachMany(f, [x, y]);
    forall j | 0 <= j < |x|
      ensures r[j] == f([x[j], y[j]])
    {
      assert Column([x, y], j) == [x[j], y[j]];
    }
  }

  /** `eachPrior` on a vec: the first element is kept, and every later
      element is `f(x[i], x[i-1])`. */
  function EachPrior<T>(f: (T, T) -> T, x: seq<T>): (r: seq<T>)
    ensures |r| == |x|
    ensures |x| > 0 ==> r[0] == x[0]
    ensures forall i :: 1 <= i < |x| ==> r[i] == f(x[i], x[i - 1])
    decreases |x|
  {
    if |x| == 0 then []
    else if |x| == 1 then [x[0]]
    else EachPrior(f, x[..|x| - 1]) + [f(x[|x| - 1], x[|x| - 2])]
  }

  /** `eachPrior` with a seed: the first element is paired with the seed. */
  function EachPriorSeeded<T, U>(f: (T, T) -> U, seed: T, x: seq<T>): (r: seq<U>)
    ensures |r| == |x|
    ensures |x| > 0 ==> r[0] == f(x[0], seed)
    ensures forall i :: 1 <= i < |x| ==> r[i] == f(x[i], x[i - 1])
    decreases |x|
  {
    if |x| == 0 then []
    else if |x| == 1 then [f(x[0], seed)]
    else EachPriorSeeded(f, seed, x[..|x| - 1]) + [f(x[|x| - 1], x[|x| - 2])]
  }

  /** `eachPrior` on a dict: its keys are kept. */
  function EachPriorDict<K, T>(f: (T, T) -> T, d: Dict<K, T>): (r: Dict<K, T>)
    requires d.Valid()
    ensures r.Valid() && r.keys == d.keys
    ensures |d.vals| > 0 ==> r.vals[0] == d.vals[0]
    ensures forall i :: 1 <= i < |d.vals| ==> r.vals[i] == f(d.vals[i], d.vals[i - 1])
  {
    Dict(d.keys, EachPrior(f, d.vals))
  }

  /** `eachPrior` pairs every element with its predecessor: the seeded
      form is `eachBoth` against the sequence shifted right by one with
      the seed in front. */
  lemma EachPriorSeededIsShiftedZip<T, U>(f: (T, T) -> U, seed: T, x: seq<T>)
    requires |x| > 0
    ensures EachPriorSeeded(f, seed, x) == EachBoth(f, x, [seed] + x[..|x| - 1])
  {
    var a := EachPriorSeeded(f, seed, x);
    var b := EachBoth(f, x, [seed] + x[..|x| - 1]);
    forall i | 0 <= i < |x|
      ensures a[i] == b[i]
    {
      if i > 0 {
        assert ([seed] + x[..|x| - 1])[i] == x[i - 1];
      }
    }
  }

  /** The unseeded form is the seeded form over the tail, seeded with the
      head, after the head itself. */
  lemma {:induction false} EachPriorIsSeededOnTail<T>(f: (T, T) -> T, x: seq<T>)
    requires |x| > 0
    ensures EachPrior(f, x) == [x[0]] + EachPriorSeeded(f, x[0], x[1..])
  {
    var a := EachPrior(f, x);
    var t := x[1..];
    var s := EachPriorSeeded(f, x[0], t);
    var b := [x[0]] + s;
    assert |a| == |b|;
    forall i | 0 <= i < |x|
      ensures a[i] == b[i]
    {
      if i == 1 {
        assert s[0] == f(t[0], x[0]);
      } else if i > 1 {
        assert s[i - 1] == f(t[i - 1], t[i - 2]);
        assert t[i - 1] == x[i] && t[i - 2] == x[i - 1];
      }
    }
  }

  /** The seeded `over` (`std::accumulate`): a left fold starting from the
      seed; on an empty vec the result is the seed. */
  function OverSeeded<A, T>(f: (A, T) -> A, seed: A, x: seq<T>): (r: A)
    decreases |x|
  {
    if |x| == 0 then seed
    else f(OverSeeded(f, seed, x[..|x| - 1]), x[|x| - 1])
  }

  /** The fold takes the first element into the seed and carries on with
      the rest: the loop form of `std::accumulate`. */
  lemma {:induction false} OverSeededCons<A, T>(f: (A, T) -> A, seed: A, x: seq<T>)
    requires |x| > 0
    ensures OverSeeded(f, seed, x) == OverSeeded(f, f(seed, x[0]), x[1..])
    decreases |x|
  {
    if |x| > 1 {
      var n := |x| - 1;
      OverSeededCons(f, seed, x[..n]);
      assert x[..n][1..] == x[1..][..n - 1];
      assert x[..n][0] == x[0];
    } else {
      assert x[1..] == [] && x[..0] == [];
    }
  }

  /** The unseeded `over` on a vec: the source asserts a non-empty input;
      a single element is returned as it is, and otherwise the fold
      starts from `f(x[0], x[1])`. That is the seeded fold of the rest of
      the vec from its first element. */
  function Over<T>(f: (T, T) -> T, x: seq<T>): (r: T)
    requires |x| > 0
    ensures r == OverSeeded(f, x[0], x[1..])
  {
    if |x| == 1 then
      assert x[1..] == [];
      x[0]
    else
      OverSeededCons(f, x[0], x[1..]);
      assert x[1..][1..] == x[2..];
      OverSeeded(f, f(x[0], x[1]), x[2..])
  }

  /** Folding a longer vec applies `f` last to its final element. */
  lemma OverSnoc<T>(f: (T, T) -> T, x: seq<T>)
    requires |x| > 1
    ensures Over(f, x) == f(Over(f, x[..|x| - 1]), x[|x| - 1])
  {
    assert x[1..][..|x| - 2] == x[..|x| - 1][1..];
  }

  /** `over` on a dict folds its values. */
  function OverDict<K, T>(f: (T, T) -> T, d: Dict<K, T>): (r: T)
    requires d.Valid() && |d.vals| > 0
    ensures r == OverSeeded(f, d.vals[0], d.vals[1..])
  {
    Over(f, d.vals)
  }

  /** The seeded `scan`: the first result is `f(seed, x[0])` and each
      later one is `f` of the previous result and the next element. */
  function ScanSeeded<A, T>(f: (A, T) -> A, seed: A, x: seq<T>): (r: seq<A>)
    ensures |r| == |x|
    ensures |x| > 0 ==> r[0] == f(seed, x[0])
    ensures forall i :: 1 <= i < |x| ==> r[i] == f(r[i - 1], x[i])
    decreases |x|
  {
    if |x| == 0 then []
    else [f(seed, x[0])] + ScanSeeded(f, f(seed, x[0]), x[1..])
  }

  /** The unseeded `scan` (`std::partial_sum`): the first element is kept
      and each later result is `f` of the previous result and the next
      element. */
  function Scan<T>(f: (T, T) -> T, x: seq<T>): (r: seq<T>)
    ensures |r| == |x|
    ensures |x| > 0 ==> r[0] == x[0]
    ensures forall i :: 1 <= i < |x| ==> r[i] == f(r[i - 1], x[i])
  {
    if |x| == 0 then [] else [x[0]] + ScanSeeded(f, x[0], x[1..])
  }

  /** `scan` on a dict: its keys are kept. */
  function ScanDict<K, T>(f: (T, T) -> T, d: Dict<K, T>): (r: Dict<K, T>)
    requires d.Valid()
    ensures r.Valid() && r.keys == d.keys
    ensures |d.vals| > 0 ==> r.vals[0] == d.vals[0]
    ensures forall i :: 1 <= i < |d.vals| ==> r.vals[i] == f(r.vals[i - 1], d.vals[i])
  {
    Dict(d.keys, Scan(f, d.vals))
  }

  /** Every entry of the seeded scan is the seeded fold of the prefix that
      ends there. */
  lemma {:induction false} ScanSeededIsPrefixFolds<A, T>(f: (A, T) -> A, seed: A, x: seq<T>)
    ensures forall i :: 0 <= i < |x| ==> ScanSeeded(f, seed, x)[i] == OverSeeded(f, seed, x[..i + 1])
  {
    var r := ScanSeeded(f, seed, x);
    forall i | 0 <= i < |x|
      ensures r[i] == OverSeeded(f, seed, x[..i + 1])
    {
      ScanEntry(f, seed, x, i);
    }
  }

  lemma {:induction false} ScanEntry<A, T>(f: (A, T) -> A, seed: A, x: seq<T>, i: nat)
    requires i < |x|
    ensures ScanSeeded(f, seed, x)[i] == OverSeeded(f, seed, x[..i + 1])
    decreases i
  {
    var r := ScanSeeded(f, seed, x);
    assert x[..i + 1][..i] == x[..i];
    if i == 0 {
      assert x[..0] == [];
    } else {
      ScanEntry(f, seed, x, i - 1);
    }
  }

  /** The seeded `over` returns the seed on an empty vec and otherwise the
      last entry of the seeded `scan`. */
  lemma OverSeededIsLastOfScan<A, T>(f: (A, T) -> A, seed: A, x: seq<T>)
    ensures |x| == 0 ==> OverSeeded(f, seed, x) == seed
    ensures |x| > 0 ==> OverSeeded(f, seed, x) == ScanSeeded(f, seed, x)[|x| - 1]
  {
    if |x| > 0 {
      ScanEntry(f, seed, x, |x| - 1);
      assert x[..|x|] == x;
    }
  }

  /** The unseeded `over` is the last entry of the unseeded `scan`. */
  lemma {:induction false} OverIsLastOfScan<T>(f: (T, T) -> T, x: seq<T>)
    requires |x| > 0
    ensures Over(f, x) == Scan(f, x)[|x| - 1]
    decreases |x|
  {
    if |x| > 1 {
      OverSnoc(f, x);
      OverIsLastOfScan(f, x[..|x| - 1]);
      var s := Scan(f, x);
      var s' := Scan(f, x[..|x| - 1]);
      assert forall i :: 0 <= i < |x| - 1 ==> s[i] == s'[i] by {
        ScanPrefix(f, x, |x| - 1);
      }
    }
  }

  /** The scan of a prefix is the prefix of the scan. */
  lemma ScanPrefix<T>(f: (T, T) -> T, x: seq<T>, n: nat)
    requires n <= |x|
    ensures Scan(f, x[..n]) == Scan(f, x)[..n]
  {
    forall i | 0 <= i < n
      ensures Scan(f, x[..n])[i] == Scan(f, x)[i]
    {
      ScanAgrees(f, x[..n], x, i);
    }
  }

  /** An entry of the scan depends only on the elements up to it. */
  lemma {:induction false} ScanAgrees<T>(f: (T, T) -> T, x: seq<T>, y: seq<T>, i: nat)
    requires i < |x| && i < |y|
    requires forall j :: 0 <= j <= i ==> x[j] == y[j]
    ensures Scan(f, x)[i] == Scan(f, y)[i]
    decreases i
  {
    if i > 0 {
      ScanAgrees(f, x, y, i - 1);
    }
  }

  /** `converge` with an explicit bound on the number of further steps:
      apply `f` repeatedly until the new value equals the previous one or
      the original argument. `None` means the bound ran out first. */
  function Converge<T(==)>(f: T -> T, x: T, fuel: nat): (r: Option<T>)
    ensures r.Some? ==> f(r.value) == r.value || r.value == x
  {
    KeepGoing(f, x, x, fuel)
  }

  function KeepGoing<T(==)>(f: T -> T, orig: T, p: T, fuel: nat): (r: Option<T>)
    ensures r.Some? ==> f(r.value) == r.value || r.value == orig
    decreases fuel
  {
    var q := f(p);
    if q == p || q == orig then Some(q)
    else if fuel == 0 then None
    else KeepGoing(f, orig, q, fuel - 1)
  }

  /** A value that `f` already fixes is returned after one step. */
  lemma ConvergeFixedPoint<T>(f: T -> T, x: T, fuel: nat)
    requires f(x) == x
    ensures Converge(f, x, fuel) == Some(x)
  {
  }

  /** More fuel never changes an answer that was already reached. */
  lemma {:induction false} KeepGoingMoreFuel<T>(f: T -> T, orig: T, p: T, fuel: nat, more: nat)
    requires KeepGoing(f, orig, p, fuel).Some?
    requires fuel <= more
    ensures KeepGoing(f, orig, p, more) == KeepGoing(f, orig, p, fuel)
    decreases fuel
  {
    var q := f(p);
    if q != p && q != orig {
      KeepGoingMoreFuel(f, orig, q, fuel - 1, more - 1);
    }
  }

  /** So `converge` has one answer, whatever bound reaches it. */
  lemma ConvergeMoreFuel<T>(f: T -> T, x: T, fuel: nat, more: nat)
    requires Converge(f, x, fuel).Some?
    requires fuel <= more
    ensures Converge(f, x, more) == Converge(f, x, fuel)
  {
    KeepGoingMoreFuel(f, x, x, fuel, more);
  }
}

=== FILE: atomic.dfy ===
/** Atomic broadcast of the arithmetic and relational operators over
    atoms, vecs and dicts, and the key merge of two dicts.

    Integers are unbounded here; the source's `int64_t` overflow is not
    modelled. Division and remainder follow C++: the quotient is truncated
    toward zero and the remainder takes the sign of the dividend. */
module Atomic {
  import opened Values
  import opened Adverbs
  import opened Sets

  /** C++ integer `/`: the quotient truncated toward zero. */
  function TruncDiv(a: int, b: int): (q: int)
    requires b != 0
    ensures Abs(b) * Abs(q) <= Abs(a) < Abs(b) * Abs(q) + Abs(b)
    ensures q == 0 || ((q > 0) <==> ((a > 0) == (b > 0)))
  {
    var m := Abs(a) / Abs(b);
    DivBounds(Abs(a), Abs(b));
    if (a < 0) == (b < 0) then m else -m
  }

  lemma DivBounds(a: nat, b: nat)
    requires b > 0
    ensures b * (a / b) <= a < b * (a / b) + b
  {
    assert a == b * (a / b) + a % b;
  }

  /** C++ integer `%`: what is left after the truncated quotient. It is
      smaller than the divisor in magnitude and is zero or has the sign of
      the dividend. */
  function TruncMod(a: int, b: int): (r: int)
    requires b != 0
    ensures Abs(r) < Abs(b)
    ensures r == 0 || ((r < 0) <==> (a < 0))
  {
    var q := TruncDiv(a, b);
    var r := a - b * q;
    assert Abs(r) == Abs(a) - Abs(b) * Abs(q) by {
      if (a < 0) == (b < 0) {
        assert b * q == Abs(b) * Abs(q) || b * q == -(Abs(b) * Abs(q));
      }
      QuotientSign(a, b, q);
    }
    r
  }

  lemma QuotientSign(a: int, b: int, q: int)
    requires b != 0 && Abs(b) * Abs(q) <= Abs(a)
    requires q == 0 || ((q > 0) <==> ((a > 0) == (b > 0)))
    ensures Abs(a - b * q) == Abs(a) - Abs(b) * Abs(q)
  {
    if q != 0 {
      if a > 0 && b > 0 {
        assert b * q == Abs(b) * Abs(q);
      } else if a > 0 && b < 0 {
        assert b * q == Abs(b) * Abs(q);
      } else if a < 0 && b > 0 {
        assert b * q == -(Abs(b) * Abs(q));
      } else {
        assert b * q == -(Abs(b) * Abs(q));
      }
    }
  }

  /** Quotient and remainder put the dividend back together. */
  lemma TruncDivMod(a: int, b: int)
    requires b != 0
    ensures b * TruncDiv(a, b) + TruncMod(a, b) == a
  {
  }

  /** On a non-negative dividend and a positive divisor, truncation agrees
      with Dafny's Euclidean `/` and `%`. */
  lemma TruncAgreesOnNonNegative(a: int, b: int)
    requires a >= 0 && b > 0
    ensures TruncDiv(a, b) == a / b
    ensures TruncMod(a, b) == a % b
  {
  }

  /** Negating the dividend negates both quotient and remainder. */
  lemma TruncOddInDividend(a: int, b: int)
    requires b != 0
    ensures TruncDiv(-a, b) == -TruncDiv(a, b)
    ensures TruncMod(-a, b) == -TruncMod(a, b)
  {
  }

  datatype ArithOp = Plus | Minus | Times | Divide | Modulo

  /** `/` and `%` by zero are undefined in C++. */
  predicate Defined(op: ArithOp, b: int) {
    (op == Divide || op == Modulo) ==> b != 0
  }

  function Arith(op: ArithOp, a: int, b: int): int
    requires Defined(op, b)
  {
    match op
    case Plus => a + b
    case Minus => a - b
    case Times => a * b
    case Divide => TruncDiv(a, b)
    case Modulo => TruncMod(a, b)
  }

  function ArithFn(op: ArithOp): (int, int) --> int {
    (a: int, b: int) requires Defined(op, b) => Arith(op, a, b)
  }

  datatype RelOp = Eq | Ne | Lt | Le | Ge | Gt

  function Rel(op: RelOp, a: int, b: int): bool {
    match op
    case Eq => a == b
    case Ne => a != b
    case Lt => a < b
    case Le => a <= b
    case Ge => a >= b
    case Gt => a > b
  }

  function RelFn(op: RelOp): (int, int) -> bool {
    (a: int, b: int) => Rel(op, a, b)
  }

  /** vec op atom: the operator applied to each element and the atom. */
  function VecAtom<A, B, W>(f: (A, B) --> W, x: seq<A>, b: B): (r: seq<W>)
    requires forall i :: 0 <= i < |x| ==> f.requires(x[i], b)
    ensures |r| == |x|
    ensures forall i :: 0 <= i < |x| ==> r[i] == f(x[i], b)
  {
    seq(|x|, i requires 0 <= i < |x| => f(x[i], b))
  }

  /** atom op vec. */
  function AtomVec<A, B, W>(f: (A, B) --> W, a: A, y: seq<B>): (r: seq<W>)
    requires forall i :: 0 <= i < |y| ==> f.requires(a, y[i])
    ensures |r| == |y|
    ensures forall i :: 0 <= i < |y| ==> r[i] == f(a, y[i])
  {
    seq(|y|, i requires 0 <= i < |y| => f(a, y[i]))
  }

  /** vec op vec: lock-step; the source asserts equal sizes. */
  function VecVec<A, B, W>(f: (A, B) --> W, x: seq<A>, y: seq<B>): (r: seq<W>)
    requires |x| == |y|
    requires forall i :: 0 <= i < |x| ==> f.requires(x[i], y[i])
    ensures |r| == |x|
    ensures forall i :: 0 <= i < |x| ==> r[i] == f(x[i], y[i])
  {
    seq(|x|, i requires 0 <= i < |x| => f(x[i], y[i]))
  }

  /** dict op atom: the values are combined, the keys kept. */
  function DictAtom<K, A, B, W>(f: (A, B) --> W, d: Dict<K, A>, b: B): (r: Dict<K, W>)
    requires d.Valid()
    requires forall i :: 0 <= i < |d.vals| ==> f.requires(d.vals[i], b)
    ensures r.Valid() && r.keys == d.keys
    ensures forall i :: 0 <= i < |d.vals| ==> r.vals[i] == f(d.vals[i], b)
  {
    Dict(d.keys, VecAtom(f, d.vals, b))
  }

  /** atom op dict. */
  function AtomDict<K, A, B, W>(f: (A, B) --> W, a: A, d: Dict<K, B>): (r: Dict<K, W>)
    requires d.Valid()
    requires forall i :: 0 <= i < |d.vals| ==> f.requires(a, d.vals[i])
    ensures r.Valid() && r.keys == d.keys
    ensures forall i :: 0 <= i < |d.vals| ==> r.vals[i] == f(a, d.vals[i])
  {
    Dict(d.keys, AtomVec(f, a, d.vals))
  }

  /** dict op vec: the values against the vec in lock-step, the keys kept. */
  function DictVec<K, A, B, W>(f: (A, B) --> W, d: Dict<K, A>, y: seq<B>): (r: Dict<K, W>)
    requires d.Valid() && |d.vals| == |y|
    requires forall i :: 0 <= i < |y| ==> f.requires(d.vals[i], y[i])
    ensures r.Valid() && r.keys == d.keys
    ensures forall i :: 0 <= i < |y| ==> r.vals[i] == f(d.vals[i], y[i])
  {
    Dict(d.keys, VecVec(f, d.vals, y))
  }

  /** vec op dict: the keys of the dict are kept. */
  function VecDict<K, A, B, W>(f: (A, B) --> W, x: seq<A>, d: Dict<K, B>): (r: Dict<K, W>)
    requires d.Valid() && |x| == |d.vals|
    requires forall i :: 0 <= i < |x| ==> f.requires(x[i], d.vals[i])
    ensures r.Valid() && r.keys == d.keys
    ensures forall i :: 0 <= i < |x| ==> r.vals[i] == f(x[i], d.vals[i])
  {
    Dict(d.keys, VecVec(f, x, d.vals))
  }

  /** Broadcasting an atom is the lock-step form against that many copies. */
  lemma AtomBroadcastIsReplicate<A, B, W>(f: (A, B) --> W, x: seq<A>, b: B, a: A, y: seq<B>)
    requires forall i :: 0 <= i < |x| ==> f.requires(x[i], b)
    requires forall i :: 0 <= i < |y| ==> f.requires(a, y[i])
    ensures VecAtom(f, x, b) == VecVec(f, x, Replicate(|x|, b))
    ensures AtomVec(f, a, y) == VecVec(f, Replicate(|y|, a), y)
  {
  }

  /** For a total operator the broadcasts are the adverbs `eachBoth`,
      `eachLeft` and `eachRight`. */
  lemma BroadcastIsAdverb<A, B, W>(f: (A, B) -> W, x: seq<A>, y: seq<B>, a: A, b: B)
    requires |x| == |y|
    ensures VecVec(f, x, y) == EachBoth(f, x, y)
    ensures VecAtom(f, x, b) == EachLeft(f, x, b)
    ensures AtomVec(f, a, y) == EachRight(f, a, y)
  {
  }

  /** The operator is applicable at every key the merge visits. */
  ghost predicate MergeDefined<K, V, U, W>(x: Dict<K, V>, y: Dict<K, U>, val: (Option<V>, Option<U>) --> W)
    requires x.Valid() && y.Valid()
  {
    (forall i :: 0 <= i < |x.keys| ==> val.requires(Lookup(x, x.keys[i]), Lookup(y, x.keys[i]))) &&
    (forall i :: 0 <= i < |y.keys| ==> val.requires(Lookup(x, y.keys[i]), Lookup(y, y.keys[i])))
  }

  /** In a dict without repeated keys, the lookup of the key at a position
      is the value at that position. */
  lemma GetAtPosition<K, V>(d: Dict<K, V>, i: nat)
    requires d.Valid() && NoDup(d.keys) && i < |d.keys|
    ensures Get(d, d.keys[i]) == d.vals[i]
  {
    var j := Find(d.keys, d.keys[i]);
    assert j == i;
  }

  lemma KeyIsPresent<K, V>(d: Dict<K, V>, i: nat)
    requires d.Valid() && i < |d.keys|
    ensures Lookup(d, d.keys[i]) == Some(Get(d, d.keys[i]))
  {
  }

  /** The merge invariant: the value at each position of `r` is the
      combination of the two sides' entries for the key at that position. */
  ghost predicate Combines<K, V, U, W>(x: Dict<K, V>, y: Dict<K, U>, val: (Option<V>, Option<U>) --> W, r: Dict<K, W>)
    requires x.Valid() && y.Valid()
  {
    r.Valid() &&
    forall i :: 0 <= i < |r.keys| ==>
      val.requires(Lookup(x, r.keys[i]), Lookup(y, r.keys[i])) &&
      r.vals[i] == val(Lookup(x, r.keys[i]), Lookup(y, r.keys[i]))
  }

  /** The first loop of the merge, after its first `n` keys of `x`: each
      key `k` assigned the combination of `x(k)` and `y`'s entry for `k`. */
  function MergeLeft<K(==), V, U, W>(x: Dict<K, V>, y: Dict<K, U>, val: (Option<V>, Option<U>) --> W, n: nat): (r: Dict<K, W>)
    requires x.Valid() && y.Valid() && MergeDefined(x, y, val) && n <= |x.keys|
    ensures r.keys == Distinct(x.keys[..n])
    ensures Combines(x, y, val, r)
    decreases n
  {
    if n == 0 then Dict([], [])
    else
      var r := MergeLeft(x, y, val, n - 1);
      var k := x.keys[n - 1];
      var v := val(Lookup(x, k), Lookup(y, k));
      MergeStep(x, y, val, r, k, v);
      TakeSnoc(x.keys, n);
      DistinctKeysSnoc(r, x.keys[..n - 1], k);
      Set(r, k, v)
  }

  lemma TakeSnoc<T>(s: seq<T>, n: nat)
    requires 0 < n <= |s|
    ensures s[..n] == s[..n - 1] + [s[n - 1]]
  {
  }

  /** When a dict's keys are the `distinct` of `p`, they grow by `k` under
      `p + [k]` exactly when `k` is not yet a key. */
  lemma DistinctKeysSnoc<K, V>(d: Dict<K, V>, p: seq<K>, k: K)
    requires d.keys == Distinct(p)
    ensures Has(d, k) ==> Distinct(p + [k]) == d.keys
    ensures !Has(d, k) ==> Distinct(p + [k]) == d.keys + [k]
  {
    DistinctSnoc(p, k);
  }

  /** One assignment `r(k) = v` keeps the merge invariant when `v` is the
      combination for `k`. */
  lemma MergeStep<K, V, U, W>(x: Dict<K, V>, y: Dict<K, U>, val: (Option<V>, Option<U>) --> W,
                              r: Dict<K, W>, k: K, v: W)
    requires x.Valid() && y.Valid() && Combines(x, y, val, r)
    requires val.requires(Lookup(x, k), Lookup(y, k)) && v == val(Lookup(x, k), Lookup(y, k))
    ensures Combines(x, y, val, Set(r, k, v))
  {
    var j := Find(r.keys, k);
    if j < |r.keys| {
      SetShape(r, k, v);
      OverwriteCombines(x, y, val, r, j, v);
    } else {
      SetShape(r, k, v);
      AppendCombines(x, y, val, r, k, v);
    }
  }

  /** What `d(k) = v` does to the two sequences. */
  lemma SetShape<K, V>(d: Dict<K, V>, k: K, v: V)
    requires d.Valid()
    ensures Find(d.keys, k) < |d.keys| ==> Set(d, k, v) == Dict(d.keys, d.vals[Find(d.keys, k) := v])
    ensures Find(d.keys, k) == |d.keys| ==> Set(d, k, v) == Dict(d.keys + [k], d.vals + [v])
  {
  }

  lemma OverwriteCombines<K, V, U, W>(x: Dict<K, V>, y: Dict<K, U>, val: (Option<V>, Option<U>) --> W,
                                      r: Dict<K, W>, j: nat, v: W)
    requires x.Valid() && y.Valid() && Combines(x, y, val, r) && j < |r.keys|
    requires val.requires(Lookup(x, r.keys[j]), Lookup(y, r.keys[j]))
    requires v == val(Lookup(x, r.keys[j]), Lookup(y, r.keys[j]))
    ensures Combines(x, y, val, Dict(r.keys, r.vals[j := v]))
  {
  }

  lemma AppendCombines<K, V, U, W>(x: Dict<K, V>, y: Dict<K, U>, val: (Option<V>, Option<U>) --> W,
                                   r: Dict<K, W>, k: K, v: W)
    requires x.Valid() && y.Valid() && Combines(x, y, val, r)
    requires val.requires(Lookup(x, k), Lookup(y, k)) && v == val(Lookup(x, k), Lookup(y, k))
    ensures Combines(x, y, val, Dict(r.keys + [k], r.vals + [v]))
  {
    var r' := Dict(r.keys + [k], r.vals + [v]);
    assert forall i :: 0 <= i < |r.keys| ==> r'.keys[i] == r.keys[i] && r'.vals[i] == r.vals[i];
  }

  /** The second loop of the merge, after its first `n` keys of `y`: each
      key of `y` not yet in the result assigned the combination of the
      missing left side and `y(k)`. */
  function MergeRight<K(==), V, U, W>(x: Dict<K, V>, y: Dict<K, U>, val: (Option<V>, Option<U>) --> W, n: nat): (r: Dict<K, W>)
    requires x.Valid() && y.Valid() && MergeDefined(x, y, val) && n <= |y.keys|
    ensures r.keys == Distinct(x.keys + y.keys[..n])
    ensures Combines(x, y, val, r)
    decreases n
  {
    if n == 0 then
      assert x.keys[..|x.keys|] == x.keys;
      assert x.keys + y.keys[..0] == x.keys;
      MergeLeft(x, y, val, |x.keys|)
    else
      var r := MergeRight(x, y, val, n - 1);
      var k := y.keys[n - 1];
      PrefixSnoc(x.keys, y.keys, n);
      DistinctKeysSnoc(r, x.keys + y.keys[..n - 1], k);
      if Has(r, k) then r
      else
        var v := val(Lookup(x, k), Lookup(y, k));
        MergeStep(x, y, val, r, k, v);
        Set(r, k, v)
  }

  lemma PrefixSnoc<T>(a: seq<T>, b: seq<T>, n: nat)
    requires 0 < n <= |b|
    ensures a + b[..n] == (a + b[..n - 1]) + [b[n - 1]]
  {
    assert b[..n] == b[..n - 1] + [b[n - 1]];
  }

  /** The dict-dict merge: the keys are those of `x` in order, then the
      keys of `y` not already present, each once; the value for key `k` is
      the combination of the two sides' entries for `k`, `None` standing for
      a side that lacks `k`. */
  function KeyMerge<K(==), V, U, W>(x: Dict<K, V>, y: Dict<K, U>, val: (Option<V>, Option<U>) --> W): (r: Dict<K, W>)
    requires x.Valid() && y.Valid() && MergeDefined(x, y, val)
    ensures r.Valid() && NoDup(r.keys)
    ensures r.keys == Distinct(x.keys + y.keys)
    ensures |Distinct(x.keys)| <= |r.keys| && r.keys[..|Distinct(x.keys)|] == Distinct(x.keys)
    ensures forall i :: 0 <= i < |r.keys| ==>
      val.requires(Lookup(x, r.keys[i]), Lookup(y, r.keys[i])) &&
      r.vals[i] == val(Lookup(x, r.keys[i]), Lookup(y, r.keys[i]))
  {
    assert y.keys[..|y.keys|] == y.keys;
    DistinctPrefix(x.keys, y.keys);
    var r := MergeRight(x, y, val, |y.keys|);
    assert Combines(x, y, val, r);
    r
  }

  /** The identity filling a missing side: 0 for `+` and `-`, 1 for `*`
      and `/`. `%` has none, so it has no dict-dict form. */
  function Identity(op: ArithOp): (r: int)
    requires op != Modulo
    ensures Defined(op, r)
    ensures forall a :: Arith(op, a, r) == a
    ensures op == Plus || op == Times ==> forall b :: Arith(op, r, b) == b
  {
    if op == Plus || op == Minus then 0 else 1
  }

  /** Every value the lookup of `y` can yield is non-zero. */
  predicate NonZeroValues<K(==)>(y: Dict<K, int>)
    requires y.Valid()
  {
    forall i :: 0 <= i < |y.keys| ==> Get(y, y.keys[i]) != 0
  }

  lemma NonZeroAt<K>(op: ArithOp, y: Dict<K, int>, k: K)
    requires y.Valid() && (op == Divide ==> NonZeroValues(y)) && Has(y, k)
    ensures op == Divide ==> Get(y, k) != 0
  {
    var j :| 0 <= j < |y.keys| && y.keys[j] == k;
  }

  /** What the merge of `+ - * /` assigns to a key present on at least one
      side: both values combined, or the one value combined with the
      identity standing in for the missing side. */
  function ArithValue<K(==)>(op: ArithOp, x: Dict<K, int>, y: Dict<K, int>, k: K): int
    requires op != Modulo && x.Valid() && y.Valid() && (Has(x, k) || Has(y, k))
    requires op == Divide ==> NonZeroValues(y)
  {
    if Has(y, k) then
      NonZeroAt(op, y, k);
      if Has(x, k) then Arith(op, Get(x, k), Get(y, k)) else Arith(op, Identity(op), Get(y, k))
    else Arith(op, Get(x, k), Identity(op))
  }

  function ArithCombine(op: ArithOp): (Option<int>, Option<int>) --> int
    requires op != Modulo
  {
    (ox: Option<int>, oy: Option<int>) requires Defined(op, oy.GetOr(Identity(op))) =>
      Arith(op, ox.GetOr(Identity(op)), oy.GetOr(Identity(op)))
  }

  lemma ArithCombineAt<K>(op: ArithOp, x: Dict<K, int>, y: Dict<K, int>, k: K)
    requires op != Modulo && x.Valid() && y.Valid() && (Has(x, k) || Has(y, k))
    requires op == Divide ==> NonZeroValues(y)
    ensures ArithCombine(op).requires(Lookup(x, k), Lookup(y, k))
    ensures ArithCombine(op)(Lookup(x, k), Lookup(y, k)) == ArithValue(op, x, y, k)
  {
    if Has(y, k) {
      NonZeroAt(op, y, k);
    }
  }

  /** dict op dict for `+ - * /`: the keys of both sides, `x`'s first and
      each once, each with the value `ArithValue` gives it. Dividing
      requires the values `y` yields to be non-zero. */
  function ArithMerge<K(==)>(op: ArithOp, x: Dict<K, int>, y: Dict<K, int>): (r: Dict<K, int>)
    requires op != Modulo && x.Valid() && y.Valid()
    requires op == Divide ==> NonZeroValues(y)
    ensures r.Valid() && NoDup(r.keys)
    ensures r.keys == Distinct(x.keys + y.keys)
    ensures forall i :: 0 <= i < |r.keys| ==>
      (Has(x, r.keys[i]) || Has(y, r.keys[i])) && r.vals[i] == ArithValue(op, x, y, r.keys[i])
  {
    var val := ArithCombine(op);
    assert MergeDefined(x, y, val) by {
      forall i | 0 <= i < |x.keys|
        ensures val.requires(Lookup(x, x.keys[i]), Lookup(y, x.keys[i]))
      {
        ArithCombineAt(op, x, y, x.keys[i]);
      }
      forall i | 0 <= i < |y.keys|
        ensures val.requires(Lookup(x, y.keys[i]), Lookup(y, y.keys[i]))
      {
        ArithCombineAt(op, x, y, y.keys[i]);
      }
    }
    var r := KeyMerge(x, y, val);
    forall i | 0 <= i < |r.keys|
      ensures Has(x, r.keys[i]) || Has(y, r.keys[i])
      ensures r.vals[i] == ArithValue(op, x, y, r.keys[i])
    {
      KeyFromEitherSide(x.keys, y.keys, r.keys[i]);
      ArithCombineAt(op, x, y, r.keys[i]);
    }
    r
  }

  lemma KeyFromEitherSide<K>(a: seq<K>, b: seq<K>, k: K)
    requires k in Distinct(a + b)
    ensures k in a || k in b
  {
    var j :| 0 <= j < |a + b| && (a + b)[j] == k;
    if j >= |a| {
      assert b[j - |a|] == k;
    }
  }

  /** A relational operator's result for a key one side lacks: `no_lhs`
      when `x` lacks it, `no_rhs` when `y` lacks it. */
  function NoLhs(op: RelOp): (r: bool)
    ensures forall a, b :: a < b ==> (r <==> Rel(op, a, b))
  {
    match op
    case Eq => false
    case Ne => true
    case Lt => true
    case Le => true
    case Ge => false
    case Gt => false
  }

  function NoRhs(op: RelOp): (r: bool)
    ensures forall a, b :: a > b ==> (r <==> Rel(op, a, b))
  {
    match op
    case Eq => false
    case Ne => true
    case Lt => false
    case Le => false
    case Ge => true
    case Gt => true
  }

  /** What the relational merge assigns to a key present on at least one
      side: the comparison, or the operator's default for the missing
      side. */
  function RelValue<K(==)>(op: RelOp, x: Dict<K, int>, y: Dict<K, int>, k: K): bool
    requires x.Valid() && y.Valid() && (Has(x, k) || Has(y, k))
  {
    if Has(x, k) && Has(y, k) then Rel(op, Get(x, k), Get(y, k))
    else if Has(x, k) then NoRhs(op)
    else NoLhs(op)
  }

  function RelCombine(op: RelOp): (Option<int>, Option<int>) --> bool {
    (ox: Option<int>, oy: Option<int>) requires ox.Some? || oy.Some? =>
      if ox.Some? && oy.Some? then Rel(op, ox.value, oy.value)
      else if ox.Some? then NoRhs(op)
      else NoLhs(op)
  }

  lemma RelCombineAt<K>(op: RelOp, x: Dict<K, int>, y: Dict<K, int>, k: K)
    requires x.Valid() && y.Valid() && (Has(x, k) || Has(y, k))
    ensures RelCombine(op).requires(Lookup(x, k), Lookup(y, k))
    ensures RelCombine(op)(Lookup(x, k), Lookup(y, k)) == RelValue(op, x, y, k)
  {
  }

  /** dict op dict for the relational operators: the keys of both sides,
      `x`'s first and each once, each with the value `RelValue` gives it. */
  function RelMerge<K(==)>(op: RelOp, x: Dict<K, int>, y: Dict<K, int>): (r: Dict<K, bool>)
    requires x.Valid() && y.Valid()
    ensures r.Valid() && NoDup(r.keys)
    ensures r.keys == Distinct(x.keys + y.keys)
    ensures forall i :: 0 <= i < |r.keys| ==>
      (Has(x, r.keys[i]) || Has(y, r.keys[i])) && r.vals[i] == RelValue(op, x, y, r.keys[i])
  {
    var val := RelCombine(op);
    assert MergeDefined(x, y, val) by {
      forall i | 0 <= i < |x.keys|
        ensures val.requires(Lookup(x, x.keys[i]), Lookup(y, x.keys[i]))
      {
        RelCombineAt(op, x, y, x.keys[i]);
      }
      forall i | 0 <= i < |y.keys|
        ensures val.requires(Lookup(x, y.keys[i]), Lookup(y, y.keys[i]))
      {
        RelCombineAt(op, x, y, y.keys[i]);
      }
    }
    var r := KeyMerge(x, y, val);
    forall i | 0 <= i < |r.keys|
      ensures Has(x, r.keys[i]) || Has(y, r.keys[i])
      ensures r.vals[i] == RelValue(op, x, y, r.keys[i])
    {
      KeyFromEitherSide(x.keys, y.keys, r.keys[i]);
      RelCombineAt(op, x, y, r.keys[i]);
    }
    r
  }

  /** Reference order for the relational merge: the integers with a least
      element below all of them. */
  datatype Extended = NegInf | Fin(n: int)

  function Extend(o: Option<int>): Extended {
    if o.Some? then Fin(o.value) else NegInf
  }

  predicate Below(a: Extended, b: Extended) {
    (a.NegInf? && b.Fin?) || (a.Fin? && b.Fin? && a.n < b.n)
  }

  function RelExt(op: RelOp, a: Extended, b: Extended): bool {
    match op
    case Eq => a == b
    case Ne => a != b
    case Lt => Below(a, b)
    case Le => Below(a, b) || a == b
    case Ge => !Below(a, b)
    case Gt => Below(b, a)
  }

  /** The per-operator defaults of the relational merge are what the
      operator gives when the missing side is taken to be below every
      integer. */
  lemma RelValueIsMissingAsLeast<K>(op: RelOp, x: Dict<K, int>, y: Dict<K, int>, k: K)
    requires x.Valid() && y.Valid() && (Has(x, k) || Has(y, k))
    ensures RelValue(op, x, y, k) == RelExt(op, Extend(Lookup(x, k)), Extend(Lookup(y, k)))
  {
  }

  lemma RelMergeIsMissingAsLeast<K>(op: RelOp, x: Dict<K, int>, y: Dict<K, int>)
    requires x.Valid() && y.Valid()
    ensures forall i :: 0 <= i < |RelMerge(op, x, y).keys| ==>
      RelMerge(op, x, y).vals[i] ==
        RelExt(op, Extend(Lookup(x, RelMerge(op, x, y).keys[i])), Extend(Lookup(y, RelMerge(op, x, y).keys[i])))
  {
    var r := RelMerge(op, x, y);
    forall i | 0 <= i < |r.keys|
      ensures r.vals[i] == RelExt(op, Extend(Lookup(x, r.keys[i])), Extend(Lookup(y, r.keys[i])))
    {
      RelValueIsMissingAsLeast(op, x, y, r.keys[i]);
    }
  }

  /** The keys of a merge are those on either side. */
  lemma MergeKeys<K>(a: seq<K>, b: seq<K>, k: K)
    ensures k in Distinct(a + b) <==> k in a || k in b
  {
    if k in Distinct(a + b) {
      KeyFromEitherSide(a, b, k);
    }
    if k in a {
      var j :| 0 <= j < |a| && a[j] == k;
      assert (a + b)[j] == k;
    } else if k in b {
      var j :| 0 <= j < |b| && b[j] == k;
      assert (a + b)[|a| + j] == k;
    }
  }

  /** Looking a key up in the merge gives the value `ArithValue` defines. */
  lemma ArithMergeGet<K>(op: ArithOp, x: Dict<K, int>, y: Dict<K, int>, k: K)
    requires op != Modulo && x.Valid() && y.Valid()
    requires op == Divide ==> NonZeroValues(y)
    requires Has(x, k) || Has(y, k)
    ensures Has(ArithMerge(op, x, y), k)
    ensures Get(ArithMerge(op, x, y), k) == ArithValue(op, x, y, k)
  {
    var r := ArithMerge(op, x, y);
    MergeKeys(x.keys, y.keys, k);
    var m := Find(r.keys, k);
    GetAtPosition(r, m);
  }

  /** `+` and `*` merges have the same keys and give each key the same
      value whichever side is on the left; only the key order differs. */
  lemma MergeCommutes<K>(op: ArithOp, x: Dict<K, int>, y: Dict<K, int>, k: K)
    requires op == Plus || op == Times
    requires x.Valid() && y.Valid()
    ensures Has(ArithMerge(op, x, y), k) <==> Has(ArithMerge(op, y, x), k)
    ensures Has(ArithMerge(op, x, y), k) ==> Get(ArithMerge(op, x, y), k) == Get(ArithMerge(op, y, x), k)
  {
    MergeKeys(x.keys, y.keys, k);
    MergeKeys(y.keys, x.keys, k);
    if Has(x, k) || Has(y, k) {
      ArithMergeGet(op, x, y, k);
      ArithMergeGet(op, y, x, k);
    }
  }

  /** Merging with the empty dict under `+` leaves a dict without repeated
      keys as it was. */
  lemma MergeWithEmpty<K>(x: Dict<K, int>)
    requires x.Valid() && NoDup(x.keys)
    ensures ArithMerge(Plus, x, Dict([], [])) == x
  {
    var r := ArithMerge(Plus, x, Dict([], []));
    MergeWithEmptyKeys(x.keys);
    forall i | 0 <= i < |x.keys|
      ensures r.vals[i] == x.vals[i]
    {
      MergeWithEmptyAt(x, i);
    }
  }

  lemma MergeWithEmptyKeys<K>(keys: seq<K>)
    requires NoDup(keys)
    ensures Distinct(keys + []) == keys
  {
    assert keys + [] == keys;
    DistinctOfNoDup(keys);
  }

  lemma MergeWithEmptyAt<K>(x: Dict<K, int>, i: nat)
    requires x.Valid() && NoDup(x.keys) && i < |x.keys|
    ensures ArithValue(Plus, x, Dict([], []), x.keys[i]) == x.vals[i]
  {
    GetAtPosition(x, i);
  }

  /** On two dicts with the same keys and no repeats, the merge keeps the
      keys and combines the values in lock-step, like dict op vec. */
  lemma MergeSameKeys<K>(op: ArithOp, x: Dict<K, int>, y: Dict<K, int>)
    requires op != Modulo && x.Valid() && y.Valid()
    requires x.keys == y.keys && NoDup(x.keys)
    requires forall i :: 0 <= i < |y.vals| ==> Defined(op, y.vals[i])
    ensures op == Divide ==> NonZeroValues(y)
    ensures ArithMerge(op, x, y).keys == x.keys
    ensures forall i :: 0 <= i < |x.keys| ==> ArithMerge(op, x, y).vals[i] == Arith(op, x.vals[i], y.vals[i])
  {
    SameKeysNonZero(op, y);
    MergeSameKeysKeys(x.keys);
    forall i | 0 <= i < |x.keys|
      ensures ArithMerge(op, x, y).vals[i] == Arith(op, x.vals[i], y.vals[i])
    {
      MergeSameKeysAt(op, x, y, i);
    }
  }

  lemma SameKeysNonZero<K>(op: ArithOp, y: Dict<K, int>)
    requires y.Valid() && NoDup(y.keys)
    requires forall i :: 0 <= i < |y.vals| ==> Defined(op, y.vals[i])
    ensures op == Divide ==> NonZeroValues(y)
  {
    forall i | 0 <= i < |y.keys|
      ensures Get(y, y.keys[i]) == y.vals[i]
    {
      GetAtPosition(y, i);
    }
  }

  lemma MergeSameKeysKeys<K>(keys: seq<K>)
    requires NoDup(keys)
    ensures Distinct(keys + keys) == keys
  {
    DistinctOfNoDup(keys);
    DistinctAbsorbs(keys, keys);
  }

  lemma MergeSameKeysAt<K>(op: ArithOp, x: Dict<K, int>, y: Dict<K, int>, i: nat)
    requires op != Modulo && x.Valid() && y.Valid()
    requires x.keys == y.keys && NoDup(x.keys) && i < |x.keys|
    requires op == Divide ==> NonZeroValues(y)
    ensures Defined(op, y.vals[i])
    ensures ArithValue(op, x, y, x.keys[i]) == Arith(op, x.vals[i], y.vals[i])
  {
    GetAtPosition(x, i);
    GetAtPosition(y, i);
  }

  /** Appending elements that are already present leaves `distinct` as it
      was. */
  lemma {:induction false} DistinctAbsorbs<T>(x: seq<T>, y: seq<T>)
    requires forall i :: 0 <= i < |y| ==> y[i] in x
    ensures Distinct(x + y) == Distinct(x)
    decreases |y|
  {
    if |y| == 0 {
      assert x + y == x;
    } else {
      var y' := y[..|y| - 1];
      var e := y[|y| - 1];
      assert x + y == (x + y') + [e];
      DistinctAbsorbs(x, y');
      DistinctSnoc(x + y', e);
      var j :| 0 <= j < |x| && x[j] == e;
      assert (x + y')[j] == e;
    }
  }
}

=== FILE: examples.dfy ===
/** Concrete cases from the library's own test suite, stated about the
    model. */
module Examples {
  import opened Values
  import opened Adverbs
  import opened Reduce
  import opened Sets
  import opened Shape
  import opened Atomic
  import opened Sorting

  lemma TakeAtomCase()
    ensures TakeAtom(3, 47) == [47, 47, 47]
  {
  }

  lemma TakePrefixCase()
    ensures Take(3, [10, 20, 30, 40]) == [10, 20, 30]
  {
  }

  lemma TakeSuffixCase()
    ensures Take(-3, [10, 20, 30, 40]) == [20, 30, 40]
  {
  }

  lemma TakeOverCase()
    ensures Take(10, [1, 2, 3]) == [1, 2, 3, 1, 2, 3, 1, 2, 3, 1]
  {
    var x := [1, 2, 3];
    var t := Take(10, x);
    assert t[0] == x[0] && t[1] == x[1] && t[2] == x[2];
    assert t[3] == x[0] && t[4] == x[1] && t[5] == x[2];
    assert t[6] == x[0] && t[7] == x[1] && t[8] == x[2] && t[9] == x[0];
  }

  lemma TakeOverBackCase()
    ensures Take(-5, [10, 20, 30]) == [20, 30, 10, 20, 30]
  {
  }

  lemma Reshape22()
    ensures TakeShape([2, 2], Til(10)) == [[0, 1], [2, 3]]
  {
    var x := Til(10);
    assert |x| == 10;
    var r := TakeShape([2, 2], x);
    assert r == MatrixFromVector(2, 2, x);
    MatrixRow(2, 2, x, 0);
    MatrixRow(2, 2, x, 1);
    assert r[0] == [0, 1] && r[1] == [2, 3];
  }

  /** Which matrices the `(2, 0)` reshape of eight elements builds. */
  lemma Reshape20Split<T>(x: seq<T>)
    requires |x| == 8
    ensures TakeShape([2, 0], x) == MatrixFromVector(2, 4, x)
  {
    assert |x| / 2 == 4 && |x| % 2 == 0;
  }

  lemma Reshape20()
    ensures TakeShape([2, 0], Til(8)) == [[0, 1, 2, 3], [4, 5, 6, 7]]
  {
    var x := Til(8);
    Reshape20Split(x);
    MatrixRow(2, 4, x, 0);
    MatrixRow(2, 4, x, 1);
    var r := MatrixFromVector(2, 4, x);
    assert r[0] == [0, 1, 2, 3] && r[1] == [4, 5, 6, 7];
  }

  /** Which matrices the `(3, 0)` reshape of eight elements builds: two
      rows of three, then one of two. */
  lemma Reshape30Split<T>(x: seq<T>)
    requires |x| == 8
    ensures TakeShape([3, 0], x) == MatrixFromVector(2, 3, x) + MatrixFromVector(1, 2, Drop(6, x))
  {
    assert |x| / 3 == 2 && |x| % 3 == 2;
    assert FixedRowsFlexCols(3, x) == BigThenSmall(2, 1, 2, 6, x);
  }

  lemma Reshape30Of(x: seq<int>)
    requires |x| == 8 && forall i :: 0 <= i < 8 ==> x[i] == i
    ensures TakeShape([3, 0], x) == [[0, 1, 2], [3, 4, 5], [6, 7]]
  {
    var y := Drop(6, x);
    Reshape30Split(x);
    assert y == x[6..] && y[0] == 6 && y[1] == 7;
    MatrixRow(2, 3, x, 0);
    MatrixRow(2, 3, x, 1);
    MatrixRow(1, 2, y, 0);
    var r := MatrixFromVector(2, 3, x) + MatrixFromVector(1, 2, y);
    assert r[0] == [0, 1, 2] && r[1] == [3, 4, 5] && r[2] == [6, 7];
  }

  lemma Reshape30()
    ensures TakeShape([3, 0], Til(8)) == [[0, 1, 2], [3, 4, 5], [6, 7]]
  {
    Reshape30Of(Til(8));
  }

  /** Which matrices the `(0, 7)` reshape of ten elements builds: one row
      of seven, then one of three. */
  lemma Reshape07Split<T>(x: seq<T>)
    requires |x| == 10
    ensures TakeShape([0, 7], x) == MatrixFromVector(1, 7, x) + MatrixFromVector(1, 3, Drop(7, x))
  {
    assert |x| / 7 == 1 && |x| % 7 == 3;
  }

  lemma Reshape07()
    ensures TakeShape([0, 7], Til(10)) == [[0, 1, 2, 3, 4, 5, 6], [7, 8, 9]]
  {
    var x := Til(10);
    var y := Drop(7, x);
    Reshape07Split(x);
    assert y == x[7..] && y[0] == 7 && y[1] == 8 && y[2] == 9;
    MatrixRow(1, 7, x, 0);
    MatrixRow(1, 3, y, 0);
    var r := MatrixFromVector(1, 7, x) + MatrixFromVector(1, 3, y);
    assert r[0] == [0, 1, 2, 3, 4, 5, 6] && r[1] == [7, 8, 9];
  }

  lemma Cut1()
    ensures Cut([0, 4, 8], Til(10)) == [[0, 1, 2, 3], [4, 5, 6, 7], [8, 9]]
  {
    var x := Til(10);
    var r := Cut([0, 4, 8], x);
    assert r[0] == [0, 1, 2, 3] && r[1] == [4, 5, 6, 7] && r[2] == [8, 9];
  }

  lemma Cut2()
    ensures Cut([0, 4, 4, 8], Til(10)) == [[0, 1, 2, 3], [], [4, 5, 6, 7], [8, 9]]
  {
    var x := Til(10);
    var r := Cut([0, 4, 4, 8], x);
    assert r[0] == [0, 1, 2, 3] && r[1] == [] && r[2] == [4, 5, 6, 7] && r[3] == [8, 9];
  }

  lemma Drop1()
    ensures Drop(1, [1, 2, 3]) == [2, 3]
  {
  }

  lemma Drop2()
    ensures Drop(-1, [1, 2, 3]) == [1, 2]
  {
  }

  lemma Rot1()
    ensures Rotate(3, "abcdefghij") == "defghijabc"
  {
    var x := "abcdefghij";
    assert |x| == 10 && 3 % |x| == 3;
    assert Rotate(3, x) == x[3..] + x[..3];
  }

  lemma Rot2()
    ensures Rotate(-3, "abcdefghij") == "hijabcdefg"
  {
    var x := "abcdefghij";
    assert |x| == 10 && 3 % |x| == 3;
    assert Rotate(-3, x) == x[7..] + x[..7];
  }

  lemma Rot3()
    ensures Rotate(12, "abcdefghij") == "cdefghijab"
  {
    var x := "abcdefghij";
    assert |x| == 10 && 12 % |x| == 2;
    assert Rotate(12, x) == x[2..] + x[..2];
  }

  lemma Rot4()
    ensures Rotate(-12, "abcdefghij") == "ijabcdefgh"
  {
    var x := "abcdefghij";
    assert |x| == 10 && 12 % |x| == 2;
    assert Rotate(-12, x) == x[8..] + x[..8];
  }

  lemma Sub1()
    ensures Sublist(3, Til(5)) == [0, 1, 2]
  {
  }

  lemma Sub2()
    ensures Sublist(-3, Til(5)) == [2, 3, 4]
  {
  }

  lemma Sub3()
    ensures Sublist(15, Til(5)) == Til(5)
  {
  }

  lemma Sub4()
    ensures Sublist(-12, Til(5)) == Til(5)
  {
  }

  lemma Sub5()
    ensures SublistRange([1, 3], Til(5)) == [1, 2, 3]
  {
  }

  lemma Scan1()
    ensures Scan(Add, Til(5)) == [0, 1, 3, 6, 10]
  {
  }

  lemma Scan2()
    ensures ScanSeeded(Add, 2, Til(5)) == [2, 3, 5, 8, 12]
  {
  }

  /** The vec the sorting tests share, and the positions that sort it. */
  lemma IascCase(x: seq<int>)
    requires x == [3, 8, 4, 6, 2, 0, 1]
    ensures Iasc(x) == [5, 6, 4, 0, 2, 3, 1]
  {
    var p := [5, 6, 4, 0, 2, 3, 1];
    assert p[3] == 0 && p[6] == 1 && p[4] == 2 && p[5] == 3 && p[2] == 4 && p[0] == 5 && p[1] == 6;
    ChainSortsStably(Up, x, p);
    IascIsTheStableSort(x, p);
  }

  lemma IdescCase(x: seq<int>)
    requires x == [3, 8, 4, 6, 2, 0, 1]
    ensures Idesc(x) == [1, 3, 2, 0, 4, 6, 5]
  {
    var p := [1, 3, 2, 0, 4, 6, 5];
    assert p[3] == 0 && p[0] == 1 && p[2] == 2 && p[1] == 3 && p[4] == 4 && p[6] == 5 && p[5] == 6;
    ChainSortsStably(Down, x, p);
    IascIsTheStableSort(x, p);
  }

  /** The sorting test's vec at its ascending positions. */
  lemma AtAscPositions(x: seq<int>, p: seq<int>)
    requires x == [3, 8, 4, 6, 2, 0, 1] && p == [5, 6, 4, 0, 2, 3, 1]
    ensures At(x, p) == [0, 1, 2, 3, 4, 6, 8]
  {
    var a := At(x, p);
    assert a[0] == 0 && a[1] == 1 && a[2] == 2 && a[3] == 3 && a[4] == 4 && a[5] == 6 && a[6] == 8;
  }

  /** The sorting test's vec at its descending positions. */
  lemma AtDescPositions(x: seq<int>, q: seq<int>)
    requires x == [3, 8, 4, 6, 2, 0, 1] && q == [1, 3, 2, 0, 4, 6, 5]
    ensures At(x, q) == [8, 6, 4, 3, 2, 1, 0]
  {
    var d := At(x, q);
    assert d[0] == 8 && d[1] == 6 && d[2] == 4 && d[3] == 3 && d[4] == 2 && d[5] == 1 && d[6] == 0;
  }

  lemma AscCase(x: seq<int>)
    requires x == [3, 8, 4, 6, 2, 0, 1]
    ensures Asc(x) == [0, 1, 2, 3, 4, 6, 8]
    ensures At(x, Iasc(x)) == [0, 1, 2, 3, 4, 6, 8]
  {
    IascCase(x);
    AscIsAtIasc(x);
    AtAscPositions(x, Iasc(x));
  }

  lemma DescCase(x: seq<int>)
    requires x == [3, 8, 4, 6, 2, 0, 1]
    ensures Desc(x) == [8, 6, 4, 3, 2, 1, 0]
    ensures At(x, Idesc(x)) == [8, 6, 4, 3, 2, 1, 0]
  {
    IdescCase(x);
    AscIsAtIasc(x);
    AtDescPositions(x, Idesc(x));
  }

  lemma RankCase(x: seq<int>)
    requires x == [3, 8, 4, 6, 2, 0, 1]
    ensures Rank(x) == [3, 6, 4, 5, 2, 0, 1]
  {
    IascCase(x);
    var y := Iasc(x);
    var p := [3, 6, 4, 5, 2, 0, 1];
    assert p[5] == 0 && p[6] == 1 && p[4] == 2 && p[0] == 3 && p[2] == 4 && p[3] == 5 && p[1] == 6;
    ChainSortsStably(Up, y, p);
    IascIsTheStableSort(y, p);
  }

  /** The vec of the `distinct` test, element by element. */
  predicate DistinctTestVec(x: seq<int>) {
    |x| == 10 && x[0] == 1 && x[1] == 1 && x[2] == 3 && x[3] == 5 && x[4] == 6 &&
    x[5] == 3 && x[6] == 4 && x[7] == 7 && x[8] == 5 && x[9] == 9
  }

  /** The expected answer of the `distinct` test, element by element. */
  predicate DistinctTestResult(d: seq<int>) {
    |d| == 7 && d[0] == 1 && d[1] == 3 && d[2] == 5 && d[3] == 6 && d[4] == 4 && d[5] == 7 && d[6] == 9
  }

  lemma DistinctTestFindsLow(x: seq<int>)
    requires DistinctTestVec(x)
    ensures Find(x, 1) == 0 && Find(x, 3) == 2 && Find(x, 5) == 3 && Find(x, 6) == 4
  {
    FindIsFirstOccurrence(x, 1, 0);
    FindIsFirstOccurrence(x, 3, 2);
    FindIsFirstOccurrence(x, 5, 3);
    FindIsFirstOccurrence(x, 6, 4);
  }

  lemma DistinctTestFindsHigh(x: seq<int>)
    requires DistinctTestVec(x)
    ensures Find(x, 4) == 6 && Find(x, 7) == 7 && Find(x, 9) == 9
  {
    FindIsFirstOccurrence(x, 4, 6);
    FindIsFirstOccurrence(x, 7, 7);
    FindIsFirstOccurrence(x, 9, 9);
  }

  /** The expected answer lists the test's elements once each, in the order
      they are first seen. */
  lemma DistinctTestListing(x: seq<int>, d: seq<int>)
    requires DistinctTestVec(x) && DistinctTestResult(d)
    ensures ListsDistinct(x, d)
  {
    DistinctTestFindsLow(x);
    DistinctTestFindsHigh(x);
    assert d[0] == x[0] && d[1] == x[2] && d[2] == x[3] && d[3] == x[4] && d[4] == x[6] && d[5] == x[7] && d[6] == x[9];
    assert x[1] == d[0] && x[5] == d[1] && x[8] == d[2];
    ListsDistinctByNeighbours(x, d);
  }

  lemma DistinctCase(x: seq<int>)
    requires x == [1, 1, 3, 5, 6, 3, 4, 7, 5, 9]
    ensures Distinct(x) == [1, 3, 5, 6, 4, 7, 9]
  {
    var d := [1, 3, 5, 6, 4, 7, 9];
    assert DistinctTestVec(x) && DistinctTestResult(d);
    DistinctTestListing(x, d);
    DistinctCharacterized(x, d);
  }

  lemma FindCase(x: seq<int>)
    requires x == [1, 3, 5, 7, 9]
    ensures Find(x, 5) == 2
    ensures Find(x, 0) == 5
  {
    FindIsFirstOccurrence(x, 5, 2);
    FindIsFirstOccurrence(x, 0, 5);
  }

  /** An assignment through the lookup writes the first entry for its key
      only; a later entry under the same key keeps its value. */
  lemma SetFirstMatchOnly(d: Dict<int, int>)
    requires d == Dict([0, 0], [1, 2])
    ensures Set(d, 0, 5).keys == [0, 0]
    ensures Set(d, 0, 5).vals[0] == 5 && Set(d, 0, 5).vals[1] == 2
  {
    assert Find(d.keys, 0) == 0;
  }

  lemma FindEachCase(x: seq<int>)
    requires x == [1, 3, 5, 7, 9]
    ensures FindEach(x, [5, 3]) == [2, 1]
  {
    FindIsFirstOccurrence(x, 5, 2);
    FindIsFirstOccurrence(x, 3, 1);
  }

  lemma InCase(x: seq<int>)
    requires x == Til(5)
    ensures InAtom(3, x) && !InAtom(8, x)
  {
  }

  lemma JoinCase(x: seq<int>, y: seq<int>)
    requires x == [1, 2, 3] && y == [4, 5, 6]
    ensures JoinVecs(x, y) == AtomVec(Add, 1, Til(6))
  {
    var t := AtomVec(Add, 1, Til(6));
    assert t[0] == 1 && t[1] == 2 && t[2] == 3 && t[3] == 4 && t[4] == 5 && t[5] == 6;
  }

  /** What `+` on two dicts gives a key on both sides, and a key on the
      right side only. */
  lemma PlusAt<K>(x: Dict<K, int>, y: Dict<K, int>, k: K)
    requires x.Valid() && y.Valid() && Has(y, k)
    ensures Has(ArithMerge(Plus, x, y), k)
    ensures Has(x, k) ==> Get(ArithMerge(Plus, x, y), k) == Get(x, k) + Get(y, k)
    ensures !Has(x, k) ==> Get(ArithMerge(Plus, x, y), k) == Get(y, k)
  {
    ArithMergeGet(Plus, x, y, k);
    var v := ArithValue(Plus, x, y, k);
    if Has(x, k) {
      assert v == Arith(Plus, Get(x, k), Get(y, k));
    } else {
      assert v == Arith(Plus, Identity(Plus), Get(y, k));
    }
  }

  /** A key on both sides of `merge` gets the sum of its values. */
  lemma MergeShared()
    ensures Get(ArithMerge(Plus, Dict("abc", [1, 2, 3]), Dict("bcd", [1, 2, 7])), 'b') == 3
  {
    var x := Dict("abc", [1, 2, 3]);
    var y := Dict("bcd", [1, 2, 7]);
    assert |x.keys| == 3 && |y.keys| == 3;
    assert Get(x, 'b') == 2 by { assert x.keys[1] == 'b' && x.keys[..1] == "a"; }
    assert Get(y, 'b') == 1 by { assert y.keys[0] == 'b' && y.keys[..0] == ""; }
    PlusAt(x, y, 'b');
  }

  /** A key on one side only keeps its value. */
  lemma MergeOneSided()
    ensures Get(ArithMerge(Plus, Dict("abc", [1, 2, 3]), Dict("bcd", [1, 2, 7])), 'd') == 7
  {
    var x := Dict("abc", [1, 2, 3]);
    var y := Dict("bcd", [1, 2, 7]);
    assert x.keys == "abc" && |y.keys| == 3;
    assert !Has(x, 'd');
    assert Get(y, 'd') == 7 by { assert y.keys[2] == 'd' && y.keys[..2] == "bc"; }
    PlusAt(x, y, 'd');
  }

  /** The two sides of the merge test, entry by entry. */
  predicate MergeTestLeft(x: Dict<char, int>) {
    |x.keys| == 3 && |x.vals| == 3 && x.keys[0] == 'a' && x.keys[1] == 'b' && x.keys[2] == 'c' &&
    x.vals[0] == 1 && x.vals[1] == 2 && x.vals[2] == 3
  }

  predicate MergeTestRight(y: Dict<char, int>) {
    |y.keys| == 3 && |y.vals| == 3 && y.keys[0] == 'b' && y.keys[1] == 'c' && y.keys[2] == 'd' &&
    y.vals[0] == 1 && y.vals[1] == 2 && y.vals[2] == 7
  }

  /** The keys of the merge test: `distinct` of the two key vecs joined. */
  lemma MergeTestKeys(j: seq<char>)
    requires |j| == 6 && j[0] == 'a' && j[1] == 'b' && j[2] == 'c' && j[3] == 'b' && j[4] == 'c' && j[5] == 'd'
    ensures var d := Distinct(j); |d| == 4 && d[0] == 'a' && d[1] == 'b' && d[2] == 'c' && d[3] == 'd'
  {
    var d := ['a', 'b', 'c', 'd'];
    FindIsFirstOccurrence(j, 'a', 0);
    FindIsFirstOccurrence(j, 'b', 1);
    FindIsFirstOccurrence(j, 'c', 2);
    FindIsFirstOccurrence(j, 'd', 5);
    assert d[0] == j[0] && d[1] == j[1] && d[2] == j[2] && d[3] == j[5];
    assert j[3] == d[1] && j[4] == d[2];
    ListsDistinctByNeighbours(j, d);
    DistinctCharacterized(j, d);
  }

  /** The lookups the merge test needs on its left side. */
  lemma MergeTestLeftLookups(x: Dict<char, int>)
    requires MergeTestLeft(x)
    ensures Has(x, 'a') && Has(x, 'b') && Has(x, 'c') && !Has(x, 'd')
    ensures Get(x, 'a') == 1 && Get(x, 'b') == 2 && Get(x, 'c') == 3
  {
    assert x.keys[0] == 'a' && x.keys[1] == 'b' && x.keys[2] == 'c';
    assert 'b' !in x.keys[..1] && 'c' !in x.keys[..2];
    assert x.keys == [x.keys[0], x.keys[1], x.keys[2]];
  }

  /** The lookups the merge test needs on its right side. */
  lemma MergeTestRightLookups(y: Dict<char, int>)
    requires MergeTestRight(y)
    ensures !Has(y, 'a') && Has(y, 'b') && Has(y, 'c') && Has(y, 'd')
    ensures Get(y, 'b') == 1 && Get(y, 'c') == 2 && Get(y, 'd') == 7
  {
    assert y.keys[0] == 'b' && y.keys[1] == 'c' && y.keys[2] == 'd';
    assert 'c' !in y.keys[..1] && 'd' !in y.keys[..2];
    assert y.keys == [y.keys[0], y.keys[1], y.keys[2]];
  }

  /** The whole merged dict of the test, entry by entry: keys `abcd` with
      values `1 3 5 7`, the shared keys summed and the one-sided keys kept. */
  lemma MergeCase(x: Dict<char, int>, y: Dict<char, int>)
    requires MergeTestLeft(x) && MergeTestRight(y)
    ensures var r := ArithMerge(Plus, x, y);
      |r.keys| == 4 && r.keys[0] == 'a' && r.keys[1] == 'b' && r.keys[2] == 'c' && r.keys[3] == 'd' &&
      |r.vals| == 4 && r.vals[0] == 1 && r.vals[1] == 3 && r.vals[2] == 5 && r.vals[3] == 7
  {
    var r := ArithMerge(Plus, x, y);
    var j := x.keys + y.keys;
    assert j[0] == 'a' && j[1] == 'b' && j[2] == 'c' && j[3] == 'b' && j[4] == 'c' && j[5] == 'd';
    MergeTestKeys(j);
    MergeTestLeftLookups(x);
    MergeTestRightLookups(y);
    assert r.vals[0] == ArithValue(Plus, x, y, 'a');
    assert r.vals[1] == ArithValue(Plus, x, y, 'b');
    assert r.vals[2] == ArithValue(Plus, x, y, 'c');
    assert r.vals[3] == ArithValue(Plus, x, y, 'd');
  }
}

=== FILE: indexing.dfy ===
/** Index-producing functions of the library: `where`, `deltas` and
    `differ`, on integer vecs. */
module Indexing {
  import opened Values
  import opened Adverbs
  import opened Reduce

  predicate NonNegative(c: seq<int>) {
    forall i :: 0 <= i < |c| ==> c[i] >= 0
  }

  lemma ReplicateCount(n: nat, v: int)
    ensures multiset(Replicate(n, v))[v] == n
    ensures forall w :: w != v ==> multiset(Replicate(n, v))[w] == 0
  {
    if n > 0 {
      assert Replicate(n, v) == Replicate(n - 1, v) + [v];
      ReplicateCount(n - 1, v);
    } else {
      assert Replicate(n, v) == [];
    }
  }

  predicate Ascending(r: seq<int>) {
    forall i, j :: 0 <= i < j < |r| ==> r[i] <= r[j]
  }

  /** `where` on a vec of counts: every index `i` repeated `c[i]` times, in
      index order. The source asserts that no count is negative. The result
      has `sum(c)` entries, is non-decreasing, and holds index `i` exactly
      `c[i]` times. */
  function Where(c: seq<int>): (r: seq<int>)
    requires NonNegative(c)
    ensures |r| == Sum(c)
    ensures InRange(r, |c|)
    ensures Ascending(r)
    ensures forall i :: 0 <= i < |c| ==> multiset(r)[i] == c[i]
    decreases |c|
  {
    if |c| == 0 then []
    else
      var n := |c| - 1;
      var w := Where(c[..n]);
      WhereStep(c[..n], c[n], w);
      assert c[..n] + [c[n]] == c;
      w + Replicate(c[n], n)
  }

  /** The step of `where`: the indices so far, then the next index as many
      times as its count. */
  lemma WhereStep(p: seq<int>, k: int, w: seq<int>)
    requires NonNegative(p) && k >= 0
    requires |w| == Sum(p) && InRange(w, |p|) && Ascending(w)
    requires forall i :: 0 <= i < |p| ==> multiset(w)[i] == p[i]
    ensures NonNegative(p + [k])
    ensures |w + Replicate(k, |p|)| == Sum(p + [k])
    ensures InRange(w + Replicate(k, |p|), |p + [k]|)
    ensures Ascending(w + Replicate(k, |p|))
    ensures forall i :: 0 <= i < |p + [k]| ==> multiset(w + Replicate(k, |p|))[i] == (p + [k])[i]
  {
    var n := |p|;
    var rep := Replicate(k, n);
    var r := w + rep;
    assert (p + [k])[..n] == p;
    ReplicateCount(k, n);
    assert multiset(w)[n] == 0 by {
      assert n !in w;
    }
    assert multiset(r) == multiset(w) + multiset(rep);
    forall i, j | 0 <= i < j < |r|
      ensures r[i] <= r[j]
    {
      if j >= |w| {
        assert r[j] == n;
        if i < |w| {
          assert r[i] == w[i];
        }
      } else {
        assert r[i] == w[i] && r[j] == w[j];
      }
    }
  }

  function BoolToInt(b: bool): int { if b then 1 else 0 }

  /** Reference definition: the positions holding `true`, in increasing
      order. */
  function Trues(b: seq<bool>): (r: seq<int>)
    ensures InRange(r, |b|)
    ensures forall i, j :: 0 <= i < j < |r| ==> r[i] < r[j]
    ensures forall i :: 0 <= i < |b| ==> (i in r <==> b[i])
    decreases |b|
  {
    if |b| == 0 then []
    else
      var n := |b| - 1;
      Trues(b[..n]) + (if b[n] then [n] else [])
  }

  /** `where` of flags read as counts of 0 and 1 is the list of the
      positions holding `true`. */
  lemma {:induction false} WhereOfFlags(c: seq<int>, b: seq<bool>)
    requires |c| == |b|
    requires forall i :: 0 <= i < |c| ==> c[i] == BoolToInt(b[i])
    ensures NonNegative(c)
    ensures Where(c) == Trues(b)
    decreases |c|
  {
    if |c| > 0 {
      var n := |c| - 1;
      WhereOfFlags(c[..n], b[..n]);
      var tail: seq<int> := if b[n] then [n] else [];
      assert Replicate(c[n], n) == tail;
    }
  }

  /** `where` on a vec of booleans: each `true` counts once. The result
      lists exactly the positions holding `true`, in increasing order. */
  function WhereBools(b: seq<bool>): (r: seq<int>)
    ensures InRange(r, |b|)
    ensures forall i, j :: 0 <= i < j < |r| ==> r[i] < r[j]
    ensures forall i :: 0 <= i < |b| ==> (i in r <==> b[i])
  {
    var c := Each(BoolToInt, b);
    WhereOfFlags(c, b);
    Where(c)
  }

  /** `where` over booleans, one position at a time: extending the flags by
      one extends the result by that position exactly when it is `true`. */
  lemma WhereBoolsSnoc(b: seq<bool>, e: bool)
    ensures WhereBools(b + [e]) == WhereBools(b) + (if e then [|b|] else [])
  {
    WhereOfFlags(Each(BoolToInt, b), b);
    WhereOfFlags(Each(BoolToInt, b + [e]), b + [e]);
    assert (b + [e])[..|b|] == b;
  }

  /** `where` on a dict: the keys at the positions `where` of the values
      gives. */
  function WhereDict<K>(d: Dict<K, int>): (r: seq<K>)
    requires d.Valid() && NonNegative(d.vals)
    ensures |r| == Sum(d.vals)
    ensures forall i :: 0 <= i < |r| ==> r[i] in d.keys
  {
    At(d.keys, Where(d.vals))
  }

  /** `deltas`: `eachPrior` of subtraction; the first element is kept. */
  function Sub(a: int, b: int): int { a - b }

  function Deltas(x: seq<int>): (r: seq<int>)
    ensures |r| == |x|
    ensures |x| > 0 ==> r[0] == x[0]
    ensures forall i :: 1 <= i < |x| ==> r[i] == x[i] - x[i - 1]
  {
    EachPrior(Sub, x)
  }

  /** `deltas` on a dict: its keys are kept. */
  function DeltasDict<K>(d: Dict<K, int>): (r: Dict<K, int>)
    requires d.Valid()
    ensures r.Valid() && r.keys == d.keys
    ensures |d.vals| > 0 ==> r.vals[0] == d.vals[0]
    ensures forall i :: 1 <= i < |d.vals| ==> r.vals[i] == d.vals[i] - d.vals[i - 1]
  {
    Dict(d.keys, Deltas(d.vals))
  }

  /** The running sum undoes `deltas`. */
  lemma {:induction false} ScanSumOfDeltas(x: seq<int>)
    ensures Scan(Add, Deltas(x)) == x
  {
    var d := Deltas(x);
    var s := Scan(Add, d);
    forall i | 0 <= i < |x|
      ensures s[i] == x[i]
    {
      ScanSumOfDeltasAt(x, i);
    }
  }

  lemma {:induction false} ScanSumOfDeltasAt(x: seq<int>, i: nat)
    requires i < |x|
    ensures Scan(Add, Deltas(x))[i] == x[i]
    decreases i
  {
    if i > 0 {
      ScanSumOfDeltasAt(x, i - 1);
    }
  }

  /** `deltas` undoes the running sum. */
  lemma {:induction false} DeltasOfScanSum(x: seq<int>)
    ensures Deltas(Scan(Add, x)) == x
  {
    var s := Scan(Add, x);
    var d := Deltas(s);
    forall i | 0 <= i < |x|
      ensures d[i] == x[i]
    {
      if i > 0 {
        assert s[i] == Add(s[i - 1], x[i]);
      }
    }
  }

  function Differs(a: int, b: int): bool { a != b }

  /** `differ`, with the empty vec handled: `true` at the first position and
      wherever an element differs from its predecessor. */
  function Differ(x: seq<int>): (r: seq<bool>)
    ensures |r| == |x|
    ensures forall i :: 0 <= i < |x| ==> (r[i] <==> i == 0 || x[i] != x[i - 1])
  {
    if |x| == 0 then []
    else
      var t := EachPriorSeeded(Differs, x[0], x[1..]);
      assert forall i :: 1 <= i < |x| ==> t[i - 1] == Differs(x[i], x[i - 1]) by {
        forall i | 1 <= i < |x|
          ensures t[i - 1] == Differs(x[i], x[i - 1])
        {
          if i > 1 {
            assert x[1..][i - 1] == x[i] && x[1..][i - 2] == x[i - 1];
          }
        }
      }
      [true] + t
  }

  /** `differ` as the source writes it: the negated unseeded `eachPrior` of
      `match`, whose first entry is `x[0]` converted to `bool` and whose
      later entries are `x[i] == x[i-1]`; then the first entry is
      overwritten with `true`. On an empty vec that write lands out of
      bounds of an empty result (undefined behaviour), modelled as `None`. */
  function DifferAsWritten(x: seq<int>): (r: Option<seq<bool>>)
    ensures r.None? <==> |x| == 0
    ensures r.Some? ==> r.value == Differ(x)
  {
    var prior := if |x| == 0 then [] else [x[0] != 0] + EachPriorSeeded(Matches, 0, x)[1..];
    var negated := Each(Not, prior);
    if |negated| == 0 then None
    else
      var r := [true] + negated[1..];
      assert r == Differ(x) by {
        var e := Differ(x);
        forall i | 0 <= i < |x|
          ensures r[i] == e[i]
        {
          if i > 0 {
            assert r[i] == negated[i] == Not(Matches(x[i], x[i - 1]));
          }
        }
      }
      Some(r)
  }

  function Matches(a: int, b: int): bool { a == b }
  function Not(b: bool): bool { !b }

  /** The write to the first entry is out of bounds on the empty vec, where
      the corrected `differ` returns the empty vec. */
  lemma DifferAsWrittenOutOfBoundsOnEmpty()
    ensures DifferAsWritten([]).None?
    ensures Differ([]) == []
  {
  }

  /** `differ` marks the positions where `deltas` is not zero, and always
      the first. */
  lemma DifferIsNonZeroDeltas(x: seq<int>)
    ensures forall i :: 0 <= i < |x| ==> (Differ(x)[i] <==> i == 0 || Deltas(x)[i] != 0)
  {
    var e := Differ(x);
    var d := Deltas(x);
    forall i | 0 <= i < |x|
      ensures e[i] <==> i == 0 || d[i] != 0
    {
      if i > 0 {
        assert d[i] == x[i] - x[i - 1];
      }
    }
  }
}

=== FILE: matching.dfy ===
/** `match`: structural equality of two values of any shape. */
module Matching {

  /** A value of the library, with the shape the source dispatches on at
      compile time made explicit: an integer atom, a vec, or a dict given
      by its key vec and its value vec. */
  datatype Value =
    | Atom(n: int)
    | Vec(items: seq<Value>)
    | Map(keys: seq<Value>, vals: seq<Value>)

  /** Atoms match when they are equal; vecs when they have the same length
      and match element by element; dicts when their keys match and their
      values match; values of different shapes never match. */
  predicate Match(a: Value, b: Value)
    decreases a
  {
    match (a, b)
    case (Atom(x), Atom(y)) => x == y
    case (Vec(xs), Vec(ys)) => MatchAll(a, xs, ys)
    case (Map(kx, vx), Map(ky, vy)) => MatchAll(a, kx, ky) && MatchAll(a, vx, vy)
    case _ => false
  }

  /** Vecs that are parts of `whole` matched pairwise, after the length
      check. */
  predicate MatchAll(whole: Value, xs: seq<Value>, ys: seq<Value>)
    requires forall i :: 0 <= i < |xs| ==> xs[i] < whole
    decreases whole, 0
  {
    |xs| == |ys| && forall i :: 0 <= i < |xs| ==> Match(xs[i], ys[i])
  }

  /** `match` is equality of values, in both directions. */
  lemma {:induction false} MatchIsEquality(a: Value, b: Value)
    ensures Match(a, b) <==> a == b
    decreases a
  {
    match (a, b)
    case (Atom(x), Atom(y)) =>
    case (Vec(xs), Vec(ys)) =>
      MatchAllIsEquality(a, xs, ys);
    case (Map(kx, vx), Map(ky, vy)) =>
      MatchAllIsEquality(a, kx, ky);
      MatchAllIsEquality(a, vx, vy);
    case _ =>
  }

  lemma {:induction false} MatchAllIsEquality(whole: Value, xs: seq<Value>, ys: seq<Value>)
    requires forall i :: 0 <= i < |xs| ==> xs[i] < whole
    ensures MatchAll(whole, xs, ys) <==> xs == ys
    decreases whole, 0
  {
    if |xs| == |ys| {
      forall i | 0 <= i < |xs|
        ensures Match(xs[i], ys[i]) <==> xs[i] == ys[i]
      {
        MatchIsEquality(xs[i], ys[i]);
      }
      assert (forall i :: 0 <= i < |xs| ==> xs[i] == ys[i]) ==> xs == ys;
    }
  }

  /** Every value matches itself, and `match` is symmetric. */
  lemma MatchReflexiveSymmetric(a: Value, b: Value)
    ensures Match(a, a)
    ensures Match(a, b) ==> Match(b, a)
  {
    MatchIsEquality(a, a);
    MatchIsEquality(a, b);
    MatchIsEquality(b, a);
  }
}

=== FILE: reduce.dfy ===
/** The reducers of the function library on integer vecs: `sum`, `min`,
    `max`, `all` and `any`. Each dict form reduces the dict's values. */
module Reduce {
  import opened Values
  import opened Adverbs

  function Add(a: int, b: int): int { a + b }
  function And(a: bool, b: bool): bool { a && b }
  function Or(a: bool, b: bool): bool { a || b }
  function NonZero(t: int): bool { t != 0 }

  /** The binary `min` and `max`: `x<y? x:y` and `x<y? y:x`. */
  function MinOf(a: int, b: int): (r: int)
    ensures r <= a && r <= b && (r == a || r == b)
  {
    if a < b then a else b
  }

  function MaxOf(a: int, b: int): (r: int)
    ensures a <= r && b <= r && (r == a || r == b)
  {
    if a < b then b else a
  }

  /** `sum` of an integer vec: the seeded `over` of `+` starting from 0. */
  function Sum(x: seq<int>): int {
    OverSeeded(Add, 0, x)
  }

  /** The sum distributes over concatenation. */
  lemma {:induction false} SumConcat(x: seq<int>, y: seq<int>)
    ensures Sum(x + y) == Sum(x) + Sum(y)
    decreases |y|
  {
    if |y| == 0 {
      assert x + y == x;
    } else {
      var y' := y[..|y| - 1];
      assert (x + y)[..|x + y| - 1] == x + y';
      SumConcat(x, y');
    }
  }

  /** `min` of a vec (`std::min_element`): the source asserts a non-empty
      input. The result occurs in the vec and no element is smaller. */
  function Min(x: seq<int>): (r: int)
    requires |x| > 0
    ensures r in x
    ensures forall i :: 0 <= i < |x| ==> r <= x[i]
    decreases |x|
  {
    if |x| == 1 then x[0]
    else
      var m := Min(x[..|x| - 1]);
      if x[|x| - 1] < m then x[|x| - 1] else m
  }

  /** `max` of a vec (`std::max_element`), likewise. */
  function Max(x: seq<int>): (r: int)
    requires |x| > 0
    ensures r in x
    ensures forall i :: 0 <= i < |x| ==> x[i] <= r
    decreases |x|
  {
    if |x| == 1 then x[0]
    else
      var m := Max(x[..|x| - 1]);
      if m < x[|x| - 1] then x[|x| - 1] else m
  }

  /** `min` of a vec is `min/over` of the vec with the binary `min`. */
  lemma {:induction false} MinIsOverMin(x: seq<int>)
    requires |x| > 0
    ensures Min(x) == Over(MinOf, x)
    decreases |x|
  {
    if |x| > 1 {
      OverSnoc(MinOf, x);
      MinIsOverMin(x[..|x| - 1]);
    }
  }

  /** `max` of a vec is `max/over` of the vec with the binary `max`. */
  lemma {:induction false} MaxIsOverMax(x: seq<int>)
    requires |x| > 0
    ensures Max(x) == Over(MaxOf, x)
    decreases |x|
  {
    if |x| > 1 {
      OverSnoc(MaxOf, x);
      MaxIsOverMax(x[..|x| - 1]);
    }
  }

  lemma {:induction false} FoldAnd(b: seq<bool>)
    ensures OverSeeded(And, true, b) <==> forall i :: 0 <= i < |b| ==> b[i]
    decreases |b|
  {
    if |b| > 0 {
      FoldAnd(b[..|b| - 1]);
      assert forall i :: 0 <= i < |b| - 1 ==> b[..|b| - 1][i] == b[i];
    }
  }

  lemma {:induction false} FoldOr(b: seq<bool>)
    ensures OverSeeded(Or, false, b) <==> exists i :: 0 <= i < |b| && b[i]
    decreases |b|
  {
    if |b| > 0 {
      FoldOr(b[..|b| - 1]);
      assert forall i :: 0 <= i < |b| - 1 ==> b[..|b| - 1][i] == b[i];
    }
  }

  /** `all` of a vec: the seeded `over` of logical and, from `true`, over
      `t != 0` of every element; so `true` exactly when no element is 0. */
  function All(x: seq<int>): (r: bool)
    ensures r <==> forall i :: 0 <= i < |x| ==> x[i] != 0
  {
    var b := Each(NonZero, x);
    FoldAnd(b);
    OverSeeded(And, true, b)
  }

  /** `any` of a vec: the seeded `over` of logical or, from `false`; so
      `true` exactly when some element is not 0. */
  function Any(x: seq<int>): (r: bool)
    ensures r <==> exists i :: 0 <= i < |x| && x[i] != 0
  {
    var b := Each(NonZero, x);
    FoldOr(b);
    OverSeeded(Or, false, b)
  }
}

=== FILE: sets.dfy ===
/** Set-like functions and lookups: `distinct`, `union`, `in`, `except`,
    `inter`, `find` and `group`. Equality of elements is `==`, and order is
    always the order of first occurrence in the input. */
module Sets {
  import opened Values
  import opened Adverbs
  import opened Indexing

  /** `distinct`: walk the vec and keep each element not kept before. The
      result has no duplicates, holds exactly the elements of `x`, and lists
      them in the order of their first occurrence in `x`. */
  function Distinct<T(==)>(x: seq<T>): (r: seq<T>)
    ensures NoDup(r)
    ensures forall i :: 0 <= i < |r| ==> r[i] in x
    ensures forall i :: 0 <= i < |x| ==> x[i] in r
    decreases |x|
  {
    if |x| == 0 then []
    else
      var n := |x| - 1;
      var d := Distinct(x[..n]);
      if x[n] in d then d else d + [x[n]]
  }

  /** The elements of `d` appear in `d` in the order of their first
      occurrence in `x`. */
  predicate FirstOccurrenceOrder<T(==)>(x: seq<T>, d: seq<T>) {
    forall i, j :: 0 <= i < j < |d| ==> Find(x, d[i]) < Find(x, d[j])
  }

  /** `distinct` lists the elements in the order of their first occurrence
      in `x`. */
  lemma {:induction false} DistinctInFirstOccurrenceOrder<T>(x: seq<T>)
    ensures FirstOccurrenceOrder(x, Distinct(x))
    decreases |x|
  {
    if |x| > 0 {
      var n := |x| - 1;
      var p := x[..n];
      DistinctInFirstOccurrenceOrder(p);
      assert p + [x[n]] == x;
      FirstOccurrenceOrderSnoc(p, Distinct(p), x[n]);
    }
  }

  lemma FirstOccurrenceOrderSnoc<T>(p: seq<T>, d: seq<T>, e: T)
    requires FirstOccurrenceOrder(p, d)
    requires forall i :: 0 <= i < |d| ==> d[i] in p
    requires e !in d ==> e !in p
    ensures FirstOccurrenceOrder(p + [e], if e in d then d else d + [e])
  {
    var x := p + [e];
    forall i | 0 <= i < |d|
      ensures Find(x, d[i]) == Find(p, d[i]) < |p|
    {
      FindAppend(p, [e], d[i]);
    }
    if e !in d {
      assert x[|p|] == e;
      assert Find(x, e) == |p|;
    }
  }

  /** One more element extends `distinct` by that element exactly when it
      is new. */
  lemma DistinctSnoc<T>(x: seq<T>, e: T)
    ensures Distinct(x + [e]) == if e in Distinct(x) then Distinct(x) else Distinct(x) + [e]
    ensures e in Distinct(x) <==> e in x
  {
    assert (x + [e])[..|x|] == x;
    if e in x {
      var j :| 0 <= j < |x| && x[j] == e;
    }
  }

  /** A vec without duplicates is its own `distinct`. */
  lemma {:induction false} DistinctOfNoDup<T>(x: seq<T>)
    requires NoDup(x)
    ensures Distinct(x) == x
    decreases |x|
  {
    if |x| > 0 {
      var n := |x| - 1;
      DistinctOfNoDup(x[..n]);
      assert x[n] !in x[..n];
      assert x[..n] + [x[n]] == x;
    }
  }

  /** `distinct` is idempotent. */
  lemma DistinctIdempotent<T>(x: seq<T>)
    ensures Distinct(Distinct(x)) == Distinct(x)
  {
    DistinctOfNoDup(Distinct(x));
  }

  /** What `distinct` promises of its result `d`: each element of `x` once,
      in the order of first occurrence. */
  predicate ListsDistinct<T(==)>(x: seq<T>, d: seq<T>) {
    NoDup(d) &&
    (forall i :: 0 <= i < |d| ==> d[i] in x) &&
    (forall i :: 0 <= i < |x| ==> x[i] in d) &&
    FirstOccurrenceOrder(x, d)
  }

  /** Two such listings that agree before `a` agree at `a`: each one's
      entry there is the element first seen earliest among those the other
      has not listed yet. */
  lemma ListsDistinctAgreeAt<T>(x: seq<T>, d: seq<T>, e: seq<T>, a: int)
    requires ListsDistinct(x, d) && ListsDistinct(x, e)
    requires 0 <= a < |d| && a < |e|
    requires forall a' :: 0 <= a' < a ==> d[a'] == e[a']
    ensures d[a] == e[a]
  {
    assert d[a] in x && e[a] in x;
    var i :| 0 <= i < |x| && x[i] == d[a];
    var j :| 0 <= j < |x| && x[j] == e[a];
    assert x[i] in e && x[j] in d;
    var c :| 0 <= c < |e| && e[c] == d[a];
    var b :| 0 <= b < |d| && d[b] == e[a];
    if c != a {
      assert false;
    }
  }

  lemma {:induction false} ListsDistinctAgreeBelow<T>(x: seq<T>, d: seq<T>, e: seq<T>, n: nat)
    requires ListsDistinct(x, d) && ListsDistinct(x, e)
    requires n <= |d| && n <= |e|
    ensures forall a :: 0 <= a < n ==> d[a] == e[a]
    decreases n
  {
    if n > 0 {
      ListsDistinctAgreeBelow(x, d, e, n - 1);
      ListsDistinctAgreeAt(x, d, e, n - 1);
    }
  }

  lemma ListedIn<T>(x: seq<T>, d: seq<T>, k: int)
    requires ListsDistinct(x, d)
    ensures 0 <= k < |d| ==> d[k] in x
  {
  }

  /** The listing is unique: two listings of the distinct elements of `x`
      in first-occurrence order are equal. */
  lemma ListsDistinctUnique<T>(x: seq<T>, d: seq<T>, e: seq<T>)
    requires ListsDistinct(x, d) && ListsDistinct(x, e)
    ensures d == e
  {
    var n := if |d| <= |e| then |d| else |e|;
    ListsDistinctAgreeBelow(x, d, e, n);
    ListedIn(x, e, n);
    ListedIn(x, d, n);
    if |d| != |e| {
      assert false;
    }
  }

  lemma {:induction false} FindChain<T>(x: seq<T>, d: seq<T>, a: int, b: int)
    requires 0 <= a < b < |d|
    requires forall c :: 0 <= c < |d| - 1 ==> Find(x, d[c]) < Find(x, d[c + 1])
    ensures Find(x, d[a]) < Find(x, d[b])
    decreases b - a
  {
    if a + 1 < b {
      FindChain(x, d, a + 1, b);
    }
  }

  /** First-occurrence order needs checking only between neighbours, and
      it rules out duplicates by itself. */
  lemma ListsDistinctByNeighbours<T>(x: seq<T>, d: seq<T>)
    requires forall i :: 0 <= i < |d| ==> d[i] in x
    requires forall i :: 0 <= i < |x| ==> x[i] in d
    requires forall c :: 0 <= c < |d| - 1 ==> Find(x, d[c]) < Find(x, d[c + 1])
    ensures ListsDistinct(x, d)
  {
    forall a, b | 0 <= a < b < |d|
      ensures Find(x, d[a]) < Find(x, d[b]) && d[a] != d[b]
    {
      FindChain(x, d, a, b);
    }
  }

  /** So `distinct` is characterized by its promise: `d` lists the
      distinct elements of `x` in first-occurrence order exactly when it
      is `distinct(x)`. */
  lemma DistinctCharacterized<T>(x: seq<T>, d: seq<T>)
    ensures ListsDistinct(x, d) <==> d == Distinct(x)
  {
    DistinctInFirstOccurrenceOrder(x);
    if ListsDistinct(x, d) {
      ListsDistinctUnique(x, d, Distinct(x));
    }
  }

  /** Appending more elements only appends to `distinct`. */
  lemma {:induction false} DistinctPrefix<T>(x: seq<T>, y: seq<T>)
    ensures |Distinct(x)| <= |Distinct(x + y)|
    ensures Distinct(x + y)[..|Distinct(x)|] == Distinct(x)
    decreases |y|
  {
    if |y| == 0 {
      assert x + y == x;
    } else {
      var y' := y[..|y| - 1];
      assert (x + y)[..|x + y| - 1] == x + y';
      DistinctPrefix(x, y');
    }
  }

  /** `union`: `distinct` of the join of the two vecs. */
  function Union<T(==)>(x: seq<T>, y: seq<T>): (r: seq<T>)
    ensures NoDup(r)
    ensures forall i :: 0 <= i < |r| ==> r[i] in x || r[i] in y
    ensures forall i :: 0 <= i < |x| ==> x[i] in r
    ensures forall i :: 0 <= i < |y| ==> y[i] in r
    ensures |Distinct(x)| <= |r| && r[..|Distinct(x)|] == Distinct(x)
    ensures ListsDistinct(x + y, r)
  {
    var j := x + y;
    assert forall i :: 0 <= i < |y| ==> y[i] == j[|x| + i];
    DistinctPrefix(x, y);
    DistinctCharacterized(j, Distinct(j));
    Distinct(j)
  }

  /** `in` with an atom on the left: `std::find` succeeds. */
  function InAtom<T(==)>(v: T, y: seq<T>): (r: bool)
    ensures r <==> exists i :: 0 <= i < |y| && y[i] == v
  {
    v in y
  }

  /** `in` with a vec on the left: `eachLeft` of the atom form. */
  function InVec<T(==)>(x: seq<T>, y: seq<T>): (r: seq<bool>)
    ensures |r| == |x|
    ensures forall i :: 0 <= i < |x| ==> (r[i] <==> x[i] in y)
  {
    EachLeft(InAtom, x, y)
  }

  /** `in` against a dict searches the dict's values; `in` of a dict
      against a dict keeps the left dict's keys. */
  function InDict<K, T(==), L>(x: Dict<K, T>, y: Dict<L, T>): (r: Dict<K, bool>)
    requires x.Valid() && y.Valid()
    ensures r.Valid() && r.keys == x.keys
    ensures forall i :: 0 <= i < |x.keys| ==> (r.vals[i] <==> x.vals[i] in y.vals)
  {
    Dict(x.keys, InVec(x.vals, y.vals))
  }

  /** The elements of `x` whose flag is set, in order: `x` at `where` of
      the flags. */
  function Select<T>(x: seq<T>, b: seq<bool>): (r: seq<T>)
    requires |b| == |x|
    ensures forall i :: 0 <= i < |r| ==> r[i] in x
    ensures forall i :: 0 <= i < |x| && b[i] ==> x[i] in r
  {
    SelectCovers(x, b);
    At(x, WhereBools(b))
  }

  lemma SelectCovers<T>(x: seq<T>, b: seq<bool>)
    requires |b| == |x|
    ensures forall i :: 0 <= i < |x| && b[i] ==> x[i] in At(x, WhereBools(b))
  {
    var w := WhereBools(b);
    var r := At(x, w);
    forall i | 0 <= i < |x| && b[i]
      ensures x[i] in r
    {
      var k :| 0 <= k < |w| && w[k] == i;
      assert r[k] == x[i];
    }
  }

  lemma AtOfPrefix<T>(x: seq<T>, e: T, w: seq<int>)
    requires InRange(w, |x|)
    ensures InRange(w, |x + [e]|)
    ensures At(x + [e], w) == At(x, w)
  {
  }

  /** One more flagged element extends the selection by that element. */
  lemma SelectSnoc<T>(x: seq<T>, b: seq<bool>, e: T, f: bool)
    requires |b| == |x|
    ensures Select(x + [e], b + [f]) == Select(x, b) + (if f then [e] else [])
  {
    var w := WhereBools(b);
    var tail: seq<int> := if f then [|x|] else [];
    var xe := x + [e];
    WhereBoolsSnoc(b, f);
    assert WhereBools(b + [f]) == w + tail;
    AtOfPrefix(x, e, w);
    AtConcat(xe, w, tail);
    assert At(xe, tail) == if f then [e] else [];
  }

  /** Reference definition: the elements of `x` whose membership in `y`
      equals `keep`, in order. */
  function Keep<T(==)>(x: seq<T>, y: seq<T>, keep: bool): (r: seq<T>)
    ensures forall i :: 0 <= i < |r| ==> r[i] in x && ((r[i] in y) == keep)
    ensures forall i :: 0 <= i < |x| && ((x[i] in y) == keep) ==> x[i] in r
    decreases |x|
  {
    if |x| == 0 then []
    else
      var n := |x| - 1;
      Keep(x[..n], y, keep) + (if (x[n] in y) == keep then [x[n]] else [])
  }

  function Flags<T(==)>(x: seq<T>, y: seq<T>, keep: bool): (b: seq<bool>)
    ensures |b| == |x|
    ensures forall i :: 0 <= i < |x| ==> (b[i] <==> ((x[i] in y) == keep))
  {
    seq(|x|, i requires 0 <= i < |x| => (x[i] in y) == keep)
  }

  lemma FlagsSnoc<T>(p: seq<T>, e: T, y: seq<T>, keep: bool)
    ensures Flags(p + [e], y, keep) == Flags(p, y, keep) + [(e in y) == keep]
  {
    var a := Flags(p + [e], y, keep);
    var b := Flags(p, y, keep) + [(e in y) == keep];
    assert forall i :: 0 <= i < |p| ==> (p + [e])[i] == p[i];
    assert forall i :: 0 <= i < |a| ==> a[i] == b[i];
  }

  lemma {:induction false} SelectFlagsIsKeep<T>(x: seq<T>, y: seq<T>, keep: bool)
    ensures Select(x, Flags(x, y, keep)) == Keep(x, y, keep)
    decreases |x|
  {
    if |x| > 0 {
      var n := |x| - 1;
      var p := x[..n];
      var e := x[n];
      var f := (e in y) == keep;
      assert x == p + [e];
      SelectFlagsIsKeep(p, y, keep);
      FlagsSnoc(p, e, y, keep);
      SelectSnoc(p, Flags(p, y, keep), e, f);
      assert Keep(x, y, keep) == Keep(p, y, keep) + (if f then [e] else []);
    }
  }

  /** `except`: `x` at `where` of not-`in`. It is the order-preserving
      filter of the elements of `x` that do not occur in `y`, repeats
      kept. */
  function Except<T(==)>(x: seq<T>, y: seq<T>): (r: seq<T>)
    ensures r == Keep(x, y, false)
    ensures forall i :: 0 <= i < |r| ==> r[i] in x && r[i] !in y
    ensures forall i :: 0 <= i < |x| && x[i] !in y ==> x[i] in r
  {
    var b := Each(Not, InVec(x, y));
    NotInFlags(x, y);
    SelectFlagsIsKeep(x, y, false);
    Select(x, b)
  }

  lemma NotInFlags<T>(x: seq<T>, y: seq<T>)
    ensures Each(Not, InVec(x, y)) == Flags(x, y, false)
  {
  }

  /** `inter`: `x` at `where` of `in`. It is the order-preserving filter of
      the elements of `x` that occur in `y`, repeats kept. */
  function Inter<T(==)>(x: seq<T>, y: seq<T>): (r: seq<T>)
    ensures r == Keep(x, y, true)
    ensures forall i :: 0 <= i < |r| ==> r[i] in x && r[i] in y
    ensures forall i :: 0 <= i < |x| && x[i] in y ==> x[i] in r
  {
    var b := InVec(x, y);
    assert b == Flags(x, y, true);
    SelectFlagsIsKeep(x, y, true);
    Select(x, b)
  }

  /** Every element of `x` goes to exactly one of `inter` and `except`. */
  lemma {:induction false} InterExceptSplit<T>(x: seq<T>, y: seq<T>)
    ensures |Inter(x, y)| + |Except(x, y)| == |x|
  {
    KeepSplit(x, y);
  }

  /** Keeping from a vec with one more element keeps that element after
      the rest, or drops it. */
  lemma KeepSnoc<T>(x: seq<T>, y: seq<T>, e: T, keep: bool)
    ensures Keep(x + [e], y, keep) == Keep(x, y, keep) + (if (e in y) == keep then [e] else [])
  {
    assert (x + [e])[..|x|] == x;
  }

  /** An element is kept exactly when it is in `x` and its membership in
      `y` is the one asked for. */
  lemma InKeep<T>(x: seq<T>, y: seq<T>, e: T, keep: bool)
    ensures e in Keep(x, y, keep) <==> e in x && (e in y) == keep
  {
    if e in x && (e in y) == keep {
      var i :| 0 <= i < |x| && x[i] == e;
    }
    if e in Keep(x, y, keep) {
      var r := Keep(x, y, keep);
      var i :| 0 <= i < |r| && r[i] == e;
    }
  }

  lemma {:induction false} KeepSplit<T>(x: seq<T>, y: seq<T>)
    ensures |Keep(x, y, true)| + |Keep(x, y, false)| == |x|
    decreases |x|
  {
    if |x| > 0 {
      KeepSplit(x[..|x| - 1], y);
    }
  }

  /** `find` of a vec of values in a vec: `eachRight` of the atom form. */
  function FindEach<T(==)>(x: seq<T>, ys: seq<T>): (r: seq<int>)
    ensures |r| == |ys|
    ensures forall i :: 0 <= i < |ys| ==> 0 <= r[i] <= |x|
    ensures forall i :: 0 <= i < |ys| ==> (r[i] == |x| <==> ys[i] !in x)
    ensures forall i :: 0 <= i < |ys| && r[i] < |x| ==> x[r[i]] == ys[i]
    ensures forall i, j :: 0 <= i < |ys| && 0 <= j < r[i] ==> x[j] != ys[i]
  {
    var r := EachRight(FindIndex, x, ys);
    assert forall i :: 0 <= i < |ys| ==> r[i] == Find(x, ys[i]);
    r
  }

  /** `find` of a dict's values in a vec: the dict's keys, each with the
      position in `x` of the first occurrence of its value, or `|x|`. */
  function FindInDict<K, T(==)>(x: seq<T>, d: Dict<K, T>): (r: Dict<K, int>)
    requires d.Valid()
    ensures r.Valid() && r.keys == d.keys
    ensures forall i :: 0 <= i < |d.vals| ==> 0 <= r.vals[i] <= |x|
    ensures forall i :: 0 <= i < |d.vals| ==> (r.vals[i] == |x| <==> d.vals[i] !in x)
    ensures forall i :: 0 <= i < |d.vals| && r.vals[i] < |x| ==> x[r.vals[i]] == d.vals[i]
    ensures forall i, j :: 0 <= i < |d.vals| && 0 <= j < r.vals[i] ==> x[j] != d.vals[i]
  {
    Dict(d.keys, FindEach(x, d.vals))
  }

  function FindIndex<T(==)>(x: seq<T>, v: T): int { Find(x, v) }

  /** Looking up what `find` returned gives back each value present. */
  lemma AtFindEach<T>(x: seq<T>, ys: seq<T>)
    requires forall i :: 0 <= i < |ys| ==> ys[i] in x
    ensures InRange(FindEach(x, ys), |x|)
    ensures At(x, FindEach(x, ys)) == ys
  {
    var r := FindEach(x, ys);
    assert InRange(r, |x|) by {
      forall i | 0 <= i < |ys| ensures r[i] < |x| {
        assert ys[i] in x;
      }
    }
    var a := At(x, r);
    forall i | 0 <= i < |ys|
      ensures a[i] == ys[i]
    {
      assert a[i] == x[r[i]];
    }
  }

  /** `find` of a value in a dict: the key of the first entry whose value
      equals `y`; for a value not found, the key type's default `zero`. */
  function FindKey<K, V(==)>(d: Dict<K, V>, y: V, zero: K): (r: K)
    requires d.Valid()
    ensures y !in d.vals ==> r == zero
    ensures y in d.vals ==> exists i :: 0 <= i < |d.keys| && d.keys[i] == r && d.vals[i] == y && y !in d.vals[..i]
  {
    var i := Find(d.vals, y);
    if i < |d.keys| then
      assert d.vals[i] == y && y !in d.vals[..i];
      d.keys[i]
    else zero
  }

  /** With neither repeated keys nor repeated values, `find` inverts the
      dict lookup. */
  lemma FindKeyInvertsGet<K, V>(d: Dict<K, V>, k: K, zero: K)
    requires d.Valid() && NoDup(d.keys) && NoDup(d.vals) && Has(d, k)
    ensures FindKey(d, Get(d, k), zero) == k
  {
    var i := Find(d.keys, k);
    assert d.keys[i] == k && k !in d.keys[..i];
    var v := Get(d, k);
    assert d.vals[i] == v;
    assert Find(d.vals, v) == i;
  }

  /** Reference definition: the positions at which `x` holds `v`, in
      increasing order. */
  function Positions<T(==)>(x: seq<T>, v: T): (r: seq<int>)
    ensures InRange(r, |x|)
    ensures forall i, j :: 0 <= i < j < |r| ==> r[i] < r[j]
    ensures forall i :: 0 <= i < |x| ==> (i in r <==> x[i] == v)
    decreases |x|
  {
    if |x| == 0 then []
    else
      var n := |x| - 1;
      Positions(x[..n], v) + (if x[n] == v then [n] else [])
  }

  /** The loop of `group` after its first `n` steps: index `i` pushed onto
      the list at the position of `x[i]` among the keys `k`. */
  function Buckets<T(==)>(k: seq<T>, x: seq<T>, n: nat): (b: seq<seq<int>>)
    requires n <= |x|
    requires forall i :: 0 <= i < |x| ==> x[i] in k
    ensures |b| == |k|
    decreases n
  {
    if n == 0 then Replicate(|k|, [])
    else
      var b := Buckets(k, x, n - 1);
      var j := Find(k, x[n - 1]);
      b[j := b[j] + [n - 1]]
  }

  /** After `n` steps, the list of each key holds the positions of that key
      among the first `n` elements. */
  lemma {:induction false} BucketsArePositions<T>(k: seq<T>, x: seq<T>, n: nat)
    requires n <= |x|
    requires forall i :: 0 <= i < |x| ==> x[i] in k
    requires NoDup(k)
    ensures forall j :: 0 <= j < |k| ==> Buckets(k, x, n)[j] == Positions(x[..n], k[j])
    decreases n
  {
    if n > 0 {
      BucketsArePositions(k, x, n - 1);
      assert x[..n][..n - 1] == x[..n - 1];
      var m := Find(k, x[n - 1]);
      forall j | 0 <= j < |k|
        ensures Buckets(k, x, n)[j] == Positions(x[..n], k[j])
      {
        if j == m {
          assert k[j] == x[n - 1];
        } else {
          assert k[j] != x[n - 1];
        }
      }
    }
  }

  /** `group`: the keys are `distinct(x)`, and the list of key `k` holds the
      positions at which `x` holds `k`, in increasing order. */
  function Group<T(==)>(x: seq<T>): (r: Dict<T, seq<int>>)
    ensures r.Valid()
    ensures r.keys == Distinct(x)
    ensures forall j :: 0 <= j < |r.keys| ==> r.vals[j] == Positions(x, r.keys[j])
  {
    var k := Distinct(x);
    BucketsArePositions(k, x, |x|);
    assert x[..|x|] == x;
    Dict(k, Buckets(k, x, |x|))
  }

  /** The lists of `group` partition the positions of `x`: each position
      lies in the list of its own element and in no other. */
  lemma GroupPartition<T>(x: seq<T>)
    ensures forall i :: 0 <= i < |x| ==> i in Get(Group(x), x[i])
    ensures forall i, j :: 0 <= i < |x| && 0 <= j < |Group(x).keys| && i in Group(x).vals[j] ==> Group(x).keys[j] == x[i]
  {
    var g := Group(x);
    forall i | 0 <= i < |x|
      ensures i in Get(g, x[i])
    {
      var j := Find(g.keys, x[i]);
      assert g.keys[j] == x[i] && x[i] !in g.keys[..j];
    }
  }

  /** `group` of a dict: the values are grouped, and each list of positions
      becomes the list of the keys at those positions. */
  function GroupDict<K, V(==)>(d: Dict<K, V>): (r: Dict<V, seq<K>>)
    requires d.Valid()
    ensures r.Valid()
    ensures r.keys == Distinct(d.vals)
    ensures forall j :: 0 <= j < |r.keys| ==> r.vals[j] == At(d.keys, Positions(d.vals, r.keys[j]))
  {
    var g := Group(d.vals);
    Dict(g.keys, seq(|g.vals|, j requires 0 <= j < |g.vals| => At(d.keys, g.vals[j])))
  }
}

=== FILE: shape.dfy ===
/** The shaping functions of the library: `take` (including the reshape of
    a vec into rows), `drop`, `sublist`, `rotate`, `reverse`, `join`, `raze`
    and `cut`. Every one of them is index arithmetic over a vec. */
module Shape {
  import opened Values
  import opened Adverbs
  import opened Reduce
  import opened Sets

  /* ---------------------------------------------------------------------
     Euclidean remainders. `%` on `int` is Euclidean here; the source only
     takes remainders of non-negative numbers, where the two agree.
     --------------------------------------------------------------------- */

  /** A remainder is determined by any decomposition `a == k * L + r` with
      `0 <= r < L`. */
  lemma ModUnique(a: int, k: int, r: int, L: int)
    requires L > 0 && 0 <= r < L && a == k * L + r
    ensures a % L == r && a / L == k
  {
    var d := k - a / L;
    assert d * L == a % L - r;
    assert d >= 1 ==> d * L >= L;
    assert d <= -1 ==> d * L <= -L;
  }

  /** Adding a multiple of the modulus does not change the remainder. */
  lemma ModAddMultiple(a: int, q: int, L: int)
    requires L > 0
    ensures (a + q * L) % L == a % L
  {
    ModUnique(a + q * L, a / L + q, a % L, L);
  }

  /** The remainder of a sum depends on the remainder of each summand. */
  lemma ModOfSum(a: int, b: int, L: int)
    requires L > 0
    ensures (a + b) % L == (a + b % L) % L
  {
    ModAddMultiple(a + b % L, b / L, L);
  }

  /* ---------------------------------------------------------------------
     take, drop, sublist
     --------------------------------------------------------------------- */

  /** Within a suffix of length `m <= L`, the cyclic index from the back is
      the plain one. */
  lemma SuffixIndex(m: nat, L: nat, j: nat)
    requires 0 < m <= L && j < m
    ensures L - m + j == (L - m % L + j) % L
  {
    if m < L {
      ModUnique(m, 0, m, L);
      ModUnique(L - m + j, 0, L - m + j, L);
    } else {
      ModUnique(m, 1, 0, L);
      ModUnique(L + j, 1, j, L);
    }
  }

  /** `take` of an atom: the atom `|n|` times. */
  function TakeAtom<T>(n: int, a: T): (r: seq<T>)
    ensures |r| == Abs(n)
    ensures forall j :: 0 <= j < |r| ==> r[j] == a
  {
    Replicate(Abs(n), a)
  }

  /** Position `j` of the last `m` elements of a vec of length `L`,
      counted cyclically backwards from the end. */
  function BackIndex(m: nat, L: nat, j: nat): (i: nat)
    requires L > 0
    ensures i < L
    ensures m <= L && j < m ==> i == L - m + j
  {
    if m <= L && j < m then
      SuffixIndex(m, L, j);
      (L - m % L + j) % L
    else
      (L - m % L + j) % L
  }

  /** The last `m` elements of a vec; when `m` exceeds the length it cycles
      backwards from the last element. More than the vec holds is a
      remainder by zero on the empty vec, so that needs a non-empty vec. */
  function FromBack<T>(m: nat, x: seq<T>): (r: seq<T>)
    requires m <= |x| || |x| > 0
    ensures |r| == m
    ensures m <= |x| ==> r == x[|x| - m..]
    ensures forall j :: 0 <= j < m ==> r[j] == x[BackIndex(m, |x|, j)]
  {
    if m <= |x| then x[|x| - m..]
    else seq(m, j requires 0 <= j < m => x[BackIndex(m, |x|, j)])
  }

  /** `take` of a vec. A non-negative count takes a prefix, cycling from
      the front when it exceeds the length; a negative count takes from the
      back. Taking more than the empty vec holds is a remainder by zero. */
  function Take<T>(n: int, x: seq<T>): (r: seq<T>)
    requires -|x| <= n <= |x| || |x| > 0
    ensures |r| == Abs(n)
    ensures 0 <= n <= |x| ==> r == x[..n]
    ensures n < 0 && -n <= |x| ==> r == x[|x| + n..]
    ensures 0 <= n ==> forall j :: 0 <= j < |r| ==> r[j] == x[j % |x|]
    ensures n < 0 ==> forall j :: 0 <= j < |r| ==> r[j] == x[BackIndex(-n, |x|, j)]
  {
    if n < 0 then FromBack(-n, x)
    else if n <= |x| then
      var r := x[..n];
      forall j | 0 <= j < n
        ensures r[j] == x[j % |x|]
      {
        ModUnique(j, 0, j, |x|);
      }
      r
    else
      seq(n, j requires 0 <= j < n => x[j % |x|])
  }

  /** A negative `take` ends with the last element of the vec, whatever the
      count. */
  lemma TakeFromBackEndsWithLast<T>(n: int, x: seq<T>)
    requires n < 0 && |x| > 0
    ensures Take(n, x)[-n - 1] == x[|x| - 1]
  {
    var m := -n;
    var L := |x|;
    assert m == (m / L) * L + m % L;
    ModUnique(L - m % L + (m - 1), m / L, L - 1, L);
  }

  /** `drop` of a vec: nothing when the count's magnitude reaches the
      length; otherwise a non-negative count drops from the front and a
      negative one from the back. */
  function Drop<T>(n: int, x: seq<T>): (r: seq<T>)
    ensures |r| == if |x| <= Abs(n) then 0 else |x| - Abs(n)
    ensures 0 <= n ==> forall j :: 0 <= j < |r| ==> r[j] == x[n + j]
    ensures n < 0 ==> forall j :: 0 <= j < |r| ==> r[j] == x[j]
  {
    if |x| <= Abs(n) then []
    else if 0 <= n then x[n..]
    else x[..|x| + n]
  }

  /** `drop` on a dict drops entries: each remaining key keeps its value. */
  function DropDict<K, V>(n: int, d: Dict<K, V>): (r: Dict<K, V>)
    requires d.Valid()
    ensures r.Valid()
    ensures |r.keys| == if |d.keys| <= Abs(n) then 0 else |d.keys| - Abs(n)
    ensures 0 <= n ==> forall j :: 0 <= j < |r.keys| ==> r.keys[j] == d.keys[n + j] && r.vals[j] == d.vals[n + j]
    ensures n < 0 ==> forall j :: 0 <= j < |r.keys| ==> r.keys[j] == d.keys[j] && r.vals[j] == d.vals[j]
  {
    Dict(Drop(n, d.keys), Drop(n, d.vals))
  }

  /** A `take` and the `drop` of the same count split a vec in two: the
      front part first for a non-negative count, the back part last for a
      negative one. */
  lemma TakeDropSplit<T>(n: int, x: seq<T>)
    requires -|x| <= n <= |x|
    ensures 0 <= n ==> Take(n, x) + Drop(n, x) == x
    ensures n < 0 ==> Drop(n, x) + Take(n, x) == x
  {
    if 0 <= n {
      if n == |x| {
        assert Drop(n, x) == [];
      } else {
        assert Drop(n, x) == x[n..];
      }
    } else {
      if -n == |x| {
        assert Drop(n, x) == [];
      } else {
        assert Drop(n, x) == x[..|x| + n];
      }
    }
  }

  /** `signum`: `(0<x)-(x<0)`, the sign of `n` as -1, 0 or 1. */
  function Signum(n: int): (r: int)
    ensures -1 <= r <= 1
    ensures (r == 1 <==> n > 0) && (r == -1 <==> n < 0)
  {
    if 0 < n then 1 else if n < 0 then -1 else 0
  }

  /** `sublist` with a count: `take` with the count's magnitude capped at
      the length, so it never cycles; defined on every vec. */
  function Sublist<T>(n: int, x: seq<T>): (r: seq<T>)
    ensures 0 <= n ==> r == x[..MinOf(n, |x|)]
    ensures n < 0 ==> r == x[|x| - MinOf(-n, |x|)..]
  {
    var m := MinOf(Abs(n), |x|);
    assert Signum(n) * m == if 0 < n then m else if n < 0 then -m else 0;
    Take(Signum(n) * m, x)
  }

  /** Where the count is within the length, `sublist` is `take`. */
  lemma SublistIsTakeInRange<T>(n: int, x: seq<T>)
    requires -|x| <= n <= |x|
    ensures Sublist(n, x) == Take(n, x)
  {
  }

  /** `sublist` with a pair `(b, n)`, both asserted non-negative: `drop b`,
      then `take n` when more than `n` remain. The result is the slice
      starting at `b` of at most `n` elements. */
  function SublistRange<T>(bn: seq<int>, x: seq<T>): (r: seq<T>)
    requires |bn| == 2 && 0 <= bn[0] && 0 <= bn[1]
    ensures r == x[MinOf(bn[0], |x|)..MinOf(bn[0] + bn[1], |x|)]
  {
    var r := Drop(bn[0], x);
    if |r| <= bn[1] then r else Take(bn[1], r)
  }

  /** `sublist` on a dict applies to the keys and the values alike. */
  function SublistDict<K, V>(n: int, d: Dict<K, V>): (r: Dict<K, V>)
    requires d.Valid()
    ensures r.Valid()
    ensures 0 <= n ==> r.keys == d.keys[..MinOf(n, |d.keys|)] && r.vals == d.vals[..MinOf(n, |d.keys|)]
    ensures n < 0 ==> r.keys == d.keys[|d.keys| - MinOf(-n, |d.keys|)..] && r.vals == d.vals[|d.keys| - MinOf(-n, |d.keys|)..]
  {
    Dict(Sublist(n, d.keys), Sublist(n, d.vals))
  }

  function SublistRangeDict<K, V>(bn: seq<int>, d: Dict<K, V>): (r: Dict<K, V>)
    requires d.Valid()
    requires |bn| == 2 && 0 <= bn[0] && 0 <= bn[1]
    ensures r.Valid()
    ensures var lo := MinOf(bn[0], |d.keys|); var hi := MinOf(bn[0] + bn[1], |d.keys|);
      r.keys == d.keys[lo..hi] && r.vals == d.vals[lo..hi]
  {
    Dict(SublistRange(bn, d.keys), SublistRange(bn, d.vals))
  }

  /* ---------------------------------------------------------------------
     rotate, reverse
     --------------------------------------------------------------------- */

  /** `rotate`: the vec cut once and its two parts swapped
      (`std::rotate` about the source's shift). The shift is a remainder by
      the length, so the vec must not be empty. */
  function Rotate<T>(n: int, x: seq<T>): (r: seq<T>)
    requires |x| > 0
    ensures |r| == |x|
  {
    var L := |x|;
    var m := if 0 <= n then n % L else L - (-n) % L;
    x[m..] + x[..m]
  }

  /** After `rotate`, the element `n` places ahead, cyclically, is at the
      front: a positive count rotates left and a negative one right. */
  lemma RotateAt<T>(n: int, x: seq<T>)
    requires |x| > 0
    ensures forall j :: 0 <= j < |x| ==> Rotate(n, x)[j] == x[(j + n) % |x|]
  {
    var L := |x|;
    var m := if 0 <= n then n % L else L - (-n) % L;
    var r := Rotate(n, x);
    assert r == x[m..] + x[..m];
    forall j | 0 <= j < L
      ensures r[j] == x[(j + n) % L]
    {
      ModOfSum(j, n, L);
      if n < 0 {
        ModNegate(n, L);
        if n % L == 0 {
          ModAddMultiple(j, 1, L);
        }
      }
      assert (j + n) % L == (j + m) % L;
      if j + m < L {
        ModUnique(j + m, 0, j + m, L);
      } else {
        ModUnique(j + m, 1, j + m - L, L);
      }
    }
  }

  /** The remainders of `n` and `-n` add up to the modulus unless both are
      zero. */
  lemma ModNegate(n: int, L: int)
    requires L > 0
    ensures n % L == 0 <==> (-n) % L == 0
    ensures n % L != 0 ==> n % L + (-n) % L == L
  {
    var q := n / L;
    var r := n % L;
    if r == 0 {
      ModUnique(-n, -q, 0, L);
    } else {
      ModUnique(-n, -q - 1, L - r, L);
    }
  }

  /** Rotating back by the same count restores the vec. */
  lemma RotateInverse<T>(n: int, x: seq<T>)
    requires |x| > 0
    ensures Rotate(-n, Rotate(n, x)) == x
  {
    var L := |x|;
    var y := Rotate(n, x);
    var z := Rotate(-n, y);
    RotateAt(n, x);
    RotateAt(-n, y);
    forall j | 0 <= j < L
      ensures z[j] == x[j]
    {
      var k := (j + -n) % L;
      assert z[j] == y[k] == x[(k + n) % L];
      ShiftBack(n, j, L);
    }
  }

  /** Going `n` places back and then `n` places forward, cyclically, returns
      to the start. */
  lemma ShiftBack(n: int, j: int, L: int)
    requires L > 0 && 0 <= j < L
    ensures ((j + -n) % L + n) % L == j
  {
    ModOfSum(n, j - n, L);
    ModUnique(j, 0, j, L);
  }

  /** `reverse` of a vec. */
  function Reverse<T>(x: seq<T>): (r: seq<T>)
    ensures |r| == |x|
    ensures forall j :: 0 <= j < |x| ==> r[j] == x[|x| - 1 - j]
    decreases |x|
  {
    if |x| == 0 then [] else [x[|x| - 1]] + Reverse(x[..|x| - 1])
  }

  /** Reversing twice restores the vec. */
  lemma ReverseInvolution<T>(x: seq<T>)
    ensures Reverse(Reverse(x)) == x
  {
    var r := Reverse(Reverse(x));
    assert forall j :: 0 <= j < |x| ==> r[j] == x[j];
  }

  /** `reverse` on a dict reverses the keys and the values together, so
      each key keeps its value. */
  function ReverseDict<K, V>(d: Dict<K, V>): (r: Dict<K, V>)
    requires d.Valid()
    ensures r.Valid() && |r.keys| == |d.keys|
    ensures forall j :: 0 <= j < |d.keys| ==>
      r.keys[j] == d.keys[|d.keys| - 1 - j] && r.vals[j] == d.vals[|d.keys| - 1 - j]
  {
    Dict(Reverse(d.keys), Reverse(d.vals))
  }

  /* ---------------------------------------------------------------------
     join, raze
     --------------------------------------------------------------------- */

  /** `join` of two atoms, an atom and a vec, a vec and an atom, two vecs. */
  function JoinAtoms<T>(a: T, b: T): (r: seq<T>)
    ensures |r| == 2 && r[0] == a && r[1] == b
  {
    [a, b]
  }

  function JoinAtomVec<T>(a: T, y: seq<T>): (r: seq<T>)
    ensures |r| == |y| + 1 && r[0] == a && r[1..] == y
  {
    [a] + y
  }

  function JoinVecAtom<T>(x: seq<T>, b: T): (r: seq<T>)
    ensures |r| == |x| + 1 && r[..|x|] == x && r[|x|] == b
  {
    x + [b]
  }

  function JoinVecs<T>(x: seq<T>, y: seq<T>): (r: seq<T>)
    ensures |r| == |x| + |y| && r[..|x|] == x && r[|x|..] == y
  {
    x + y
  }

  /** `raze`: the unseeded `over` of `join`, asserted non-empty. */
  function Raze<T>(x: seq<seq<T>>): (r: seq<T>)
    requires |x| > 0
  {
    Over(JoinVecs, x)
  }

  /** `raze` concatenates the vecs in order. */
  lemma {:induction false} RazeIsFlatten<T>(x: seq<seq<T>>)
    requires |x| > 0
    ensures Raze(x) == Flatten(x)
    decreases |x|
  {
    if |x| == 1 {
      FlattenSingle(x[0]);
      assert x == [x[0]];
    } else {
      OverSnoc(JoinVecs, x);
      RazeIsFlatten(x[..|x| - 1]);
    }
  }

  /** Reference definition: the value of the last of `y`'s first `n`
      entries whose key is `k`, if there is one. */
  function Latest<K(==), V>(y: Dict<K, V>, k: K, n: nat): (r: Option<V>)
    requires y.Valid() && n <= |y.keys|
    ensures r.Some? <==> k in y.keys[..n]
    ensures r.Some? ==> exists i :: 0 <= i < n && y.keys[i] == k && y.vals[i] == r.value &&
                                   forall j :: i < j < n ==> y.keys[j] != k
    decreases n
  {
    if n == 0 then None
    else
      assert y.keys[..n] == y.keys[..n - 1] + [y.keys[n - 1]];
      if y.keys[n - 1] == k then Some(y.vals[n - 1]) else Latest(y, k, n - 1)
  }

  /** The assignments of `join` on two dicts so far: `y`'s first `n`
      entries written into `x` with upsert. */
  function JoinDictPrefix<K(==,!new), V>(x: Dict<K, V>, y: Dict<K, V>, n: nat): (r: Dict<K, V>)
    requires x.Valid() && y.Valid() && n <= |y.keys|
    ensures r.Valid()
    ensures |x.keys| <= |r.keys| && r.keys[..|x.keys|] == x.keys
    ensures forall k :: JoinDictAt(x, y, n, r, k)
    ensures r.keys == x.keys + Keep(Distinct(y.keys[..n]), x.keys, false)
    ensures forall i :: 0 <= i < |x.keys| && Find(x.keys, x.keys[i]) != i ==> r.vals[i] == x.vals[i]
    decreases n
  {
    if n == 0 then x
    else
      var p := JoinDictPrefix(x, y, n - 1);
      var k := y.keys[n - 1];
      var r := Set(p, k, y.vals[n - 1]);
      JoinKeysStep(x.keys, y.keys, n, p.keys, r.keys);
      JoinDictStepKeys(x, p, k, r);
      JoinDictStepShadowed(x, p, k, y.vals[n - 1]);
      forall k' ensures JoinDictAt(x, y, n, r, k') {
        JoinDictStep(x, y, n, p, r, k');
      }
      r
  }

  /** After `n` upserts of `join` on dicts, the key `k` is present when it
      was in `x` or among the entries written, with the latest value
      written for it, or else its value in `x`. */
  ghost predicate JoinDictAt<K, V>(x: Dict<K, V>, y: Dict<K, V>, n: nat, r: Dict<K, V>, k: K)
    requires x.Valid() && y.Valid() && n <= |y.keys| && r.Valid()
  {
    (Has(r, k) <==> Has(x, k) || Latest(y, k, n).Some?) &&
    (Latest(y, k, n).Some? ==> Has(r, k) && Get(r, k) == Latest(y, k, n).value) &&
    (Has(x, k) && Latest(y, k, n).None? ==> Get(r, k) == Get(x, k))
  }

  lemma JoinDictStep<K, V>(x: Dict<K, V>, y: Dict<K, V>, n: nat, p: Dict<K, V>, r: Dict<K, V>, k: K)
    requires x.Valid() && y.Valid() && 0 < n <= |y.keys| && p.Valid()
    requires JoinDictAt(x, y, n - 1, p, k)
    requires r == Set(p, y.keys[n - 1], y.vals[n - 1])
    ensures r.Valid() && JoinDictAt(x, y, n, r, k)
  {
    if k != y.keys[n - 1] && Has(p, k) {
      UpsertKeeps(p, y.keys[n - 1], y.vals[n - 1], k);
    }
  }

  /** An upsert never writes to an entry of `x` whose key occurs earlier
      in `x`: the first match for that key lies before it. */
  lemma JoinDictStepShadowed<K, V>(x: Dict<K, V>, p: Dict<K, V>, k: K, v: V)
    requires x.Valid() && p.Valid() && |x.keys| <= |p.keys| && p.keys[..|x.keys|] == x.keys
    requires forall i :: 0 <= i < |x.keys| && Find(x.keys, x.keys[i]) != i ==> p.vals[i] == x.vals[i]
    ensures forall i :: 0 <= i < |x.keys| && Find(x.keys, x.keys[i]) != i ==> Set(p, k, v).vals[i] == x.vals[i]
  {
    forall i | 0 <= i < |x.keys| && Find(x.keys, x.keys[i]) != i
      ensures Set(p, k, v).vals[i] == x.vals[i]
    {
      if Find(p.keys, k) == i {
        assert p.keys[i] == x.keys[i];
        FindInPrefix(p.keys, x.keys, k);
      }
    }
  }

  /** The upsert keeps the keys before it in place. */
  lemma JoinDictStepKeys<K, V>(x: Dict<K, V>, p: Dict<K, V>, k: K, r: Dict<K, V>)
    requires p.Valid() && |x.keys| <= |p.keys| && p.keys[..|x.keys|] == x.keys
    requires r.keys == if Has(p, k) then p.keys else p.keys + [k]
    ensures |x.keys| <= |r.keys| && r.keys[..|x.keys|] == x.keys
  {
    assert r.keys[..|p.keys|] == p.keys;
  }

  /** The upsert of one key leaves the lookup of every other key of the
      dict alone. */
  lemma UpsertKeeps<K, V>(d: Dict<K, V>, k: K, v: V, k': K)
    requires d.Valid() && Has(d, k') && k' != k
    ensures Get(Set(d, k, v), k') == Get(d, k')
  {
    assert d.keys[Find(d.keys, k')] == k';
  }

  /** `join` of two dicts: `x` with every entry of `y` upserted in turn.
      The keys of `x` stay in front, in order. */
  function JoinDict<K(==,!new), V>(x: Dict<K, V>, y: Dict<K, V>): (r: Dict<K, V>)
    requires x.Valid() && y.Valid()
    ensures r.Valid()
    ensures |x.keys| <= |r.keys| && r.keys[..|x.keys|] == x.keys
    ensures forall k :: JoinDictAt(x, y, |y.keys|, r, k)
    ensures r.keys == x.keys + Keep(Distinct(y.keys), x.keys, false)
    ensures forall i :: 0 <= i < |x.keys| && Find(x.keys, x.keys[i]) != i ==> r.vals[i] == x.vals[i]
  {
    assert y.keys[..|y.keys|] == y.keys;
    JoinDictPrefix(x, y, |y.keys|)
  }

  /** The keys after the `n`-th upsert of `join`, from those after the
      one before. */
  lemma JoinKeysStep<K>(xk: seq<K>, ys: seq<K>, n: nat, pk: seq<K>, rk: seq<K>)
    requires 0 < n <= |ys|
    requires pk == xk + Keep(Distinct(ys[..n - 1]), xk, false)
    requires rk == if ys[n - 1] in pk then pk else pk + [ys[n - 1]]
    ensures rk == xk + Keep(Distinct(ys[..n]), xk, false)
  {
    DistinctOfLonger(ys, n);
    UpsertKeysStep(xk, pk, Distinct(ys[..n - 1]), ys[n - 1]);
  }

  /** `distinct` of a prefix one longer adds its last element when new. */
  lemma DistinctOfLonger<K>(ys: seq<K>, n: nat)
    requires 0 < n <= |ys|
    ensures Distinct(ys[..n]) ==
      if ys[n - 1] in Distinct(ys[..n - 1]) then Distinct(ys[..n - 1])
      else Distinct(ys[..n - 1]) + [ys[n - 1]]
  {
    assert ys[..n] == ys[..n - 1] + [ys[n - 1]];
    DistinctSnoc(ys[..n - 1], ys[n - 1]);
  }

  /** One upsert of the key `k` extends the listing of new keys exactly as
      `distinct` extends with `k`. */
  lemma UpsertKeysStep<K>(xk: seq<K>, pk: seq<K>, d: seq<K>, k: K)
    requires pk == xk + Keep(d, xk, false)
    ensures (if k in pk then pk else pk + [k]) == xk + Keep(if k in d then d else d + [k], xk, false)
  {
    var kd := Keep(d, xk, false);
    InKeep(d, xk, k, false);
    KeepSnoc(d, xk, k, false);
    if k in xk {
      assert k in pk;
      assert kd + [] == kd;
    } else if k in d {
      assert k in kd;
      assert pk[|xk| ..] == kd;
    } else {
      assert k !in pk;
      assert xk + (kd + [k]) == pk + [k];
    }
  }

  /** Each key of `join` on dicts: present when it is a key of either
      side; a key of `y` has the value of its last entry there, and any
      other key keeps its value in `x`. */
  lemma JoinDictKey<K(!new), V>(x: Dict<K, V>, y: Dict<K, V>, k: K)
    requires x.Valid() && y.Valid()
    ensures Has(JoinDict(x, y), k) <==> Has(x, k) || k in y.keys
    ensures k in y.keys ==> Get(JoinDict(x, y), k) == Latest(y, k, |y.keys|).value
    ensures Has(x, k) && k !in y.keys ==> Get(JoinDict(x, y), k) == Get(x, k)
  {
    assert y.keys[..|y.keys|] == y.keys;
    assert JoinDictAt(x, y, |y.keys|, JoinDict(x, y), k);
  }

  /* ---------------------------------------------------------------------
     cut
     --------------------------------------------------------------------- */

  /** The source's assertions on cut points: at least one, the first not
      negative, non-decreasing, the last within the vec. */
  predicate CutPoints(p: seq<int>, len: nat) {
    |p| > 0 && 0 <= p[0] && p[|p| - 1] <= len &&
    forall i, j :: 0 <= i < j < |p| ==> p[i] <= p[j]
  }

  /** `cut`: one piece per cut point, each running to the next point, the
      last to the end of the vec. */
  function Cut<T>(p: seq<int>, x: seq<T>): (r: seq<seq<T>>)
    requires CutPoints(p, |x|)
    ensures |r| == |p|
    ensures forall i :: 0 <= i < |p| - 1 ==> r[i] == x[p[i]..p[i + 1]]
    ensures r[|p| - 1] == x[p[|p| - 1]..]
    decreases |p|
  {
    if |p| == 1 then [x[p[0]..]]
    else [x[p[0]..p[1]]] + Cut(p[1..], x)
  }

  /** The pieces of `cut` put back together are the vec from the first cut
      point on. */
  lemma {:induction false} CutFlatten<T>(p: seq<int>, x: seq<T>)
    requires CutPoints(p, |x|)
    ensures Flatten(Cut(p, x)) == x[p[0]..]
    decreases |p|
  {
    if |p| == 1 {
      FlattenSingle(x[p[0]..]);
    } else {
      var rest := Cut(p[1..], x);
      CutFlatten(p[1..], x);
      FlattenConcat([x[p[0]..p[1]]], rest);
      FlattenSingle(x[p[0]..p[1]]);
      assert x[p[0]..p[1]] + x[p[1]..] == x[p[0]..];
    }
  }

  /* ---------------------------------------------------------------------
     take with a shape: the reshape of a vec into rows
     --------------------------------------------------------------------- */

  /** `m` rows of `n` elements read from `x` in order, cycling through `x`
      as often as needed. Any element to read from the empty vec is a
      remainder by zero. */
  function MatrixFromVector<T>(m: nat, n: nat, x: seq<T>): (r: seq<seq<T>>)
    requires m > 0 && n > 0 ==> |x| > 0
    ensures |r| == m
    ensures forall i :: 0 <= i < m ==> |r[i]| == n
  {
    seq(m, i requires 0 <= i < m =>
      seq(n, c requires 0 <= c < n => x[(c + i * n) % |x|]))
  }

  /** Without cycling, the rows are consecutive slices of the vec. */
  lemma MatrixRow<T>(m: nat, n: nat, x: seq<T>, i: nat)
    requires m * n <= |x| && i < m
    ensures (i + 1) * n <= |x|
    ensures MatrixFromVector(m, n, x)[i] == x[i * n..(i + 1) * n]
  {
    var lo := i * n;
    assert (i + 1) * n == lo + n;
    MulMonotone(i + 1, m, n);
    var row := MatrixFromVector(m, n, x)[i];
    forall c | 0 <= c < n
      ensures row[c] == x[lo + c]
    {
      ModUnique(c + lo, 0, c + lo, |x|);
    }
  }

  /** Read row by row, the matrix is the overtake of `m * n` elements:
      element `c` of row `i` is element `i * n + c` of `take`. */
  lemma MatrixIsOvertake<T>(m: nat, n: nat, x: seq<T>, i: nat, c: nat)
    requires |x| > 0 && i < m && c < n
    ensures i * n + c < m * n
    ensures MatrixFromVector(m, n, x)[i][c] == Take(m * n, x)[i * n + c]
  {
    var lo := i * n;
    var mn := m * n;
    CellBelowProduct(m, n, i, c);
    var t := Take(mn, x);
    assert |t| == mn;
    assert t[lo + c] == x[(lo + c) % |x|];
    assert MatrixFromVector(m, n, x)[i][c] == x[(c + lo) % |x|];
  }

  /** Cell `c` of row `i` lies inside an `m` by `n` matrix read row by row. */
  lemma CellBelowProduct(m: nat, n: nat, i: nat, c: nat)
    requires i < m && c < n
    ensures 0 <= i * n + c < m * n
  {
    MulMonotone(i + 1, m, n);
    assert (i + 1) * n == i * n + n;
  }

  lemma MulMonotone(a: nat, b: nat, n: nat)
    requires a <= b
    ensures a * n <= b * n
  {
    assert b * n == a * n + (b - a) * n;
  }

  /** Without cycling, the rows together are the first `m * n` elements. */
  lemma {:induction false} MatrixFlatten<T>(m: nat, n: nat, x: seq<T>)
    requires m * n <= |x|
    ensures Flatten(MatrixFromVector(m, n, x)) == x[..m * n]
    decreases m
  {
    if m > 0 {
      var r := MatrixFromVector(m, n, x);
      assert (m - 1) * n == m * n - n;
      assert r[..m - 1] == MatrixFromVector(m - 1, n, x);
      MatrixFlatten(m - 1, n, x);
      MatrixRow(m, n, x, m - 1);
      assert x[..(m - 1) * n] + x[(m - 1) * n..m * n] == x[..m * n];
    }
  }

  /** `take` with shape `(0, n)`, `n > 0`: rows of `n` elements, the last
      one holding what is left over. The source computes the row counts
      as the ceiling and floor of a floating-point quotient. */
  function FixedColsFlexRows<T>(n: nat, x: seq<T>): (r: seq<seq<T>>)
    requires n > 0
  {
    if |x| <= n then [x]
    else
      var u := |x| / n;
      var t := if |x| % n == 0 then u else u + 1;
      if t == u then MatrixFromVector(t, n, x)
      else MatrixFromVector(u, n, x) + MatrixFromVector(1, |x| - u * n, Drop(u * n, x))
  }

  /** `take` with shape `(m, 0)`, `m > 0`: `m` rows whose lengths differ by
      at most one, the longer rows first. A vec no longer than `m` becomes
      one singleton row per element instead. */
  function FixedRowsFlexCols<T>(m: nat, x: seq<T>): (r: seq<seq<T>>)
    requires m > 0
  {
    if |x| <= m then seq(|x|, i requires 0 <= i < |x| => [x[i]])
    else
      var u := |x| / m;
      var t := if |x| % m == 0 then u else u + 1;
      if t == u then MatrixFromVector(m, t, x)
      else
        var b := |x| - m * u;
        var s := m - b;
        assert 0 <= b < m by { assert |x| == u * m + |x| % m; }
        BigAndSmallCount(m, u, b);
        BigThenSmall(b, s, u, b * t, x)
  }

  /** `b` rows of `u + 1` elements, the first `big` of the vec, and then
      `s` rows of `u` holding the rest. */
  function BigThenSmall<T>(b: nat, s: nat, u: nat, big: nat, x: seq<T>): seq<seq<T>>
    requires big == b * (u + 1) && big + s * u == |x|
  {
    MatrixFromVector(b, u + 1, x) + MatrixFromVector(s, u, Drop(big, x))
  }

  /** `take` with a shape `(rows, cols)`, at least one of them positive: a
      non-positive row count fixes the columns, a non-positive column count
      fixes the rows, and two positive counts read a matrix cyclically. */
  function TakeShape<T>(rc: seq<int>, x: seq<T>): (r: seq<seq<T>>)
    requires |rc| == 2 && (0 < rc[0] || 0 < rc[1])
    requires 0 < rc[0] && 0 < rc[1] ==> |x| > 0
  {
    if rc[0] <= 0 then FixedColsFlexRows(rc[1], x)
    else if rc[1] <= 0 then FixedRowsFlexCols(rc[0], x)
    else MatrixFromVector(rc[0], rc[1], x)
  }

  /** `(m, 0)` reshape, one singleton row per element: together they are
      the vec. */
  lemma {:induction false} FlattenSingletons<T>(x: seq<T>)
    ensures Flatten(seq(|x|, i requires 0 <= i < |x| => [x[i]])) == x
    decreases |x|
  {
    if |x| > 0 {
      var r := seq(|x|, i requires 0 <= i < |x| => [x[i]]);
      var p := x[..|x| - 1];
      assert r[..|r| - 1] == seq(|p|, i requires 0 <= i < |p| => [p[i]]);
      FlattenSingletons(p);
    }
  }

  /** Euclidean division facts for a positive divisor, and the ceiling of
      the quotient. */
  lemma DivMod(a: nat, n: nat)
    requires n > 0
    ensures a == (a / n) * n + a % n && 0 <= a % n < n && a / n >= 0
    ensures (a + n - 1) / n == if a % n == 0 then a / n else a / n + 1
    ensures a > n ==> a / n >= 1
  {
    if a % n == 0 {
      ModUnique(a + n - 1, a / n, n - 1, n);
    } else {
      ModUnique(a + n - 1, a / n + 1, a % n - 1, n);
    }
    assert a / n == 0 ==> a == a % n;
  }

  /** `u` full rows of `n` and then one row of the `rem` left over. */
  lemma RowsWithRest<T>(n: nat, u: nat, rem: nat, x: seq<T>)
    requires 0 < rem < n && |x| == u * n + rem
    ensures var r := MatrixFromVector(u, n, x) + MatrixFromVector(1, |x| - u * n, Drop(u * n, x));
      Flatten(r) == x && |r| == u + 1 &&
      (forall i :: 0 <= i < u ==> |r[i]| == n) && |r[u]| == rem
  {
    var y := Drop(u * n, x);
    assert y == x[u * n..];
    MatrixFlatten(u, n, x);
    MatrixFlatten(1, rem, y);
    FlattenConcat(MatrixFromVector(u, n, x), MatrixFromVector(1, rem, y));
    assert x[..u * n] + y[..rem] == x;
  }

  /** The `(0, n)` reshape: its rows together are the vec; there are
      `ceiling(|x| / n)` of them (one for a vec no longer than `n`); every
      row but the last holds `n` elements and the last at most `n`. */
  lemma FixedColsFlexRowsShape<T>(n: nat, x: seq<T>)
    requires n > 0
    ensures var r := FixedColsFlexRows(n, x);
      Flatten(r) == x &&
      |r| == (if |x| <= n then 1 else (|x| + n - 1) / n) &&
      (forall i :: 0 <= i < |r| - 1 ==> |r[i]| == n) &&
      |r[|r| - 1]| <= n && (|x| > 0 ==> |r[|r| - 1]| > 0)
  {
    if |x| <= n {
      FlattenSingle(x);
    } else {
      DivMod(|x|, n);
      var u := |x| / n;
      if |x| % n == 0 {
        MatrixFlatten(u, n, x);
        assert x[..u * n] == x;
      } else {
        RowsWithRest(n, u, |x| % n, x);
      }
    }
  }

  /** `b` rows of `u + 1` and then `s` rows of `u`, where the big rows
      take the first `big` elements. */
  lemma BigAndSmallRows<T>(b: nat, s: nat, u: nat, big: nat, x: seq<T>)
    requires big == b * (u + 1) && big + s * u == |x|
    ensures var r := BigThenSmall(b, s, u, big, x);
      Flatten(r) == x && |r| == b + s &&
      forall i :: 0 <= i < b + s ==> |r[i]| == if i < b then u + 1 else u
  {
    var y := Drop(big, x);
    assert y == x[big..];
    MatrixFlatten(b, u + 1, x);
    MatrixFlatten(s, u, y);
    FlattenConcat(MatrixFromVector(b, u + 1, x), MatrixFromVector(s, u, y));
    assert x[..big] + y[..s * u] == x;
  }

  lemma BigAndSmallCount(m: nat, u: nat, b: nat)
    requires b <= m
    ensures b * (u + 1) + (m - b) * u == m * u + b
  {
    assert b * (u + 1) == b * u + b;
    assert (m - b) * u == m * u - b * u;
  }

  /** The `(m, 0)` reshape: its rows together are the vec. A vec longer
      than `m` gives `m` rows where the first `|x| % m`, that is
      `|x| - m * (|x| / m)`, hold one element more than the `|x| / m` of
      the rest; a shorter one gives a singleton row per element. */
  lemma FixedRowsFlexColsShape<T>(m: nat, x: seq<T>)
    requires m > 0
    ensures var r := FixedRowsFlexCols(m, x);
      Flatten(r) == x &&
      (|x| <= m ==> |r| == |x| && forall i :: 0 <= i < |x| ==> r[i] == [x[i]]) &&
      (|x| > m ==> |r| == m &&
                   forall i :: 0 <= i < m ==> |r[i]| == if i < |x| % m then |x| / m + 1 else |x| / m)
  {
    if |x| <= m {
      FlattenSingletons(x);
    } else if |x| % m == 0 {
      FixedRowsEven(m, x);
    } else {
      FixedRowsUneven(m, x);
    }
  }

  /** The `(m, 0)` reshape of a vec that `m` divides: `m` equal rows. */
  lemma FixedRowsEven<T>(m: nat, x: seq<T>)
    requires m > 0 && |x| > m && |x| % m == 0
    ensures var r := FixedRowsFlexCols(m, x);
      Flatten(r) == x && |r| == m && forall i :: 0 <= i < m ==> |r[i]| == |x| / m
  {
    DivMod(|x|, m);
    var u := |x| / m;
    assert FixedRowsFlexCols(m, x) == MatrixFromVector(m, u, x);
    MatrixFlatten(m, u, x);
    assert x[..m * u] == x;
  }

  /** The `(m, 0)` reshape of a vec that `m` does not divide: the first
      `|x| % m` rows hold one element more. */
  lemma FixedRowsUneven<T>(m: nat, x: seq<T>)
    requires m > 0 && |x| > m && |x| % m != 0
    ensures var r := FixedRowsFlexCols(m, x);
      Flatten(r) == x && |r| == m &&
      forall i :: 0 <= i < m ==> |r[i]| == if i < |x| % m then |x| / m + 1 else |x| / m
  {
    DivMod(|x|, m);
    var u := |x| / m;
    var b := |x| - m * u;
    assert b == |x| % m;
    BigAndSmallCount(m, u, b);
    assert FixedRowsFlexCols(m, x) == BigThenSmall(b, m - b, u, b * (u + 1), x);
    BigAndSmallRows(b, m - b, u, b * (u + 1), x);
  }

  /** A reshape with one count not positive keeps every element in order;
      with both positive it is `rows` rows of `cols` elements which, read
      row by row, are the overtake of `rows * cols` elements (see
      `MatrixIsOvertake`). */
  lemma TakeShapeRows<T>(rc: seq<int>, x: seq<T>)
    requires |rc| == 2 && (0 < rc[0] || 0 < rc[1])
    requires 0 < rc[0] && 0 < rc[1] ==> |x| > 0
    ensures rc[0] <= 0 || rc[1] <= 0 ==> Flatten(TakeShape(rc, x)) == x
    ensures 0 < rc[0] && 0 < rc[1] ==>
      |TakeShape(rc, x)| == rc[0] &&
      forall i :: 0 <= i < rc[0] ==> |TakeShape(rc, x)[i]| == rc[1]
  {
    if rc[0] <= 0 {
      FixedColsFlexRowsShape(rc[1], x);
    } else if rc[1] <= 0 {
      FixedRowsFlexColsShape(rc[0], x);
    }
  }
}

=== FILE: sorting.dfy ===
/** Sorting: `asc`, `desc`, `iasc`, `idesc` and `rank` on integer vecs and
    their dict forms. The library sorts with `std::stable_sort`; the model
    is a stable insertion sort, which yields the one ordering that is
    sorted, a permutation and stable. */
module Sorting {
  import opened Values
  import opened Reduce

  /** The comparison handed to the sort: `x<y` ascending, `y<x`
      descending. */
  datatype Order = Up | Down

  predicate Before(o: Order, a: int, b: int) {
    match o
    case Up => a < b
    case Down => b < a
  }

  /** No element strictly precedes an earlier one. */
  predicate Sorted(o: Order, s: seq<int>) {
    forall a, b :: 0 <= a < b < |s| ==> !Before(o, s[b], s[a])
  }

  /** Where a stable insertion puts `e` into a sorted `s`: after every
      element it does not strictly precede, before the first one it does. */
  function Position(o: Order, s: seq<int>, e: int): (p: nat)
    ensures p <= |s|
    ensures forall k :: 0 <= k < p ==> !Before(o, e, s[k])
    ensures p < |s| ==> Before(o, e, s[p])
    decreases |s|
  {
    if |s| == 0 then 0
    else if Before(o, e, s[0]) then 0
    else 1 + Position(o, s[1..], e)
  }

  /** Inserting one value into a sorted vec keeps it sorted and adds that
      value to its contents. */
  function Insert(o: Order, s: seq<int>, e: int): (r: seq<int>)
    requires Sorted(o, s)
    ensures Sorted(o, r) && |r| == |s| + 1
  {
    var p := Position(o, s, e);
    InsertSorted(o, s, e, p);
    s[..p] + [e] + s[p..]
  }

  /** Insertion adds exactly the inserted value to the contents. */
  lemma InsertContents(s: seq<int>, e: int, p: nat)
    requires p <= |s|
    ensures multiset(s[..p] + [e] + s[p..]) == multiset(s) + multiset{e}
  {
    assert s[..p] + s[p..] == s;
  }

  lemma InsertSorted(o: Order, s: seq<int>, e: int, p: nat)
    requires Sorted(o, s) && p == Position(o, s, e)
    ensures Sorted(o, s[..p] + [e] + s[p..])
  {
    var r := s[..p] + [e] + s[p..];
    forall a, b | 0 <= a < b < |r|
      ensures !Before(o, r[b], r[a])
    {
      if b < p {
        assert r[a] == s[a] && r[b] == s[b];
      } else if b == p {
        assert r[a] == s[a];
      } else if a < p {
        assert r[a] == s[a] && r[b] == s[b - 1];
      } else if a == p {
        assert r[b] == s[b - 1];
        assert !Before(o, s[b - 1], s[p]);
      } else {
        assert r[a] == s[a - 1] && r[b] == s[b - 1];
      }
    }
  }

  /** The stable sort of the first `n` values of `s`. */
  function SortValues(o: Order, s: seq<int>, n: nat): (r: seq<int>)
    requires n <= |s|
    ensures Sorted(o, r) && |r| == n
    decreases n
  {
    if n == 0 then [] else Insert(o, SortValues(o, s, n - 1), s[n - 1])
  }

  /** The sort is a permutation of the values it sorts. */
  lemma {:induction false} SortValuesContents(o: Order, s: seq<int>, n: nat)
    requires n <= |s|
    ensures multiset(SortValues(o, s, n)) == multiset(s[..n])
    decreases n
  {
    if n > 0 {
      SortValuesContents(o, s, n - 1);
      SortValuesStepContents(o, s, n);
      PrefixContents(s, n);
    }
  }

  lemma SortValuesStepContents(o: Order, s: seq<int>, n: nat)
    requires 0 < n <= |s|
    ensures multiset(SortValues(o, s, n)) == multiset(SortValues(o, s, n - 1)) + multiset{s[n - 1]}
  {
    var a := SortValues(o, s, n - 1);
    InsertContents(a, s[n - 1], Position(o, a, s[n - 1]));
  }

  lemma PrefixContents(s: seq<int>, n: nat)
    requires 0 < n <= |s|
    ensures multiset(s[..n]) == multiset(s[..n - 1]) + multiset{s[n - 1]}
  {
    assert s[..n] == s[..n - 1] + [s[n - 1]];
  }

  /** `asc`: the elements of `x` in non-decreasing order. */
  function Asc(x: seq<int>): (r: seq<int>)
    ensures |r| == |x|
    ensures forall a, b :: 0 <= a < b < |r| ==> r[a] <= r[b]
    ensures multiset(r) == multiset(x)
  {
    SortValuesContents(Up, x, |x|);
    assert x[..|x|] == x;
    SortValues(Up, x, |x|)
  }

  /** `desc`: the elements of `x` in non-increasing order. */
  function Desc(x: seq<int>): (r: seq<int>)
    ensures |r| == |x|
    ensures forall a, b :: 0 <= a < b < |r| ==> r[a] >= r[b]
    ensures multiset(r) == multiset(x)
  {
    SortValuesContents(Down, x, |x|);
    assert x[..|x|] == x;
    SortValues(Down, x, |x|)
  }

  /** Positions with equal keys stay in increasing order. */
  predicate Stable(x: seq<int>, idx: seq<int>)
    requires InRange(idx, |x|)
  {
    forall a, b :: 0 <= a < b < |idx| && x[idx[a]] == x[idx[b]] ==> idx[a] < idx[b]
  }

  /** `r` lists each of 0, ..., n-1 exactly once. */
  predicate IsPermutation(r: seq<int>, n: nat) {
    |r| == n && InRange(r, n) && NoDup(r) && forall i :: 0 <= i < n ==> i in r
  }

  /** One step of the index sort: position `i`, larger than every position
      already sorted, goes where its key belongs. */
  function InsertIndex(o: Order, x: seq<int>, idx: seq<int>, i: nat): (r: seq<int>)
    requires InRange(idx, |x|) && i < |x| && Sorted(o, At(x, idx))
    requires IsPermutation(idx, i)
    ensures IsPermutation(r, i + 1)
    ensures InRange(r, |x|)
    ensures At(x, r) == Insert(o, At(x, idx), x[i])
    ensures Stable(x, idx) ==> Stable(x, r)
  {
    var p := Position(o, At(x, idx), x[i]);
    var r := idx[..p] + [i] + idx[p..];
    assert idx[..p] + idx[p..] == idx;
    InsertIndexAt(x, idx, i, p);
    InsertIndexPermutation(idx, i, p);
    InsertIndexStable(o, x, idx, i, p, r);
    r
  }

  lemma InsertIndexAt(x: seq<int>, idx: seq<int>, i: nat, p: nat)
    requires InRange(idx, |x|) && i < |x| && p <= |idx|
    ensures InRange(idx[..p] + [i] + idx[p..], |x|)
    ensures At(x, idx[..p] + [i] + idx[p..]) == At(x, idx)[..p] + [x[i]] + At(x, idx)[p..]
  {
    var lo, hi := idx[..p], idx[p..];
    assert idx == lo + hi;
    AtConcat(x, lo, hi);
    AtConcat(x, lo, [i]);
    AtConcat(x, lo + [i], hi);
    assert At(x, [i]) == [x[i]];
    assert At(x, idx)[..p] == At(x, lo) && At(x, idx)[p..] == At(x, hi);
  }

  lemma InsertIndexPermutation(idx: seq<int>, i: nat, p: nat)
    requires IsPermutation(idx, i) && p <= |idx|
    ensures IsPermutation(idx[..p] + [i] + idx[p..], i + 1)
  {
    var r := idx[..p] + [i] + idx[p..];
    assert forall k :: 0 <= k < |r| ==> r[k] == i || r[k] in idx;
    forall a, b | 0 <= a < b < |r|
      ensures r[a] != r[b]
    {
      if b < p {
        assert r[a] == idx[a] && r[b] == idx[b];
      } else if b > p && a < p {
        assert r[a] == idx[a] && r[b] == idx[b - 1];
      } else if a > p {
        assert r[a] == idx[a - 1] && r[b] == idx[b - 1];
      }
    }
    forall j | 0 <= j < i + 1
      ensures j in r
    {
      if j < i {
        assert j in idx;
        var k :| 0 <= k < |idx| && idx[k] == j;
        if k < p {
          assert r[k] == j;
        } else {
          assert r[k + 1] == j;
        }
      } else {
        assert r[p] == i;
      }
    }
  }

  /** An inserted position never ties with a key after it, since it
      strictly precedes the first of them. */
  lemma NoTieAfter(o: Order, v: seq<int>, e: int, k: nat)
    requires Sorted(o, v) && Position(o, v, e) <= k < |v|
    ensures v[k] != e
  {
    var p := Position(o, v, e);
    assert Before(o, e, v[p]);
    assert !Before(o, v[k], v[p]);
  }

  lemma InsertIndexStable(o: Order, x: seq<int>, idx: seq<int>, i: nat, p: nat, r: seq<int>)
    requires InRange(idx, |x|) && i < |x| && Sorted(o, At(x, idx))
    requires IsPermutation(idx, i)
    requires p == Position(o, At(x, idx), x[i])
    requires r == idx[..p] + [i] + idx[p..] && InRange(r, |x|)
    ensures Stable(x, idx) ==> Stable(x, r)
  {
    forall k | p <= k < |idx|
      ensures x[idx[k]] != x[i]
    {
      NoTieAfter(o, At(x, idx), x[i], k);
    }
    if Stable(x, idx) {
      StableInsert(x, idx, i, p, r);
    }
  }

  /** Inserting a position larger than all others, after every position
      whose key it ties with, keeps equal keys in position order. */
  lemma StableInsert(x: seq<int>, idx: seq<int>, i: nat, p: nat, r: seq<int>)
    requires InRange(idx, |x|) && i < |x| && Stable(x, idx) && p <= |idx|
    requires forall k :: 0 <= k < |idx| ==> idx[k] < i
    requires forall k :: p <= k < |idx| ==> x[idx[k]] != x[i]
    requires r == idx[..p] + [i] + idx[p..] && InRange(r, |x|)
    ensures Stable(x, r)
  {
    forall a, b | 0 <= a < b < |r|
      ensures x[r[a]] == x[r[b]] ==> r[a] < r[b]
    {
      if b < p {
        assert r[a] == idx[a] && r[b] == idx[b];
      } else if b == p {
        assert r[a] == idx[a];
      } else if a < p {
        assert r[a] == idx[a] && r[b] == idx[b - 1];
      } else if a == p {
        assert r[a] == i && r[b] == idx[b - 1];
      } else {
        assert r[a] == idx[a - 1] && r[b] == idx[b - 1];
      }
    }
  }

  /** The index sort of the first `n` positions: `Til(n)` stably sorted by
      the keys `x`. */
  function SortIndices(o: Order, x: seq<int>, n: nat): (r: seq<int>)
    requires n <= |x|
    ensures IsPermutation(r, n)
    ensures InRange(r, |x|) && Sorted(o, At(x, r)) && Stable(x, r)
    decreases n
  {
    if n == 0 then []
    else InsertIndex(o, x, SortIndices(o, x, n - 1), n - 1)
  }

  /** `iasc`: the positions of `x` in the order that sorts it ascending,
      equal keys in position order. */
  function Iasc(x: seq<int>): (r: seq<int>)
    ensures IsPermutation(r, |x|)
    ensures forall a, b :: 0 <= a < b < |r| ==> x[r[a]] <= x[r[b]]
    ensures forall a, b :: 0 <= a < b < |r| && x[r[a]] == x[r[b]] ==> r[a] < r[b]
  {
    var r := SortIndices(Up, x, |x|);
    assert forall a, b :: 0 <= a < b < |r| ==> !Before(Up, At(x, r)[b], At(x, r)[a]);
    r
  }

  /** `idesc`: the positions of `x` in the order that sorts it descending,
      equal keys in position order. */
  function Idesc(x: seq<int>): (r: seq<int>)
    ensures IsPermutation(r, |x|)
    ensures forall a, b :: 0 <= a < b < |r| ==> x[r[a]] >= x[r[b]]
    ensures forall a, b :: 0 <= a < b < |r| && x[r[a]] == x[r[b]] ==> r[a] < r[b]
  {
    var r := SortIndices(Down, x, |x|);
    assert forall a, b :: 0 <= a < b < |r| ==> !Before(Down, At(x, r)[b], At(x, r)[a]);
    r
  }

  /** `p` lists the positions of `x` in the order `o`, equal keys in
      position order: what `iasc` (`Up`) and `idesc` (`Down`) promise. */
  predicate SortsStably(o: Order, x: seq<int>, p: seq<int>) {
    IsPermutation(p, |x|) &&
    (forall a, b :: 0 <= a < b < |p| ==> !Before(o, x[p[b]], x[p[a]])) &&
    (forall a, b :: 0 <= a < b < |p| && x[p[a]] == x[p[b]] ==> p[a] < p[b])
  }

  /** Position `i` of `x` comes strictly before position `j` in a stable
      sort: by key, then by position. */
  predicate KeyBefore(o: Order, x: seq<int>, i: int, j: int)
    requires 0 <= i < |x| && 0 <= j < |x|
  {
    Before(o, x[i], x[j]) || (x[i] == x[j] && i < j)
  }

  lemma SortsStablyIsStrict(o: Order, x: seq<int>, p: seq<int>, a: int, b: int)
    requires SortsStably(o, x, p) && 0 <= a < b < |p|
    ensures KeyBefore(o, x, p[a], p[b])
  {
  }

  /** Two stable sorting permutations that agree before `a` agree at `a`:
      each one's entry there is the least key the other has not listed. */
  lemma StableSortAgreesAt(o: Order, x: seq<int>, p: seq<int>, q: seq<int>, a: int)
    requires SortsStably(o, x, p) && SortsStably(o, x, q) && 0 <= a < |p|
    requires forall a' :: 0 <= a' < a ==> p[a'] == q[a']
    ensures p[a] == q[a]
  {
    assert p[a] in q && q[a] in p;
    var c :| 0 <= c < |q| && q[c] == p[a];
    var d :| 0 <= d < |p| && p[d] == q[a];
    if c != a {
      SortsStablyIsStrict(o, x, p, a, d);
      SortsStablyIsStrict(o, x, q, a, c);
      assert false;
    }
  }

  lemma {:induction false} StableSortAgreesBelow(o: Order, x: seq<int>, p: seq<int>, q: seq<int>, n: nat)
    requires SortsStably(o, x, p) && SortsStably(o, x, q) && n <= |p|
    ensures forall a :: 0 <= a < n ==> p[a] == q[a]
    decreases n
  {
    if n > 0 {
      StableSortAgreesBelow(o, x, p, q, n - 1);
      StableSortAgreesAt(o, x, p, q, n - 1);
    }
  }

  lemma KeyBeforeTransitive(o: Order, x: seq<int>, i: int, j: int, k: int)
    requires 0 <= i < |x| && 0 <= j < |x| && 0 <= k < |x|
    requires KeyBefore(o, x, i, j) && KeyBefore(o, x, j, k)
    ensures KeyBefore(o, x, i, k)
  {
  }

  /** Neighbours in key order put every earlier entry before every later
      one. */
  lemma {:induction false} ChainBefore(o: Order, x: seq<int>, p: seq<int>, a: int, b: int)
    requires InRange(p, |x|) && 0 <= a < b < |p|
    requires forall c :: 0 <= c < |p| - 1 ==> KeyBefore(o, x, p[c], p[c + 1])
    ensures KeyBefore(o, x, p[a], p[b])
    decreases b - a
  {
    if a + 1 < b {
      ChainBefore(o, x, p, a + 1, b);
      KeyBeforeTransitive(o, x, p[a], p[a + 1], p[b]);
    }
  }

  /** A list of all the positions whose neighbours are in key order sorts
      `x` stably. */
  lemma ChainSortsStably(o: Order, x: seq<int>, p: seq<int>)
    requires |p| == |x| && InRange(p, |x|)
    requires forall i :: 0 <= i < |x| ==> i in p
    requires forall c :: 0 <= c < |p| - 1 ==> KeyBefore(o, x, p[c], p[c + 1])
    ensures SortsStably(o, x, p)
  {
    forall a, b | 0 <= a < b < |p|
      ensures p[a] != p[b] && !Before(o, x[p[b]], x[p[a]])
      ensures x[p[a]] == x[p[b]] ==> p[a] < p[b]
    {
      ChainBefore(o, x, p, a, b);
    }
  }

  /** The stable sorting permutation is unique, so the contracts of `iasc`
      and `idesc` determine them: any permutation that sorts `x` stably is
      `iasc(x)` (or `idesc(x)`). */
  lemma StableSortUnique(o: Order, x: seq<int>, p: seq<int>, q: seq<int>)
    requires SortsStably(o, x, p) && SortsStably(o, x, q)
    ensures p == q
  {
    StableSortAgreesBelow(o, x, p, q, |p|);
  }

  lemma IascIsTheStableSort(x: seq<int>, p: seq<int>)
    ensures SortsStably(Up, x, p) <==> p == Iasc(x)
    ensures SortsStably(Down, x, p) <==> p == Idesc(x)
  {
    var r := Iasc(x);
    var s := Idesc(x);
    assert SortsStably(Up, x, r);
    assert SortsStably(Down, x, s);
    if SortsStably(Up, x, p) {
      StableSortUnique(Up, x, p, r);
    }
    if SortsStably(Down, x, p) {
      StableSortUnique(Down, x, p, s);
    }
  }

  /** Sorting the values and sorting the positions agree: the elements at
      the sorted positions are the sorted elements. */
  lemma {:induction false} SortIndicesAt(o: Order, x: seq<int>, n: nat)
    requires n <= |x|
    ensures At(x, SortIndices(o, x, n)) == SortValues(o, x, n)
    decreases n
  {
    if n > 0 {
      SortIndicesAt(o, x, n - 1);
    }
  }

  lemma AscIsAtIasc(x: seq<int>)
    ensures Asc(x) == At(x, Iasc(x))
    ensures Desc(x) == At(x, Idesc(x))
  {
    SortIndicesAt(Up, x, |x|);
    SortIndicesAt(Down, x, |x|);
  }

  /** Inserting a value no element follows puts it last. */
  lemma InsertLast(o: Order, s: seq<int>, e: int)
    requires Sorted(o, s)
    requires forall k :: 0 <= k < |s| ==> !Before(o, e, s[k])
    ensures Insert(o, s, e) == s + [e]
  {
    assert s[..|s|] == s && s[|s|..] == [];
  }

  /** A sorted vec is its own sort. */
  lemma {:induction false} SortSorted(o: Order, s: seq<int>, n: nat)
    requires Sorted(o, s) && n <= |s|
    ensures SortValues(o, s, n) == s[..n]
    decreases n
  {
    if n > 0 {
      SortSorted(o, s, n - 1);
      assert Sorted(o, s[..n - 1]);
      InsertLast(o, s[..n - 1], s[n - 1]);
      assert s[..n - 1] + [s[n - 1]] == s[..n];
    }
  }

  /** Sorting is idempotent. */
  lemma AscIdempotent(x: seq<int>)
    ensures Asc(Asc(x)) == Asc(x)
    ensures Desc(Desc(x)) == Desc(x)
  {
    var a := Asc(x);
    var d := Desc(x);
    SortSorted(Up, a, |a|);
    SortSorted(Down, d, |d|);
    assert a[..|a|] == a && d[..|d|] == d;
  }

  /** Two vecs with the same contents have the same members. */
  lemma SameMember(s: seq<int>, x: seq<int>, v: int)
    requires multiset(s) == multiset(x)
    ensures v in s <==> v in x
  {
    assert v in s <==> v in multiset(s);
    assert v in x <==> v in multiset(x);
  }

  /** The first element of an ascending permutation of `x` is the least
      element of `x`. */
  lemma FirstOfAscending(s: seq<int>, x: seq<int>, m: int)
    requires |s| > 0 && multiset(s) == multiset(x)
    requires forall a, b :: 0 <= a < b < |s| ==> s[a] <= s[b]
    requires m in x && forall i :: 0 <= i < |x| ==> m <= x[i]
    ensures s[0] == m
  {
    SameMember(s, x, s[0]);
    SameMember(s, x, m);
    var j :| 0 <= j < |x| && x[j] == s[0];
    var k :| 0 <= k < |s| && s[k] == m;
    assert k == 0 || s[0] <= s[k];
  }

  /** The last element of an ascending permutation of `x` is the greatest
      element of `x`. */
  lemma LastOfAscending(s: seq<int>, x: seq<int>, m: int)
    requires |s| > 0 && multiset(s) == multiset(x)
    requires forall a, b :: 0 <= a < b < |s| ==> s[a] <= s[b]
    requires m in x && forall i :: 0 <= i < |x| ==> x[i] <= m
    ensures s[|s| - 1] == m
  {
    var n := |s| - 1;
    SameMember(s, x, s[n]);
    SameMember(s, x, m);
    var j :| 0 <= j < |x| && x[j] == s[n];
    var k :| 0 <= k < |s| && s[k] == m;
    assert k == n || s[k] <= s[n];
  }

  /** `min` is the first element of `asc`. */
  lemma MinIsFirstOfAsc(x: seq<int>)
    requires |x| > 0
    ensures Min(x) == Asc(x)[0]
  {
    FirstOfAscending(Asc(x), x, Min(x));
  }

  /** `max` is the last element of `asc`. */
  lemma MaxIsLastOfAsc(x: seq<int>)
    requires |x| > 0
    ensures Max(x) == Asc(x)[|x| - 1]
  {
    LastOfAscending(Asc(x), x, Max(x));
  }

  /** `rank`: `iasc` of `iasc`. */
  function Rank(x: seq<int>): (r: seq<int>)
    ensures IsPermutation(r, |x|)
  {
    Iasc(Iasc(x))
  }

  /** `rank` inverts `iasc`: element `j` sits at position `rank(x)[j]` of
      the sorting permutation, which is where `x[j]` lands in `asc(x)`. */
  lemma RankInvertsIasc(x: seq<int>)
    ensures forall j :: 0 <= j < |x| ==> Iasc(x)[Rank(x)[j]] == j
    ensures forall k :: 0 <= k < |x| ==> Rank(x)[Iasc(x)[k]] == k
  {
    SortingPermutationInverts(Iasc(x), Rank(x), |x|);
  }

  /** Sorting a permutation by its entries yields its inverse. */
  lemma SortingPermutationInverts(p: seq<int>, r: seq<int>, n: nat)
    requires IsPermutation(p, n) && IsPermutation(r, n)
    requires forall a, b :: 0 <= a < b < n ==> p[r[a]] <= p[r[b]]
    ensures forall j :: 0 <= j < n ==> p[r[j]] == j
    ensures forall k :: 0 <= k < n ==> r[p[k]] == k
  {
    var s := seq(n, j requires 0 <= j < n => p[r[j]]);
    assert forall j :: 0 <= j < n ==> s[j] == p[r[j]];
    forall a, b | 0 <= a < b < n
      ensures s[a] < s[b]
    {
      assert r[a] != r[b];
      assert p[r[a]] != p[r[b]];
    }
    IncreasingIsIdentity(s, n);
    forall k | 0 <= k < n
      ensures r[p[k]] == k
    {
      var j := p[k];
      assert 0 <= j < n;
      assert s[j] == j;
      assert p[r[j]] == p[k];
    }
  }

  /** A strictly increasing vec of `n` values below `n` is `0, 1, ..., n-1`. */
  lemma IncreasingIsIdentity(s: seq<int>, n: nat)
    requires |s| == n && InRange(s, n)
    requires forall a, b :: 0 <= a < b < |s| ==> s[a] < s[b]
    ensures forall j :: 0 <= j < n ==> s[j] == j
  {
    forall j | 0 <= j < n
      ensures s[j] == j
    {
      AtLeastIndex(s, j);
      AtMostIndex(s, n, j);
    }
  }

  lemma {:induction false} AtLeastIndex(s: seq<int>, j: nat)
    requires j < |s| && InRange(s, |s|)
    requires forall a, b :: 0 <= a < b < |s| ==> s[a] < s[b]
    ensures s[j] >= j
    decreases j
  {
    if j > 0 {
      AtLeastIndex(s, j - 1);
    }
  }

  lemma {:induction false} AtMostIndex(s: seq<int>, n: nat, j: nat)
    requires |s| == n && j < n && InRange(s, n)
    requires forall a, b :: 0 <= a < b < |s| ==> s[a] < s[b]
    ensures s[j] <= j
    decreases n - j
  {
    if j < n - 1 {
      AtMostIndex(s, n, j + 1);
    }
  }

  /** The index sort lists the positions of `x` in the order `o`, equal
      keys in position order. */
  lemma SortIndicesSortsStably(o: Order, x: seq<int>)
    ensures SortsStably(o, x, SortIndices(o, x, |x|))
  {
    var r := SortIndices(o, x, |x|);
    assert forall a, b :: 0 <= a < b < |r| ==> !Before(o, At(x, r)[b], At(x, r)[a]);
  }

  /** `asc` and `desc` of a dict: the entries reordered by the stable
      sorting permutation of the values, so the values come out sorted,
      equal values keep their keys in position order, and every entry stays
      paired with its key. */
  function SortDict<K>(o: Order, d: Dict<K, int>): (r: Dict<K, int>)
    requires d.Valid()
    ensures r.Valid() && |r.keys| == |d.keys|
    ensures r.vals == SortValues(o, d.vals, |d.vals|)
    ensures exists p :: SortsStably(o, d.vals, p) && r.keys == At(d.keys, p) && r.vals == At(d.vals, p)
    ensures forall j :: 0 <= j < |r.keys| ==>
      exists k :: 0 <= k < |d.keys| && r.keys[j] == d.keys[k] && r.vals[j] == d.vals[k]
  {
    var i := SortIndices(o, d.vals, |d.vals|);
    SortIndicesAt(o, d.vals, |d.vals|);
    SortIndicesSortsStably(o, d.vals);
    AtPairs(d, i);
    Dict(At(d.keys, i), At(d.vals, i))
  }

  /** Picking entries of a dict by position keeps keys paired with their
      values. */
  lemma AtPairs<K>(d: Dict<K, int>, i: seq<int>)
    requires d.Valid() && InRange(i, |d.keys|)
    ensures forall j :: 0 <= j < |i| ==>
      exists k :: 0 <= k < |d.keys| && At(d.keys, i)[j] == d.keys[k] && At(d.vals, i)[j] == d.vals[k]
  {
    forall j | 0 <= j < |i|
      ensures exists k :: 0 <= k < |d.keys| && At(d.keys, i)[j] == d.keys[k] && At(d.vals, i)[j] == d.vals[k]
    {
      var k := i[j];
      assert At(d.keys, i)[j] == d.keys[k] && At(d.vals, i)[j] == d.vals[k];
    }
  }

  /** The sorted dict is fixed by the stable sort: any stable sorting
      permutation of the values picks out exactly its entries. */
  lemma SortDictIsTheStableSort<K>(o: Order, d: Dict<K, int>, p: seq<int>)
    requires d.Valid()
    ensures SortsStably(o, d.vals, p) ==> SortDict(o, d) == Dict(At(d.keys, p), At(d.vals, p))
  {
    if SortsStably(o, d.vals, p) {
      SortIndicesSortsStably(o, d.vals);
      StableSortUnique(o, d.vals, p, SortIndices(o, d.vals, |d.vals|));
    }
  }

  /** `iasc` and `idesc` of a dict: the keys in the order that stably sorts
      the values, which are the keys of the sorted dict. */
  function SortKeys<K>(o: Order, d: Dict<K, int>): (r: seq<K>)
    requires d.Valid()
    ensures |r| == |d.keys|
    ensures exists p :: SortsStably(o, d.vals, p) && r == At(d.keys, p)
    ensures r == SortDict(o, d).keys
  {
    SortIndicesSortsStably(o, d.vals);
    At(d.keys, SortIndices(o, d.vals, |d.vals|))
  }
}

=== FILE: values.dfy ===
/** The value model of qicq.

    A `vec<T>` is an owned, ordered, homogeneous sequence: here a Dafny
    `seq<T>`. A `dict<K,V>` is a key vec and a value vec side by side,
    searched by first-match linear scan. Everything is a value; operations
    build fresh results and never change their arguments. */
module Values {

  datatype Option<T> = None | Some(value: T) {
    /** The value, or `default` when there is none. */
    function GetOr(default: T): T {
      match this
      case Some(v) => v
      case None => default
    }
  }

  /** A dict: a key sequence and a value sequence. The constructor
      `dict(k, v)` does not check that the two have the same length, so
      that is the invariant `Valid` instead of part of the type. */
  datatype Dict<K, V> = Dict(keys: seq<K>, vals: seq<V>) {
    predicate Valid() {
      |keys| == |vals|
    }
  }

  /** No element occurs twice. */
  predicate NoDup<T(==)>(s: seq<T>) {
    forall i, j :: 0 <= i < j < |s| ==> s[i] != s[j]
  }

  /** `std::find` over a sequence as an index: the position of the first
      occurrence of `v`, or `|s|` when `v` does not occur. This is the
      library's `find` on a vec and an atom, and the lookup a dict uses. */
  function Find<T(==)>(s: seq<T>, v: T): (r: nat)
    ensures r <= |s|
    ensures r < |s| ==> s[r] == v
    ensures forall i :: 0 <= i < r ==> s[i] != v
    ensures r == |s| <==> v !in s
    decreases |s|
  {
    if |s| == 0 then 0
    else if s[0] == v then 0
    else 1 + Find(s[1..], v)
  }

  /** `find` is the first occurrence: `k` is the position of a first
      occurrence of `v` (or `|s|` when `v` is absent) exactly when `find`
      returns it. */
  lemma FindIsFirstOccurrence<T>(s: seq<T>, v: T, k: int)
    ensures Find(s, v) == k <==>
      0 <= k <= |s| && (k < |s| ==> s[k] == v) && (k == |s| ==> v !in s) &&
      forall i :: 0 <= i < k ==> s[i] != v
  {
  }

  /** Appending never moves the first occurrence of a value already present. */
  lemma FindAppend<T>(s: seq<T>, t: seq<T>, v: T)
    requires v in s
    ensures Find(s + t, v) == Find(s, v)
  {
    var i := Find(s, v);
    assert (s + t)[i] == v;
    assert forall j :: 0 <= j < i ==> (s + t)[j] == s[j];
  }

  /** A first occurrence inside a prefix is the first occurrence in that
      prefix too. */
  lemma FindInPrefix<T>(s: seq<T>, t: seq<T>, v: T)
    requires |t| <= |s| && s[..|t|] == t && Find(s, v) < |t|
    ensures Find(t, v) == Find(s, v)
  {
    var i := Find(s, v);
    assert t[i] == s[i];
    FindIsFirstOccurrence(t, v, i);
  }

  /** `dict::has`: some key equals `k`. */
  predicate Has<K(==), V>(d: Dict<K, V>, k: K) {
    k in d.keys
  }

  /** The const lookup `d(k)`: the value beside the first key equal to `k`.
      The source reads one past the end of the values for an absent key,
      so the key is required to be present. */
  function Get<K(==), V>(d: Dict<K, V>, k: K): (v: V)
    requires d.Valid() && Has(d, k)
    ensures forall i :: 0 <= i < |d.keys| && d.keys[i] == k && k !in d.keys[..i] ==> d.vals[i] == v
  {
    var i := Find(d.keys, k);
    assert forall j :: 0 <= j < |d.keys| && d.keys[j] == k && k !in d.keys[..j] ==> j == i by {
      assert d.keys[i] == k;
    }
    d.vals[i]
  }

  /** Assignment through the non-const lookup, `d(k) = v`: the first entry
      for `k` is overwritten, or `k` is appended with `v` when absent. */
  function Set<K(==), V>(d: Dict<K, V>, k: K, v: V): (r: Dict<K, V>)
    requires d.Valid()
    ensures r.Valid()
    ensures r.keys == if Has(d, k) then d.keys else d.keys + [k]
    ensures Has(r, k) && Get(r, k) == v
    ensures forall i :: 0 <= i < |d.keys| && d.keys[i] != k ==> Get(r, d.keys[i]) == Get(d, d.keys[i])
    ensures forall i :: 0 <= i < |d.keys| && i != Find(d.keys, k) ==> r.vals[i] == d.vals[i]
  {
    var i := Find(d.keys, k);
    if i < |d.keys| then
      var r := Dict(d.keys, d.vals[i := v]);
      assert forall p :: 0 <= p < |d.keys| && d.keys[p] != k ==> Find(r.keys, d.keys[p]) != i;
      r
    else
      var r := Dict(d.keys + [k], d.vals + [v]);
      assert Find(r.keys, k) == |d.keys| by {
        assert r.keys[|d.keys|] == k;
      }
      assert forall p :: 0 <= p < |d.keys| ==> Find(r.keys, d.keys[p]) == Find(d.keys, d.keys[p]) by {
        forall p | 0 <= p < |d.keys|
          ensures Find(r.keys, d.keys[p]) == Find(d.keys, d.keys[p])
        {
          FindAppend(d.keys, [k], d.keys[p]);
        }
      }
      r
  }

  /** The non-const lookup `d(k)` as a read (upsert-on-read): the value for
      `k`, and the dict afterwards, which has `k` appended with the default
      value `zero` when it was absent. */
  function Index<K(==), V>(d: Dict<K, V>, k: K, zero: V): (r: (V, Dict<K, V>))
    requires d.Valid()
    ensures r.1.Valid() && Has(r.1, k) && Get(r.1, k) == r.0
    ensures Has(d, k) ==> r.1 == d && r.0 == Get(d, k)
    ensures !Has(d, k) ==> r.0 == zero && r.1.keys == d.keys + [k] && r.1.vals == d.vals + [zero]
    ensures forall i :: 0 <= i < |d.keys| ==> Get(r.1, d.keys[i]) == Get(d, d.keys[i])
  {
    if Has(d, k) then (Get(d, k), d) else (zero, Set(d, k, zero))
  }

  /** The lookup of `k` as an option: `None` exactly when `k` is absent. */
  function Lookup<K(==), V>(d: Dict<K, V>, k: K): (r: Option<V>)
    requires d.Valid()
    ensures r.Some? <==> Has(d, k)
  {
    if Has(d, k) then Some(Get(d, k)) else None
  }

  /** `n` copies of `v`. */
  function Replicate<T>(n: nat, v: T): (r: seq<T>)
    ensures |r| == n
    ensures forall i :: 0 <= i < n ==> r[i] == v
  {
    seq(n, _ => v)
  }

  /** `til(n)`: the integers 0, 1, ..., n-1. */
  function Til(n: nat): (r: seq<int>)
    ensures |r| == n
    ensures forall i :: 0 <= i < n ==> r[i] == i
  {
    if n == 0 then [] else Til(n - 1) + [n - 1]
  }

  /** Every element is a valid index into a sequence of length `n`. */
  predicate InRange(idx: seq<int>, n: nat) {
    forall i :: 0 <= i < |idx| ==> 0 <= idx[i] < n
  }

  /** `at` with a vec of indices (`x(i)` for a vec `i`): the elements of `x`
      at the given positions, in the order of the indices. */
  function At<T>(x: seq<T>, idx: seq<int>): (r: seq<T>)
    requires InRange(idx, |x|)
    ensures |r| == |idx|
    ensures forall i :: 0 <= i < |idx| ==> r[i] == x[idx[i]]
    decreases |idx|
  {
    if |idx| == 0 then [] else [x[idx[0]]] + At(x, idx[1..])
  }

  lemma AtConcat<T>(x: seq<T>, a: seq<int>, b: seq<int>)
    requires InRange(a, |x|) && InRange(b, |x|)
    ensures InRange(a + b, |x|)
    ensures At(x, a + b) == At(x, a) + At(x, b)
  {
  }

  /** `at` of a dict with a vec of keys (`x(i)` for a dict `x`): the lookup
      of each key, in the order of the keys asked for. */
  function AtKeys<K(==), V>(d: Dict<K, V>, ks: seq<K>): (r: seq<V>)
    requires d.Valid() && forall i :: 0 <= i < |ks| ==> Has(d, ks[i])
    ensures |r| == |ks|
    ensures forall i :: 0 <= i < |ks| ==> r[i] == Get(d, ks[i])
  {
    seq(|ks|, i requires 0 <= i < |ks| => Get(d, ks[i]))
  }

  /** Asking a dict without repeated keys for all its keys gives back its
      values. */
  lemma AtAllKeys<K, V>(d: Dict<K, V>)
    requires d.Valid() && NoDup(d.keys)
    ensures AtKeys(d, d.keys) == d.vals
  {
    forall i | 0 <= i < |d.keys|
      ensures Get(d, d.keys[i]) == d.vals[i]
    {
      assert d.keys[i] !in d.keys[..i];
    }
  }

  /** `std::abs` on integers (the width of `int64_t` is not modelled). */
  function Abs(a: int): nat { if a < 0 then -a else a }

  /** Concatenation of a sequence of sequences, in order. */
  function Flatten<T>(s: seq<seq<T>>): (r: seq<T>)
    decreases |s|
  {
    if |s| == 0 then [] else Flatten(s[..|s| - 1]) + s[|s| - 1]
  }

  lemma {:induction false} FlattenConcat<T>(a: seq<seq<T>>, b: seq<seq<T>>)
    ensures Flatten(a + b) == Flatten(a) + Flatten(b)
    decreases |b|
  {
    if |b| == 0 {
      assert a + b == a;
    } else {
      var b' := b[..|b| - 1];
      assert (a + b)[..|a + b| - 1] == a + b';
      FlattenConcat(a, b');
    }
  }

  lemma FlattenSingle<T>(x: seq<T>)
    ensures Flatten([x]) == x
  {
    assert [x][..0] == [];
  }

  /** The total length of a flattened sequence is the sum of the lengths. */
  function TotalLength<T>(s: seq<seq<T>>): nat
    decreases |s|
  {
    if |s| == 0 then 0 else TotalLength(s[..|s| - 1]) + |s[|s| - 1]|
  }

  lemma {:induction false} FlattenLength<T>(s: seq<seq<T>>)
    ensures |Flatten(s)| == TotalLength(s)
    decreases |s|
  {
    if |s| > 0 {
      FlattenLength(s[..|s| - 1]);
    }
  }
}
